=== FILE: README.md ===
# polymoly decision core in Dafny

polymoly is a betting bot. It compares the Pinnacle sportsbook's odds on a game with the price of the matching
Polymarket prediction market. When the market sells the sportsbook's favourite cheaper than the sportsbook's implied
probability, it buys the favourite's token. A ledger records the bet, and a monitor later settles it from the token's
bid. This project models the decision pipeline between the network calls, one module per source file:

- `Odds` (`odds.dfy`), from core/odds_fetcher.py:
  - the per-game quote records and the favourite/underdog rule;
  - the clean half-point handicap filter;
  - the extraction of the Pinnacle h2h and spread prices from the feed;
  - the parse of the feed's game list. `_parse_games` is a method with a loop, proved against the function
    `ParsedGames`.
- `Matcher` (`matcher.dfy`), from core/matcher.py:
  - team-name normalisation and the market-question filter;
  - the "A vs. B" split and the token-id extraction;
  - the buy-side token;
  - the unique-candidate market search and the game/market pairing, as loops proved against filter functions.
- `Scanner` (`scanner.dfy`), from core/scanner.py:
  - the ordered gate chain for one matched game;
  - the best ask and the liquidity of an order book;
  - the gap-to-stake tier table;
  - the scan over all matched games.
- `Ledger` (`ledger.dfy`), from core/db.py: the bet and result tables as sequences inside `class DB`, with these
  operations:
  - insertion and settlement;
  - the pending and active-token queries;
  - the consecutive-loss count;
  - the statistics.
- `Execution` (`executor.dfy`), from core/executor.py: `class Executor`. It turns an opportunity into a fill-or-kill
  buy. It records a bet only when the venue reports a fill, and it respects the position cap.
- `Monitoring` (`monitor.dfy`), from core/monitor.py: `class Monitor`. It settles positions from the best bid and
  raises a sticky stop flag after a run of losses.
- `Polling` (`polling.dfy`), from `get_poll_interval` in main.py: the wait before the next pass.

`Wrappers`, `Seqs` and `Text` are shared helpers:

- an `Option` type;
- an order-preserving filter-map with its index lemmas, first/last-match search, and a stable sort by key;
- ASCII lower-casing, substring search and whitespace stripping.

Everything the program fetches is a parameter:

- the odds feed (already JSON-decoded);
- the Polymarket market list;
- the order books and bid books, as a map from token id to levels, where a missing token is a failed fetch;
- the venue's answer to an order;
- the clock.

Prices, odds and probabilities are `real`. Times are `int` seconds since the epoch.

Where the code and its documentation disagree, the model follows the code:

- A gap of 0.269 stakes $20, because the configured tiers put it in [0.20, 0.30).
- `MIN_LIQUIDITY_SHARES` is 30.
- `execute` has no guard against a second bet on a token that is already held. Only the cap on distinct pending
  tokens applies.

`PinnacleGame` as written in core/odds_fetcher.py:43-89 lacks four properties that other files read: `favorite_team`,
`favorite_odds`, `favorite_prob` and `favorite_is_home`. The model defines them as the favourite's name, odds and
implied probability, and as "the favourite is the home side" (`Odds.FavoriteTeam`, `Odds.FavoriteOdds`,
`Odds.FavoriteProb`, `Odds.FavoriteIsHome`).

config.py defines neither `POLL_INTERVALS` nor `DEFAULT_POLL_INTERVAL`. `Polling.GetPollInterval` takes both as
parameters. `Polling.DocumentedTiers` holds the periods from the module doc-comment of main.py.

## Model

| member | source | states |
|---|---|---|
| Odds.FavoriteSide | core/odds_fetcher.py:55-62 | home whenever home odds are at most the ceiling (even if away is too), else away if away is, and none exactly when both exceed it |
| Odds.Favorite | core/odds_fetcher.py:55-62 | the favourite's quote is at most the ceiling; the home quote wins a tie of eligibility; none iff both sides exceed the ceiling |
| Odds.Underdog | core/odds_fetcher.py:64-69 | none exactly when there is no favourite, otherwise the quote of the side opposite the favourite |
| Odds.HasFavorite | core/odds_fetcher.py:55-62 | a game has a favourite exactly when at least one side's odds are within the ceiling |
| Odds.FavoriteIsHome | core/matcher.py:53-56 | the favourite is the home side exactly when the home odds are within the ceiling, and then the game has a favourite |
| Odds.FavoriteTeam | core/executor.py:159 | the name of the home quote when the favourite is home, else of the away quote |
| Odds.FavoriteOdds | core/executor.py:160 | the favourite's odds, which are within the ceiling: the home odds when home is the favourite, else the away odds |
| Odds.FavoriteProb | core/scanner.py:125 | the implied probability of the home quote when home is the favourite, else of the away quote |
| Odds.Opposite | core/odds_fetcher.py:69 | the other side is never the same side |
| Odds.Abs | core/odds_fetcher.py:318 | absolute value: non-negative and equal to the point or its negation |
| Odds.IsCleanHandicap | core/odds_fetcher.py:312-322 | a clean point is non-zero and its magnitude lies within 0.01 above some half-point multiple |
| Odds.HalfPointRemainder | core/odds_fetcher.py:321 | `abs % 0.5` on exact reals: in [0, 0.5) and the excess over the largest half-point multiple |
| Odds.CleanHandicapIff | core/odds_fetcher.py:312-322 | a point is clean iff it is non-zero and its absolute value lies within the 0.01 tolerance above a half-point multiple |
| Odds.CleanHalfPoints | core/odds_fetcher.py:312-322 | every non-zero multiple of 0.5, of either sign, is clean |
| Odds.CleanHandicapSymmetric | core/odds_fetcher.py:317 | cleanliness does not depend on the sign |
| Odds.CleanHandicapExamples | core/odds_fetcher.py:313-316 | ±0.5, ±1.0, ±1.5, ±2.0 pass; 0, ±0.25, ±0.75, 0.8, 1.2 fail, as the doc-comment lists |
| Odds.CleanHandicapTolerance | core/odds_fetcher.py:321-322 | the tolerance also admits 0.505 and 0.005 |
| Odds.FindPinnacle | core/odds_fetcher.py:231-235 | the first bookmaker keyed "pinnacle", and none iff no bookmaker has that key |
| Odds.ScanH2hOutcomes | core/odds_fetcher.py:248-257 | the outcome loop keeps the price of the last priced outcome named after each team; the `elif` means a home-named outcome never sets the away price |
| Odds.ExtractH2hOdds | core/odds_fetcher.py:238-259 | only the first market keyed "h2h" is read, and (None, None) is returned when there is none |
| Odds.H2hHomePriceFromMarket | core/odds_fetcher.py:244-258 | a home price comes from an outcome of an "h2h" market carrying the home team's name and that price |
| Odds.ScanSpreadOutcomes | core/odds_fetcher.py:281-294 | only outcomes with both a price and a point count; the last such outcome per team wins |
| Odds.ExtractSpreadsOdds | core/odds_fetcher.py:261-309 | all-None when either side is missing, when the home point is not clean or when there is no spreads market; an accepted line has a clean home point |
| Odds.H2hPrices | core/odds_fetcher.py:238-259 | (None, None) when the bookmaker has no "h2h" market; an away price is the price of an outcome of an "h2h" market named after the away team and not the home team (the `elif`) |
| Odds.SpreadPrices | core/odds_fetcher.py:261-309 | nothing when the bookmaker has no "spreads" market; an accepted line's home price and point are those of an outcome of a "spreads" market named after the home team |
| Odds.SpreadHomePointClean | core/odds_fetcher.py:299-304 | every accepted spread line has a clean home point |
| Odds.SpreadAwayPointUnchecked | core/odds_fetcher.py:296-307 | the away point is not filtered: a line with away point 0.25 is accepted |
| Odds.ParseOne | core/odds_fetcher.py:169-226 | a game is kept only with a parsed time, a Pinnacle bookmaker, both prices and a favourite; it carries the raw id, teams, sport, ceiling and start; each side's implied probability is the inverse of its odds; spread games carry a clean home point and h2h games no points |
| Odds.ParseRawGame | core/odds_fetcher.py:169-226 | one pass of the parse loop does what `ParseOne` specifies |
| Odds.ParseGames | core/odds_fetcher.py:160-228 | the parse loop returns the kept games, or fails as a whole when some game reaches the division with zero odds |
| Odds.ParsedGames | core/odds_fetcher.py:160-228 | a successful parse yields at most one game per raw game, and an empty feed yields no games |
| Odds.ParsedGamesSubsequence | core/odds_fetcher.py:167-228 | the output is an order-preserving subsequence of the input: at strictly increasing positions, each game came from the raw game at its position, and every raw game that yields a game is included; all have a favourite |
| Odds.ZeroOddsAbortsParse | core/odds_fetcher.py:198-207 | zero odds on a game that reaches the division abort the whole parse |
| Matcher.BuyTokenId | core/matcher.py:53-60 | the YES token when the favourite is the home side, else the NO token |
| Matcher.BuyTokenLabel | core/matcher.py:62-64 | "YES" exactly when the favourite is home, else "NO", consistent with the token bought |
| Matcher.Normalize | core/matcher.py:91-93 | the mapped short name when the full name is a key, else the name unchanged |
| Matcher.IsMatchup | core/matcher.py:158-176 | a question is a matchup iff it does not start with "will ", contains none of the six keywords, contains " vs" (all lower-cased) and has no colon |
| Matcher.MatchupExamplePasses | core/matcher.py:161 | "Heat vs. 76ers" is a matchup |
| Matcher.ExampleHasNoKeyword | core/matcher.py:168 | none of the market-type keywords occurs in "heat vs. 76ers" |
| Matcher.MatchupExamplesRejected | core/matcher.py:162-163 | "Will …", a colon sub-market and an O/U question are rejected |
| Matcher.SpaceRunEnd | core/matcher.py:181 | the end of a whitespace run, for the `\s+` of the separator |
| Matcher.SeparatorEnd | core/matcher.py:181 | a separator match starts with whitespace, spans at least four characters and ends before a non-space |
| Matcher.SplitFrom | core/matcher.py:181 | splitting always yields at least one part |
| Matcher.SplitOnVs | core/matcher.py:181 | at least one piece, and a question without whitespace is its own single piece |
| Matcher.SplitTeams | core/matcher.py:179-184 | the two stripped parts when the split yields exactly two, else ("", "") |
| Matcher.SplitSkipsWord | core/matcher.py:181 | no separator starts inside a run of non-space characters |
| Matcher.SplitTeamsJoin | core/matcher.py:179-184 | round trip: the question "A vs. B" for one-word team names A and B splits back into (A, B) |
| Matcher.VsSeparatorEnd | core/matcher.py:181 | the separator pattern matched at a written-out " vs. " that a non-space follows ends right after it |
| Matcher.SplitOnVsJoin | core/matcher.py:181 | "A vs. B" for one-word names A and B splits into exactly the pieces A and B |
| Matcher.ExtractTokenIds | core/matcher.py:202-213 | ("", "") unless both raw fields are truthy (a non-empty text or a non-empty list) and the ids hold at least two entries; then the first two ids |
| Matcher.OutcomesOnlyGate | core/matcher.py:204-206 | the outcomes' contents never change the result, only whether the raw field is truthy |
| Matcher.EmptyOutcomeTextStillPasses | core/matcher.py:204-213 | outcomes given as the text "[]" still let the ids through, while an empty decoded list does not |
| Matcher.FindMarket | core/matcher.py:252-282 | the candidate loop returns the unique market passing the name and time filters, else none |
| Matcher.UniqueMarketIff | core/matcher.py:263-282 | a returned market is in the list, passes both filters, and is the only market that does; two or more candidates, or none, give none; exactly one candidate is returned |
| Matcher.OnlyCandidateReturned | core/matcher.py:263-276 | when exactly one market passes both filters, that market is the one returned |
| Matcher.UniqueMarket | core/matcher.py:263-276 | a returned market is one of the list and passes the name-containment and the three-hour time test |
| Matcher.NameMatches | core/matcher.py:264-267 | a matching name is never longer than the market's "home_short away_short" text, and a market whose short names equal the two names up to case always matches |
| Matcher.TimeMatches | core/matcher.py:269-271 | the start times differ by at most three hours, either way |
| Matcher.OneHitOnlyCandidate | core/matcher.py:263-276 | a single hit is a market of the list that passes both tests, and no other market does |
| Matcher.TwoCandidatesTwoHits | core/matcher.py:263-282 | two markets passing both tests give at least two hits |
| Matcher.MatchGames | core/matcher.py:218-249 | the pairing loop computes the filter of the games by unique market |
| Matcher.MatchedGames | core/matcher.py:218-249 | no more pairs than games, and every pair joins an input game with a market of the list |
| Matcher.MatchedGamesProperties | core/matcher.py:230-249 | the output preserves game order and is no longer than the input; each entry pairs an input game with a member of the market list that passes both filters; a game is paired iff its market search succeeds |
| Matcher.MatchedGamesPairs | core/matcher.py:230-249 | each pair joins the game at its kept position with a market of the list that passes both tests |
| Matcher.MatchedGamesKept | core/matcher.py:230-249 | a game is kept exactly when its market search succeeds |
| Scanner.SumSizes | core/scanner.py:188 | a sum of non-negative sizes is non-negative |
| Scanner.LastLevels | core/scanner.py:187 | `asks[-n:]`: the last min(n, len) levels |
| Scanner.BestAskAndShares | core/scanner.py:175-190 | (None, 0) for no asks or a missing last price; otherwise the last level's price, with the shares summed over the last three levels |
| Scanner.SumSizesUpToThree | core/scanner.py:187-189 | the sum of one to three levels written out, with a missing size counting zero |
| Scanner.SharesOfLastThree | core/scanner.py:187-189 | shares are the sizes of the last one, two or three levels |
| Scanner.SharesIgnoreDeepLevels | core/scanner.py:187-189 | levels before the last three change neither price nor shares |
| Scanner.CalcBet | core/scanner.py:193-198 | the stake is some tier's amount or the maximum |
| Scanner.CalcBetFirstTier | core/scanner.py:193-198 | the amount of the first tier with g_min <= gap < g_max, and the maximum stake when no tier holds the gap |
| Scanner.ConfiguredStakes | config.py:28-37 | with the configured tiers: [0.15, 0.20) stakes 10, [0.20, 0.30) stakes 20, 0.30 and above stakes 30, and below 0.15 stakes the maximum 30 |
| Scanner.GapExampleStake | config.py:33-37 | a gap of 0.269 (ask 0.45 against a 1.40 favourite) stakes 20, the [0.20, 0.30) tier, not 30 |
| Scanner.ConfiguredStakeMonotone | config.py:33-37 | above the gap threshold, the configured stake never decreases as the gap grows |
| Scanner.Evaluate | core/scanner.py:99-155 | an accepted opportunity is for the game examined |
| Scanner.HoursUntilStart | core/odds_fetcher.py:71-73 | the seconds to the start over 3600: positive iff the game is still ahead, at least 1 iff an hour or more ahead, at most 24 iff a day or less ahead |
| Scanner.EvaluateSound | core/scanner.py:106-144 | a rejection names a gate that fails, and every earlier gate passes |
| Scanner.RejectedGateFails | core/scanner.py:106-144 | the gate a rejection names fails on its own terms |
| Scanner.EarlierGatePasses | core/scanner.py:106-144 | each gate before the rejecting one, and every gate of an acceptance, passes |
| Scanner.EvaluateFirstFailingGate | core/scanner.py:106-155 | the rejection is exactly the first failing gate in the order window, book, ask, price ceiling, gap, liquidity; acceptance iff every gate passes |
| Scanner.AcceptedQualifies | core/scanner.py:146-155 | an accepted opportunity's price is the best ask and below the ceiling, its gap is probability minus ask and at least the threshold, its liquidity meets the floor, its stake is the tiered stake of its gap, and the game is inside the window |
| Scanner.TimeGateIgnoresBook | core/scanner.py:107-113 | outside the inclusive [deadline, window] hours the game is rejected whatever the order book says |
| Scanner.Scan | core/scanner.py:82-96 | the scan loop computes the filter of the matched games by `_check` |
| Scanner.CheckOf | core/scanner.py:89-92 | an opportunity produced for a matched game is for that game, which has a favourite |
| Scanner.Scanned | core/scanner.py:82-96 | at most one opportunity per game, each for one of the matched games |
| Scanner.ScannedProperties | core/scanner.py:82-96 | the output is an order-preserving subsequence with at most one opportunity per game, each one meeting every gate on its own token's book; conversely every game with a favourite that passes every gate on that book is included |
| Ledger.SettledRows | core/db.py:109-112 | rows with another id are unchanged; the row with the id gets the outcome, pnl and settlement time and keeps its entry and bet time |
| Ledger.NewResults | core/db.py:113-119 | no more result rows than bet rows; each carries the settled id, outcome, P&L and time, and the order id of a bet row with that id |
| Ledger.SettleUnknownIdNoop | core/db.py:105-119 | settling an id that is not in the table changes nothing and inserts no result |
| Ledger.SettleAppendsOneResult | core/db.py:113-119 | settling an existing bet that has an order id inserts exactly one result row with its id and order id; no pending guard, so settling again inserts the same row again |
| Ledger.PendingBets | core/db.py:124-129 | exactly the pending rows (as a multiset, and by membership both ways), sorted by bet time |
| Ledger.PendingBetsInTableOrder | core/db.py:127 | when the table is already in bet-time order, the pending rows come back in table order |
| Ledger.ActiveTokenIds | core/db.py:131-134 | a token is active iff some pending row carries it, so duplicates count once |
| Ledger.InsertActivates | core/db.py:85-103 | appending a pending row adds exactly its token to the active set |
| Ledger.SettleDeactivates | core/db.py:110-134 | after settling with win or loss, the bet is no longer pending and the active set does not grow |
| Ledger.RecentSettled | core/db.py:137-146 | min(10, n) rows drawn from the n rows settled win or loss, newest settlement first, and no settled row left out is newer than the oldest returned |
| Ledger.LeadingLosses | core/db.py:147-153 | the count of losses before the first non-loss |
| Ledger.RecentSettledNewestFirst | core/db.py:139-146 | when settlement times increase along the table, the recent rows are the last ten settled rows reversed |
| Ledger.AllSettledRecent | core/db.py:139-146 | when every row is settled and settlement times increase along the table, the recent rows are the table's last ten, newest first |
| Ledger.ConsecutiveLossExamples | core/db.py:136-153 | on a four-row table settled one row after another, the query and the counting loop give 3 for win, loss, loss, loss and 1 for loss, loss, win, loss (oldest first) |
| Ledger.CountOutcome | core/db.py:161-163 | a count of rows never exceeds the table size |
| Ledger.GetStats | core/db.py:155-168 | total is the row count; on an empty table the sums are NULL; otherwise wins, losses and pending are the per-outcome counts and the P&L is the sum with NULL read as zero |
| Ledger.OutcomeCountsPartition | core/db.py:161-163 | when every outcome is win, loss or pending, the three counts add up to the row count |
| Ledger.StatsTotal | core/db.py:155-168 | total = wins + losses + pending |
| Ledger.SumPnlOfUnsettled | core/db.py:164 | unsettled rows contribute zero P&L |
| Ledger.SumPnl | core/db.py:164 | the P&L total with NULL read as zero is never negative when no row lost money and never positive when no row made any |
| Ledger.RunSettlement | core/db.py:108-119 | the transaction fails exactly when the results insert would store a NULL order id; otherwise it gives the updated rows and the inserted results |
| Ledger.DB.constructor | core/db.py:24-64 | empty tables; the first id is 1 |
| Ledger.DB.InsertBet | core/db.py:70-103 | appends one pending row with NULL pnl and settlement time and returns a fresh id larger than every existing one; other rows and the results are unchanged |
| Ledger.DB.SettleBet | core/db.py:105-120 | commits the row update and the results insert together, or on the NOT NULL violation rolls both back |
| Ledger.DB.CountConsecutiveLosses | core/db.py:136-153 | the counting loop with `break` returns the number of losses before the first win among the min(10, n) newest of the n win/loss rows, hence at most ten |
| Ledger.CountLeadingLosses | core/db.py:147-153 | the loop that stops at the first row that is not a loss returns exactly the number of losses in front |
| Execution.OrderFor | core/executor.py:132-146 | a FOK BUY of the favourite's token for the stake, with the best ask as the worst price |
| Execution.ResponseOrderId | core/executor.py:148-149 | `orderID` when it is a non-empty string, else `order_id` |
| Execution.ResponseStatus | core/executor.py:149 | the status field, or empty text when it is missing |
| Execution.Filled | core/executor.py:152-153 | a fill is exactly a response whose status is present and is `matched` or `delayed`; a raise is never a fill |
| Execution.EntryFor | core/executor.py:155-170 | the recorded bet carries the opportunity's token, stake, price, gap, probability and favourite, and the response's order id |
| Execution.PlacementResult | core/executor.py:148-196 | success iff the status is matched or delayed, keeping that status; any other status is `fok_cancelled` with the response's order id; an exception is `error` with no order id |
| Execution.Executor.constructor | core/executor.py:58-60 | the ledger is attached and no client is set up |
| Execution.Executor.Initialize | core/executor.py:66-90 | raises exactly when a credential is missing; the client is ready afterwards otherwise |
| Execution.Executor.HasPosition | core/executor.py:92-94 | a token is held iff some pending ledger row carries it |
| Execution.Executor.Execute | core/executor.py:96-114 | without a client: `error`, no order and no write; at the position cap: `skipped`, no order and no write; otherwise the FOK order is built and placed; a success appends exactly one pending row and the token is then held; a failure leaves the ledger as it was; the cap is never exceeded |
| Execution.Executor.PlaceOrder | core/executor.py:116-196 | exactly one ledger insert on a fill, carrying the opportunity's data, which adds the token to the active set; no write otherwise |
| Monitoring.BestBid | core/monitor.py:89-106 | nothing for a failed fetch or an empty bid list, else the first bid's price, with a missing price read as zero |
| Monitoring.WinPnl | core/monitor.py:71-73 | a positive stake on a token bought below one dollar wins a positive P&L; bought at one dollar or more it wins nothing |
| Monitoring.LossPnl | core/monitor.py:80-82 | the loss P&L is negative exactly when the stake is positive |
| Monitoring.Decide | core/monitor.py:60-87 | no bid or a bid strictly between 0.05 and 0.95 holds; at least 0.95 wins stake/price - stake (raises on a zero price); at most 0.05 loses the stake |
| Monitoring.ApplyDecision | core/monitor.py:60-87 | raises exactly on a zero entry price at a winning bid or on a settlement whose results insert would store a NULL order id; a raise or a hold changes neither table; the bet table keeps its length and results are only appended |
| Monitoring.ApplyAll | core/monitor.py:49-52 | the bet table keeps its length, and a pass raises only when some bid reached a threshold |
| Monitoring.CheckStep | core/monitor.py:49-52 | one more bet keeps the bet table's length, and raises only if the pass had raised or the bet's bid reached a threshold |
| Monitoring.ApplyAllStops | core/monitor.py:49-52 | once a bet's check raises, the later bets are not examined |
| Monitoring.QuietPassChangesNothing | core/monitor.py:67-69 | a pass in which every bid holds leaves both tables unchanged |
| Monitoring.ApplyAllOnlySettles | core/monitor.py:49-52 | a pass keeps every row's id and entry, only moves rows out of pending, and only appends results |
| Monitoring.SettleOneRow | core/db.py:105-119 | settling a row whose id is unique and which has an order id raises nothing and changes that row alone |
| Monitoring.SettlesInTurn | core/monitor.py:49-52 | when every bet of a table settles, the first n bets of the pass settle rows 0 to n - 1, row k stamped at the pass clock plus k, and leave the rest untouched |
| Monitoring.PassSettlesNewestLast | core/monitor.py:44-58 | a pass over an all-pending table in bet-time order whose bets all settle raises nothing, stamps row k at the pass clock plus k, and the loss-count query then reads the table newest first |
| Monitoring.BreakerTripsWithinOnePass | core/monitor.py:49-58 | a win followed by three losses settled in the same pass counts three losses in a row, which reaches the limit |
| Monitoring.Monitor.constructor | core/monitor.py:32-35 | the stop flag starts down |
| Monitoring.Monitor.CheckOne | core/monitor.py:60-87 | settles one bet exactly as `Decide` classifies its bid |
| Monitoring.PassOnce | core/monitor.py:44-58 | a pass with no pending bets changes nothing; a pass never lowers the flag, keeps the bet table's length, and raises the flag only when the loss query reaches the limit; a raising pass leaves the flag as it was |
| Monitoring.RunStep | core/monitor.py:40-42 | once the flag is up or a pass raised, nothing changes; otherwise one more pass is counted |
| Monitoring.RunPasses | core/monitor.py:37-42 | a run never counts more passes than it is given, runs none when the flag starts up, runs them all unless the flag goes up or a pass raises, and counts the raising pass |
| Monitoring.RunPassesStops | core/monitor.py:40-42 | once the flag is up or a pass raised after some prefix of passes, the later passes change nothing |
| Monitoring.OnlyWhileFlagDown | core/monitor.py:40-42 | every pass the run counts started with the flag down and no earlier raise, and is exactly one `_check_all` on the tables the earlier passes left |
| Monitoring.BreakerEndsRun | core/monitor.py:40-58 | when the first pass settles a win followed by three losses, the run stops after that pass with the flag up, whatever passes follow |
| Monitoring.Monitor.CheckAll | core/monitor.py:44-58 | with no pending bets it returns at once and leaves the flag alone; otherwise it checks the pending bets in bet-time order, each settlement stamped one tick after the previous, and, unless one raised, the flag becomes up iff it was up or the consecutive losses reach 3; tables, flag and raise are those of `PassOnce` |
| Monitoring.Monitor.CheckEach | core/monitor.py:49-52 | the loop over pending bets does what the pass function specifies, the bet at position i settled at the pass clock plus i, stopping at the first exception |
| Monitoring.Monitor.Run | core/monitor.py:37-42 | the final tables, flag, pass count and raise are those `RunPasses` gives for the passes, so no pass runs once the flag is up and the loop ends early only through the flag or an exception |
| Polling.MinOf | main.py:102 | the minimum is a member of the list and at most every element |
| Polling.HoursList | main.py:102 | the hours until each matched game starts |
| Polling.TierInterval | main.py:104-108 | the interval of the first tier with hrs_min <= h < hrs_max, or the default when none holds h; always a tier interval or the default |
| Polling.GetPollInterval | main.py:94-108 | the default for no games; otherwise the tier interval of the minimum hours until start; always a tier interval or the default |
| Polling.LaterGameIrrelevant | main.py:102 | adding a game that starts no sooner than one already matched leaves the interval unchanged |
| Polling.DocumentedIntervals | main.py:15-17 | with the documented tiers: 24 to 6 hours waits 4 hours, 6 to 2 waits 2 hours, 2 to 1 waits 30 minutes, else the default |
| Polling.DocumentedIntervalsShrink | main.py:15-17 | within the documented window, a sooner game never gives a longer wait |

## Left out

- HTTP and SDK I/O are not modelled. This covers `fetch_all_sports`, `_fetch_sport`, `fetch_nba_poly_markets`,
  `_fetch_orderbook`, `_fetch_best_bid`'s request and the `py_clob_client` calls. Their results are parameters:
  - the decoded feed;
  - the market list;
  - maps from token id to book levels;
  - `VenueResponse` for `post_order`, with `Raised` for an exception from any client call.
- `Execution.Executor.Initialize` models `_init_client` as a flag: whether the five credentials are all present. The
  client object itself is library code.
- SQLite mechanics are not modelled: connections, SQL text and the autoincrement counter. The tables are sequences in
  `Ledger.DB`, and the id counter is `nextId`.
- `Ledger.DB.constructor` models a new ledger file: empty tables and `nextId == 1`. Because the schema is created with
  `CREATE TABLE IF NOT EXISTS` (core/db.py:34-63), reopening an existing file keeps its rows and its AUTOINCREMENT
  counter; such a reopened ledger is any `Valid()` `DB` handed to `Execution.Executor` or `Monitoring.Monitor`, whose
  contracts assume only `Valid()`.
- `Ledger.DB.InsertBet` cannot fail. In the source a write error (disk, lock) raised by `insert_bet` after the venue
  filled the order lands in `_place_order`'s `except` (core/executor.py:191-196): the result is `error` with no order
  id and no ledger row, although the position is held. The model's `Execution.Executor.PlaceOrder` always records a
  fill. The schema's NOT NULL columns cannot be violated by this insert, so only such I/O errors are left out.
- JSON `null` values are not modelled: a missing key and a `null` value are the same `None` in `Scanner.Level` and the
  other decoded records. In the source a `null` first-bid price makes `float(None)` raise inside `_fetch_best_bid`,
  which returns nothing so the position holds (core/monitor.py:103-106); in the model a price-less first bid reads as
  0.0 and settles as a loss. A `null` size raises uncaught in the scanner (core/scanner.py:189), whereas
  `Scanner.SumSizes` counts it as zero.
- `Ledger.PendingBets` fixes the order of rows with equal `bet_at` as table order (a stable sort). SQL leaves the order
  of such ties unspecified.
- `Ledger.RecentSettled` compares settlement times as integers. A NULL `settled_at` sorts as time 0. The source sorts
  ISO-8601 text.
- Date and JSON parsing are not modelled (`datetime.fromisoformat`, `_parse_gst`, `json.loads`). Times arrive as `int`
  seconds, or `None` when the text did not parse. A list field given as JSON text carries the list it decodes to
  (`Matcher.RawList`); only its truthiness as text is computed.
- Floating-point behaviour is not modelled. Arithmetic is exact on reals. These roundings are dropped:
  - `round(1/odds, 4)` for the implied probability;
  - `round(…, 2)` on P&L and on the statistics sum;
  - `round(…, 6)` inside `_is_clean_handicap`.
  The float `%` with its 0.01 tolerance is kept, on exact reals.
- `Monitoring.WinPnl` is not rounded to cents.
- Lower-casing and whitespace are ASCII only (`Text.Lower`, `Text.IsSpace`). `IsSpace` holds for space, tab, line
  feed, carriage return, vertical tab, form feed and 0x1C to 0x1F. Python's Unicode case mapping and its non-ASCII
  whitespace are not modelled.
- `Scanner.Scan` judges every game of one scan at the same clock reading `now`. The source reads the clock for each game
  after awaiting that game's order-book fetch. A game close to the one-hour deadline or the 24-hour window can
  therefore be judged differently by the model.
- `Polling.GetPollInterval` (through `Polling.HoursList`) likewise measures every game from one clock reading `now`.
  The source calls `hours_until_start()` once per game (main.py:102), and each call reads the clock anew, so the
  minimum it takes mixes readings microseconds apart.
- `Monitoring.BestBid` takes the first bid of the book, as the source does. The order in which the venue lists bids is not
  modelled, so the model does not show whether that first bid is the highest.
- `Scanner.Scan` requires every matched game to have a favourite. Parsing keeps only such games. In the source, a game
  without one would raise on `favorite_prob`.
- `Execution.Executor.Execute` requires the game to have a favourite. The parser guarantees this. In the source, a game
  without one would raise after the order was posted.
- Logging, message texts, `ExecutionResult.message` and the `detected_at`/`timestamp` fields are not modelled.
- core/notifier.py is not part of this model: it sends Telegram messages and nothing else.
- The credit and budget governor is not part of this model. config.py:45-48 holds only constants that nothing reads.
- The main.py orchestration (`polling_loop`, `main`, `setup_logging`) is not part of this model. The same goes for the
  concurrent pairing of the polling and monitor loops. Of main.py only `get_poll_interval` is modelled.
- `Monitoring.Monitor` keeps no `executor` field. core/monitor.py stores the executor but never uses it.
- The clock is modelled as one tick per settlement. Within a pass the bet at position i is settled at the pass clock
  plus i, so settlement times strictly increase in the order the bets are settled, as consecutive `datetime.now()`
  calls do at microsecond resolution. Nothing relates the clocks of different passes: each pass's clock is a parameter.
- `Monitoring.Monitor.Run` runs over a finite list of passes instead of forever. The 600-second sleep between passes is
  not modelled.
- `Execution.Executor.Initialize` does not model the async `initialize` wrapper.
- The diagnostic and test scripts are not part of this model: they are network calls and printing.

=== FILE: executor.dfy ===
/**
 * Order execution (core/executor.py): the `Executor` turns an opportunity
 * into a fill-or-kill market buy and records a bet in the ledger only when
 * the venue reports the order filled.
 *
 * The venue client is abstracted: whether it has been set up is a flag, and
 * what the venue answers to the order (or that one of the client calls
 * raised) is a parameter.
 */
module Execution {
  import opened Wrappers
  import opened Odds
  import opened Matcher
  import opened Scanner
  import opened Ledger

  /** `MAX_POSITIONS` of config.py. */
  const MaxPositions: nat := 5

  const Matched: string := "matched"
  const Delayed: string := "delayed"
  const FokCancelled: string := "fok_cancelled"
  const Error: string := "error"
  const Skipped: string := "skipped"

  /** `MarketOrderArgs`: spend `amount` USDC on `tokenId`, paying at most `price` a share. */
  datatype MarketOrder = MarketOrder(tokenId: string, amount: real, side: string, price: real)

  /** The order the executor builds for `post_order`, with its order type; whether it reaches the venue depends on the client calls before it. */
  datatype PostedOrder = PostedOrder(order: MarketOrder, orderType: string)

  /** What the client calls produced: an exception, or the fields of the `post_order` response that are read. */
  datatype VenueResponse =
    | Raised
    | Response(orderIDField: Option<string>, orderIdField: Option<string>, status: Option<string>, errorMsg: Option<string>)

  /** `ExecutionResult` without its message text and timestamp. */
  datatype ExecutionResult = ExecutionResult(success: bool, orderId: Option<string>, status: string, opportunity: Opportunity)

  /** The FOK buy `_place_order` submits: the stake as the amount and the best ask as the worst price. */
  function OrderFor(opp: Opportunity): (o: PostedOrder)
    ensures o.order.tokenId == BuyTokenId(opp.matched)
    ensures o.order.amount == opp.betUsdc && o.order.price == opp.polyPrice
    ensures o.order.side == "BUY" && o.orderType == "FOK"
  {
    PostedOrder(MarketOrder(OppTokenId(opp), opp.betUsdc, "BUY", opp.polyPrice), "FOK")
  }

  /** `resp.get("orderID") or resp.get("order_id")`: the first field when it is a non-empty string, else the second. */
  function ResponseOrderId(r: VenueResponse): (id: Option<string>)
    requires r.Response?
    ensures r.orderIDField.Some? && r.orderIDField.value != "" ==> id == r.orderIDField
    ensures r.orderIDField.None? || r.orderIDField.value == "" ==> id == r.orderIdField
  {
    if r.orderIDField.Some? && r.orderIDField.value != "" then r.orderIDField else r.orderIdField
  }

  /** `resp.get("status", "")`: the status field, or empty text when it is missing. */
  function ResponseStatus(r: VenueResponse): (s: string)
    requires r.Response?
    ensures r.status.None? ==> s == ""
    ensures r.status.Some? ==> s == r.status.value
  {
    r.status.GetOr("")
  }

  /**
   * The venue filled the order, at once or after the sports-market delay; a
   * raise or a response without a status never counts as a fill.
   */
  predicate Filled(r: VenueResponse): (b: bool)
    ensures b <==> r.Response? && r.status.Some? && (r.status.value == Matched || r.status.value == Delayed)
  {
    r.Response? && (ResponseStatus(r) == Matched || ResponseStatus(r) == Delayed)
  }

  /** The columns `_place_order` gives `insert_bet` for a filled opportunity. */
  function EntryFor(opp: Opportunity, orderId: Option<string>): (e: BetEntry)
    requires HasFavorite(opp.matched.pinnacle)
    ensures e.tokenId == BuyTokenId(opp.matched) && e.betUsdc == opp.betUsdc
    ensures e.polyPrice == opp.polyPrice && e.gapSize == opp.gapSize && e.orderId == orderId
    ensures e.pinnacleProb == opp.pinnacleProb && e.favoriteTeam == FavoriteTeam(opp.matched.pinnacle)
  {
    var g := opp.matched.pinnacle;
    BetEntry(g.gameId, opp.matched.poly.question, OppTokenId(opp), BuyTokenLabel(opp.matched),
             FavoriteTeam(g), FavoriteOdds(g), opp.pinnacleProb, opp.polyPrice, opp.gapSize,
             opp.betUsdc, orderId, g.commenceTime)
  }

  /**
   * The result `_place_order` reports for a response: an exception is an
   * error with no order id; a fill keeps the response's status; anything
   * else is a cancelled fill-or-kill. Only a fill is a success.
   */
  function PlacementResult(opp: Opportunity, r: VenueResponse): (res: ExecutionResult)
    ensures res.opportunity == opp
    ensures res.success <==> Filled(r)
    ensures r.Raised? ==> res == ExecutionResult(false, None, Error, opp)
    ensures Filled(r) ==> res.status in {Matched, Delayed} && res.orderId == ResponseOrderId(r)
    ensures r.Response? && !Filled(r) ==> res == ExecutionResult(false, ResponseOrderId(r), FokCancelled, opp)
  {
    if r.Raised? then ExecutionResult(false, None, Error, opp)
    else if Filled(r) then ExecutionResult(true, ResponseOrderId(r), ResponseStatus(r), opp)
    else ExecutionResult(false, ResponseOrderId(r), FokCancelled, opp)
  }

  /** The order executor: the ledger it records fills in, and whether its venue client is set up. */
  class Executor {
    var db: DB
    var clientReady: bool

    constructor (db: DB)
      ensures this.db == db && !clientReady
    {
      this.db := db;
      clientReady := false;
    }

    /**
     * `_init_client`: raises (and leaves the client unset) when any of the
     * five credentials is missing, otherwise sets the client up.
     */
    method Initialize(credentialsComplete: bool) returns (raised: bool)
      modifies this
      ensures raised <==> !credentialsComplete
      ensures clientReady == (old(clientReady) || credentialsComplete)
      ensures db == old(db)
    {
      if !credentialsComplete {
        return true;
      }
      clientReady := true;
      return false;
    }

    /** `has_position`: some pending ledger row is for the token. */
    function HasPosition(tokenId: string): (r: bool)
      reads this, db
      ensures r <==> exists k :: 0 <= k < |db.bets| && db.bets[k].outcome == Pending && db.bets[k].entry.tokenId == tokenId
    {
      tokenId in ActiveTokenIds(db.bets)
    }

    /**
     * `execute`: an error when the client is not set up and a skip when the
     * distinct pending tokens already fill the position cap, neither placing
     * an order nor touching the ledger; otherwise the order is built and
     * placed. `built` is the order built; when the placement raised, it may
     * never have been posted.
     */
    method Execute(opp: Opportunity, response: VenueResponse, now: int) returns (result: ExecutionResult, built: Option<PostedOrder>)
      requires db.Valid() && HasFavorite(opp.matched.pinnacle)
      modifies db
      ensures db.Valid()
      ensures !clientReady ==> result == ExecutionResult(false, None, Error, opp) && built.None?
      ensures clientReady && |ActiveTokenIds(old(db.bets))| >= MaxPositions ==>
        result == ExecutionResult(false, None, Skipped, opp) && built.None?
      ensures clientReady && |ActiveTokenIds(old(db.bets))| < MaxPositions ==>
        result == PlacementResult(opp, response) && built == Some(OrderFor(opp))
      ensures result.success ==>
        && db.bets == old(db.bets) + [Bet(old(db.nextId), EntryFor(opp, result.orderId), now, Pending, None, None)]
        && db.nextId == old(db.nextId) + 1
        && db.results == old(db.results)
        && HasPosition(BuyTokenId(opp.matched))
      ensures !result.success ==> db.bets == old(db.bets) && db.results == old(db.results) && db.nextId == old(db.nextId)
      ensures |ActiveTokenIds(old(db.bets))| <= MaxPositions ==> |ActiveTokenIds(db.bets)| <= MaxPositions
    {
      if !clientReady {
        return ExecutionResult(false, None, Error, opp), None;
      }
      var active := |ActiveTokenIds(db.bets)|;
      if active >= MaxPositions {
        return ExecutionResult(false, None, Skipped, opp), None;
      }
      result := PlaceOrder(opp, response, now);
      built := Some(OrderFor(opp));
    }

    /**
     * `_place_order`: submits the FOK buy and, only when the venue reports it
     * filled, records exactly one pending bet carrying the opportunity's
     * token, stake, price and gap and the response's order id.
     */
    method PlaceOrder(opp: Opportunity, response: VenueResponse, now: int) returns (result: ExecutionResult)
      requires db.Valid() && HasFavorite(opp.matched.pinnacle)
      modifies db
      ensures db.Valid()
      ensures result == PlacementResult(opp, response)
      ensures result.success ==>
        && db.bets == old(db.bets) + [Bet(old(db.nextId), EntryFor(opp, result.orderId), now, Pending, None, None)]
        && db.nextId == old(db.nextId) + 1
        && db.results == old(db.results)
        && ActiveTokenIds(db.bets) == ActiveTokenIds(old(db.bets)) + {BuyTokenId(opp.matched)}
        && |ActiveTokenIds(db.bets)| <= |ActiveTokenIds(old(db.bets))| + 1
      ensures !result.success ==> db.bets == old(db.bets) && db.results == old(db.results) && db.nextId == old(db.nextId)
    {
      if response.Raised? {
        return ExecutionResult(false, None, Error, opp);
      }
      var orderId := ResponseOrderId(response);
      var status := ResponseStatus(response);
      if status == Matched || status == Delayed {
        var entry := EntryFor(opp, orderId);
        var _ := db.InsertBet(entry, now);
        InsertActivates(old(db.bets), Bet(old(db.nextId), entry, now, Pending, None, None));
        return ExecutionResult(true, orderId, status, opp);
      }
      return ExecutionResult(false, orderId, FokCancelled, opp);
    }
  }
}

=== FILE: ledger.dfy ===
/**
 * The bet ledger (core/db.py): the `bets` table, whose rows are born
 * `pending` and are settled to an outcome, the `results` table that each
 * settlement appends to, and the queries the bot runs over them.
 *
 * The tables are sequences of rows in insertion order, and the id counter
 * is the next id AUTOINCREMENT hands out. The clock is the parameter `now`
 * (seconds), so `bet_at` and `settled_at` are integers rather than ISO text.
 */
module Ledger {
  import opened Wrappers
  import opened Seqs

  const Pending: string := "pending"
  const Win: string := "win"
  const Loss: string := "loss"

  /** The columns `insert_bet` is given. */
  datatype BetEntry = BetEntry(
    gameId: string,
    eventTitle: string,
    tokenId: string,
    buyLabel: string,
    favoriteTeam: string,
    pinnacleOdds: real,
    pinnacleProb: real,
    polyPrice: real,
    gapSize: real,
    betUsdc: real,
    orderId: Option<string>,
    commenceTime: int)

  /** A row of `bets`; `pnl` and `settledAt` are NULL until the row is settled. */
  datatype Bet = Bet(id: nat, entry: BetEntry, betAt: int, outcome: string, pnl: Option<real>, settledAt: Option<int>)

  /** A row of `results`; every column is NOT NULL. */
  datatype ResultRow = ResultRow(betId: nat, orderId: string, outcome: string, pnl: real, settledAt: int)

  /** Ids increase along the table, start at 1 and stay below the next id to hand out. */
  predicate IdsOrdered(bets: seq<Bet>, nextId: nat) {
    && 1 <= nextId
    && (forall i :: 0 <= i < |bets| ==> 1 <= bets[i].id < nextId)
    && (forall i, j :: 0 <= i < j < |bets| ==> bets[i].id < bets[j].id)
  }

  // ---------------------------------------------------------------- settle_bet

  /** The UPDATE of `settle_bet` applied to one row. */
  function SettleRow(b: Bet, id: nat, outcome: string, pnl: real, now: int): Bet {
    if b.id == id then b.(outcome := outcome, pnl := Some(pnl), settledAt := Some(now)) else b
  }

  /** The table after the UPDATE: the rows with the id take the outcome, the others are as they were. */
  function SettledRows(bets: seq<Bet>, id: nat, outcome: string, pnl: real, now: int): (r: seq<Bet>)
    ensures |r| == |bets|
    ensures forall k :: 0 <= k < |bets| && bets[k].id != id ==> r[k] == bets[k]
    ensures forall k :: 0 <= k < |bets| && bets[k].id == id ==>
      r[k] == Bet(id, bets[k].entry, bets[k].betAt, outcome, Some(pnl), Some(now))
  {
    seq(|bets|, k requires 0 <= k < |bets| => SettleRow(bets[k], id, outcome, pnl, now))
  }

  /** The row the INSERT ... SELECT of `settle_bet` takes from one bet row. */
  function ResultOf(id: nat, outcome: string, pnl: real, now: int): Bet -> Option<ResultRow> {
    (b: Bet) =>
      if b.id == id && b.entry.orderId.Some? then Some(ResultRow(b.id, b.entry.orderId.value, outcome, pnl, now))
      else None
  }

  /** The rows appended to `results`. */
  function NewResults(bets: seq<Bet>, id: nat, outcome: string, pnl: real, now: int): (r: seq<ResultRow>)
    ensures |r| <= |bets|
    ensures forall x :: x in r ==>
      x.betId == id && x.outcome == outcome && x.pnl == pnl && x.settledAt == now &&
      exists k :: 0 <= k < |bets| && bets[k].id == id && bets[k].entry.orderId == Some(x.orderId)
  {
    var f := ResultOf(id, outcome, pnl, now);
    FilterMapLength(bets, f);
    var r := FilterMap(bets, f);
    forall x | x in r
      ensures x.betId == id && x.outcome == outcome && x.pnl == pnl && x.settledAt == now
      ensures exists k :: 0 <= k < |bets| && bets[k].id == id && bets[k].entry.orderId == Some(x.orderId)
    {
      FilterMapMembership(bets, f, x);
    }
    r
  }

  /**
   * The bet row has no order id: copying it into `results.order_id`, which
   * is NOT NULL, raises, and the transaction (the UPDATE with it) is rolled
   * back.
   */
  predicate SettleViolatesNotNull(bets: seq<Bet>, id: nat) {
    exists k :: 0 <= k < |bets| && bets[k].id == id && bets[k].entry.orderId.None?
  }

  /** Settling an id no row has changes neither table. */
  lemma SettleUnknownIdNoop(bets: seq<Bet>, id: nat, outcome: string, pnl: real, now: int)
    requires forall k :: 0 <= k < |bets| ==> bets[k].id != id
    ensures !SettleViolatesNotNull(bets, id)
    ensures SettledRows(bets, id, outcome, pnl, now) == bets
    ensures NewResults(bets, id, outcome, pnl, now) == []
  {
    var f := ResultOf(id, outcome, pnl, now);
    FilterMapLength(bets, f);
    if NewResults(bets, id, outcome, pnl, now) != [] {
      FilterMapMembership(bets, f, NewResults(bets, id, outcome, pnl, now)[0]);
    }
  }

  /**
   * With unique ids, settling an existing row that has an order id appends
   * exactly one results row, whatever the row's current outcome: there is no
   * pending-state guard, so settling it again appends another.
   */
  lemma SettleAppendsOneResult(bets: seq<Bet>, nextId: nat, i: nat, outcome: string, pnl: real, now: int)
    requires IdsOrdered(bets, nextId) && i < |bets| && bets[i].entry.orderId.Some?
    ensures NewResults(bets, bets[i].id, outcome, pnl, now) ==
            [ResultRow(bets[i].id, bets[i].entry.orderId.value, outcome, pnl, now)]
    ensures !SettleViolatesNotNull(bets, bets[i].id)
    ensures NewResults(SettledRows(bets, bets[i].id, outcome, pnl, now), bets[i].id, outcome, pnl, now) ==
            NewResults(bets, bets[i].id, outcome, pnl, now)
  {
    var id := bets[i].id;
    var f := ResultOf(id, outcome, pnl, now);
    var row := ResultRow(id, bets[i].entry.orderId.value, outcome, pnl, now);
    assert forall k :: 0 <= k < |bets| && k != i ==> bets[k].id != id;
    OnlyAtIndex(bets, f, i);
    var after := SettledRows(bets, id, outcome, pnl, now);
    assert forall k :: 0 <= k < |after| ==> f(after[k]) == f(bets[k]);
    FilterMapPointwise(after, bets, f);
  }

  /** Only the item at `i` produces something, so the output is what it produces. */
  lemma {:induction false} OnlyAtIndex<A, B>(s: seq<A>, f: A -> Option<B>, i: nat)
    requires i < |s| && f(s[i]).Some?
    requires forall k :: 0 <= k < |s| && k != i ==> f(s[k]).None?
    ensures FilterMap(s, f) == [f(s[i]).value]
    decreases |s|
  {
    var init := s[..|s| - 1];
    if i == |s| - 1 {
      NothingKept(init, f);
    } else {
      OnlyAtIndex(init, f, i);
    }
  }

  lemma {:induction false} NothingKept<A, B>(s: seq<A>, f: A -> Option<B>)
    requires forall k :: 0 <= k < |s| ==> f(s[k]).None?
    ensures FilterMap(s, f) == []
    decreases |s|
  {
    if s != [] {
      NothingKept(s[..|s| - 1], f);
    }
  }

  /** Two lists whose items produce the same things give the same output. */
  lemma {:induction false} FilterMapPointwise<A, B>(s: seq<A>, t: seq<A>, f: A -> Option<B>)
    requires |s| == |t| && forall k :: 0 <= k < |s| ==> f(s[k]) == f(t[k])
    ensures FilterMap(s, f) == FilterMap(t, f)
    decreases |s|
  {
    if s != [] {
      FilterMapPointwise(s[..|s| - 1], t[..|t| - 1], f);
    }
  }

  // ---------------------------------------------------------------- queries

  function PendingFilter(): Bet -> Option<Bet> {
    (b: Bet) => if b.outcome == Pending then Some(b) else None
  }

  function BetAtKey(): Bet -> int {
    (b: Bet) => b.betAt
  }

  /** `get_pending_bets`: the pending rows, ordered by `bet_at` (rows with equal times in table order). */
  function PendingBets(bets: seq<Bet>): (r: seq<Bet>)
    ensures SortedBy(r, BetAtKey())
    ensures multiset(r) == multiset(FilterMap(bets, PendingFilter()))
    ensures forall b :: b in r <==> b in bets && b.outcome == Pending
  {
    var rows := FilterMap(bets, PendingFilter());
    SortByProperties(rows, BetAtKey());
    forall b
      ensures b in rows <==> b in bets && b.outcome == Pending
    {
      FilterMapMembership(bets, PendingFilter(), b);
    }
    var r := SortBy(rows, BetAtKey());
    assert forall b :: b in r <==> b in multiset(r);
    r
  }

  /** In a table whose bet times never decrease, the pending rows come back in table order. */
  lemma PendingBetsInTableOrder(bets: seq<Bet>)
    requires SortedBy(bets, BetAtKey())
    ensures PendingBets(bets) == FilterMap(bets, PendingFilter())
  {
    var f := PendingFilter();
    var rows := FilterMap(bets, f);
    FilterMapIndices(bets, f);
    var idx := KeptIndices(bets, f);
    forall i, j | 0 <= i < j < |rows|
      ensures rows[i].betAt <= rows[j].betAt
    {
      assert f(bets[idx[i]]) == Some(rows[i]) && f(bets[idx[j]]) == Some(rows[j]);
    }
    SortByIdentity(rows, BetAtKey());
  }

  /** `get_active_token_ids`: the token ids of the pending rows, each once. */
  function ActiveTokenIds(bets: seq<Bet>): (r: set<string>)
    ensures forall t :: t in r <==> exists k :: 0 <= k < |bets| && bets[k].outcome == Pending && bets[k].entry.tokenId == t
  {
    var pending := PendingBets(bets);
    var r := set b | b in pending :: b.entry.tokenId;
    forall t
      ensures t in r <==> exists k :: 0 <= k < |bets| && bets[k].outcome == Pending && bets[k].entry.tokenId == t
    {
      if k :| 0 <= k < |bets| && bets[k].outcome == Pending && bets[k].entry.tokenId == t {
        assert bets[k] in pending;
      }
    }
    r
  }

  /** A new pending row adds its token to the active set and nothing else. */
  lemma InsertActivates(bets: seq<Bet>, row: Bet)
    requires row.outcome == Pending
    ensures ActiveTokenIds(bets + [row]) == ActiveTokenIds(bets) + {row.entry.tokenId}
  {
    var s := bets + [row];
    assert s[|bets|] == row;
    assert forall k :: 0 <= k < |bets| ==> s[k] == bets[k];
  }

  /**
   * Once a row is settled to an outcome other than pending it is no longer
   * a pending bet, and settling adds no token to the active set.
   */
  lemma SettleDeactivates(bets: seq<Bet>, id: nat, outcome: string, pnl: real, now: int)
    requires outcome != Pending
    ensures forall b :: b in PendingBets(SettledRows(bets, id, outcome, pnl, now)) ==> b.id != id
    ensures ActiveTokenIds(SettledRows(bets, id, outcome, pnl, now)) <= ActiveTokenIds(bets)
  {
    var after := SettledRows(bets, id, outcome, pnl, now);
    forall b | b in PendingBets(after)
      ensures b.id != id
    {
      var k :| 0 <= k < |after| && after[k] == b;
    }
    forall t | t in ActiveTokenIds(after)
      ensures t in ActiveTokenIds(bets)
    {
      var k :| 0 <= k < |after| && after[k].outcome == Pending && after[k].entry.tokenId == t;
      assert bets[k].outcome == Pending;
    }
  }

  // ---------------------------------------------------------------- consecutive losses

  function SettledFilter(): Bet -> Option<Bet> {
    (b: Bet) => if b.outcome == Win || b.outcome == Loss then Some(b) else None
  }

  /**
   * Newest first by settlement time. Rows settled to win or loss always
   * carry a settlement time, so the zero standing in for NULL is never read.
   */
  function NewestFirstKey(): Bet -> int {
    (b: Bet) => -b.settledAt.GetOr(0)
  }

  /**
   * The query of `count_consecutive_losses`: the ten newest rows settled to
   * win or loss (all of them when there are fewer), newest first. Every
   * settled row left out is no newer than the oldest row returned.
   */
  function RecentSettled(bets: seq<Bet>): (r: seq<Bet>)
    ensures var rows := FilterMap(bets, SettledFilter());
      && |r| == (if |rows| < 10 then |rows| else 10)
      && multiset(r) <= multiset(rows)
      && SortedBy(r, NewestFirstKey())
      && (forall b :: b in multiset(rows) - multiset(r) ==>
            r != [] && b.settledAt.GetOr(0) <= r[|r| - 1].settledAt.GetOr(0))
    ensures forall b :: b in r ==> b in bets && (b.outcome == Win || b.outcome == Loss)
  {
    var rows := FilterMap(bets, SettledFilter());
    var r := Take(SortBy(rows, NewestFirstKey()), 10);
    TopBy(rows, 10, NewestFirstKey());
    forall b | b in multiset(rows) - multiset(r)
      ensures r != [] && b.settledAt.GetOr(0) <= r[|r| - 1].settledAt.GetOr(0)
    {
      assert NewestFirstKey()(r[|r| - 1]) <= NewestFirstKey()(b);
    }
    SettledRowsFromTable(bets, r);
    r
  }

  /** Rows drawn from the settled rows of a table are rows of the table settled to win or loss. */
  lemma SettledRowsFromTable(bets: seq<Bet>, r: seq<Bet>)
    requires multiset(r) <= multiset(FilterMap(bets, SettledFilter()))
    ensures forall b :: b in r ==> b in bets && (b.outcome == Win || b.outcome == Loss)
  {
    forall b | b in r
      ensures b in bets && (b.outcome == Win || b.outcome == Loss)
    {
      assert b in multiset(r);
      FilterMapMembership(bets, SettledFilter(), b);
    }
  }

  /** The number of losses at the head of `rows`, up to the first row that is not a loss. */
  function LeadingLosses(rows: seq<Bet>): (n: nat)
    ensures n <= |rows|
    ensures forall k :: 0 <= k < n ==> rows[k].outcome == Loss
    ensures n < |rows| ==> rows[n].outcome != Loss
    decreases |rows|
  {
    if rows == [] || rows[0].outcome != Loss then 0 else 1 + LeadingLosses(rows[1..])
  }

  /** The counting loop of `count_consecutive_losses`: losses are counted until the first row that is not one. */
  method CountLeadingLosses(rows: seq<Bet>) returns (count: nat)
    ensures count == LeadingLosses(rows)
  {
    count := 0;
    var i := 0;
    while i < |rows|
      invariant i <= |rows| && count == i
      invariant forall k :: 0 <= k < i ==> rows[k].outcome == Loss
    {
      if rows[i].outcome == Loss {
        count := count + 1;
      } else {
        break;
      }
      i := i + 1;
    }
  }

  /** Settlement times strictly increase along the settled rows of the table, as when bets are settled one after another. */
  predicate SettledInTimeOrder(bets: seq<Bet>) {
    var rows := FilterMap(bets, SettledFilter());
    forall i, j :: 0 <= i < j < |rows| ==> rows[i].settledAt.GetOr(0) < rows[j].settledAt.GetOr(0)
  }

  /** Inserting an item whose key is below every key puts it in front. */
  lemma {:induction false} InsertByKeyFront<A>(s: seq<A>, x: A, key: A -> int)
    requires forall i :: 0 <= i < |s| ==> key(x) < key(s[i])
    ensures InsertByKey(s, x, key) == [x] + s
    decreases |s|
  {
    if s != [] {
      var init := s[..|s| - 1];
      InsertByKeyFront(init, x, key);
      assert [x] + init + [s[|s| - 1]] == [x] + s;
    }
  }

  /** Sorting items whose keys strictly decrease reverses them. */
  lemma {:induction false} SortByReverses<A>(s: seq<A>, key: A -> int)
    requires forall i, j :: 0 <= i < j < |s| ==> key(s[i]) > key(s[j])
    ensures SortBy(s, key) == Reverse(s)
    decreases |s|
  {
    if s != [] {
      var init, last := s[..|s| - 1], s[|s| - 1];
      SortByReverses(init, key);
      assert forall i :: 0 <= i < |init| ==> key(last) < key(Reverse(init)[i]);
      InsertByKeyFront(Reverse(init), last, key);
      ReverseSnoc(s);
    }
  }

  /** When rows were settled in table order, the query sees the settled rows from the last one back. */
  lemma RecentSettledNewestFirst(bets: seq<Bet>)
    requires SettledInTimeOrder(bets)
    ensures RecentSettled(bets) == Take(Reverse(FilterMap(bets, SettledFilter())), 10)
  {
    SortByReverses(FilterMap(bets, SettledFilter()), NewestFirstKey());
  }

  /**
   * On a four-row table settled one row after another, a win followed by
   * three losses counts three, and loss, loss, win, loss counts one: the
   * count stops at the newest row that is not a loss.
   */
  lemma ConsecutiveLossExamples(a: Bet, b: Bet, c: Bet, d: Bet)
    requires forall x :: x in [a, b, c, d] ==> x.outcome == Win || x.outcome == Loss
    requires a.settledAt.GetOr(0) < b.settledAt.GetOr(0) < c.settledAt.GetOr(0) < d.settledAt.GetOr(0)
    ensures a.outcome == Win && b.outcome == Loss && c.outcome == Loss && d.outcome == Loss ==>
      LeadingLosses(RecentSettled([a, b, c, d])) == 3
    ensures a.outcome == Loss && b.outcome == Loss && c.outcome == Win && d.outcome == Loss ==>
      LeadingLosses(RecentSettled([a, b, c, d])) == 1
  {
    RecentOfFour(a, b, c, d);
    LeadingLossesOfFour(d, c, b, a);
  }

  lemma RecentOfFour(a: Bet, b: Bet, c: Bet, d: Bet)
    requires forall x :: x in [a, b, c, d] ==> x.outcome == Win || x.outcome == Loss
    requires a.settledAt.GetOr(0) < b.settledAt.GetOr(0) < c.settledAt.GetOr(0) < d.settledAt.GetOr(0)
    ensures RecentSettled([a, b, c, d]) == [d, c, b, a]
  {
    var bets := [a, b, c, d];
    assert forall k :: 0 <= k < |bets| ==> bets[k] in bets;
    AllSettledRecent(bets);
    ReverseOfFour(a, b, c, d);
  }

  lemma LeadingLossesOfFour(w: Bet, x: Bet, y: Bet, z: Bet)
    ensures w.outcome == Loss && x.outcome == Loss && y.outcome == Loss && z.outcome != Loss ==>
      LeadingLosses([w, x, y, z]) == 3
    ensures w.outcome == Loss && x.outcome != Loss ==> LeadingLosses([w, x, y, z]) == 1
  {
    var r := [w, x, y, z];
    var n := LeadingLosses(r);
    assert r[0] == w && r[1] == x && r[2] == y && r[3] == z;
  }

  /** On a table all of whose rows are settled in time order, the recent rows are the table newest first. */
  lemma AllSettledRecent(bets: seq<Bet>)
    requires forall k :: 0 <= k < |bets| ==> bets[k].outcome == Win || bets[k].outcome == Loss
    requires forall i, j :: 0 <= i < j < |bets| ==> bets[i].settledAt.GetOr(0) < bets[j].settledAt.GetOr(0)
    ensures RecentSettled(bets) == Take(Reverse(bets), 10)
  {
    AllKept(bets, SettledFilter());
    RecentSettledNewestFirst(bets);
  }

  // ---------------------------------------------------------------- stats

  /** The row of `get_stats`; the sums are NULL on an empty table. */
  datatype Stats = Stats(total: nat, wins: Option<nat>, losses: Option<nat>, pending: Option<nat>, totalPnl: Option<real>)

  function CountOutcome(bets: seq<Bet>, outcome: string): (n: nat)
    ensures n <= |bets|
    decreases |bets|
  {
    if bets == [] then 0
    else CountOutcome(bets[..|bets| - 1], outcome) + (if bets[|bets| - 1].outcome == outcome then 1 else 0)
  }

  /**
   * The sum of the P&L column, NULL counting as zero: never negative when no
   * row lost money, never positive when no row made any.
   */
  function SumPnl(bets: seq<Bet>): (r: real)
    ensures (forall k :: 0 <= k < |bets| ==> bets[k].pnl.GetOr(0.0) >= 0.0) ==> r >= 0.0
    ensures (forall k :: 0 <= k < |bets| ==> bets[k].pnl.GetOr(0.0) <= 0.0) ==> r <= 0.0
    decreases |bets|
  {
    if bets == [] then 0.0 else SumPnl(bets[..|bets| - 1]) + bets[|bets| - 1].pnl.GetOr(0.0)
  }

  /** `get_stats`: the row count, the count of each outcome and the P&L total; only the count survives an empty table. */
  function GetStats(bets: seq<Bet>): (r: Stats)
    ensures r.total == |bets|
    ensures bets == [] ==> r == Stats(0, None, None, None, None)
    ensures bets != [] ==>
      && r.wins == Some(CountOutcome(bets, Win))
      && r.losses == Some(CountOutcome(bets, Loss))
      && r.pending == Some(CountOutcome(bets, Pending))
      && r.totalPnl == Some(SumPnl(bets))
  {
    if bets == [] then Stats(0, None, None, None, None)
    else Stats(|bets|, Some(CountOutcome(bets, Win)), Some(CountOutcome(bets, Loss)),
               Some(CountOutcome(bets, Pending)), Some(SumPnl(bets)))
  }

  /** When every outcome is win, loss or pending, the three counts add up to the total. */
  lemma {:induction false} OutcomeCountsPartition(bets: seq<Bet>)
    requires forall k :: 0 <= k < |bets| ==> bets[k].outcome in {Win, Loss, Pending}
    ensures CountOutcome(bets, Win) + CountOutcome(bets, Loss) + CountOutcome(bets, Pending) == |bets|
    decreases |bets|
  {
    if bets != [] {
      OutcomeCountsPartition(bets[..|bets| - 1]);
    }
  }

  lemma StatsTotal(bets: seq<Bet>)
    requires bets != [] && forall k :: 0 <= k < |bets| ==> bets[k].outcome in {Win, Loss, Pending}
    ensures var st := GetStats(bets); st.total == st.wins.value + st.losses.value + st.pending.value
  {
    OutcomeCountsPartition(bets);
  }

  /** Rows without a P&L add nothing to the total. */
  lemma {:induction false} SumPnlOfUnsettled(bets: seq<Bet>)
    requires forall k :: 0 <= k < |bets| ==> bets[k].pnl.None?
    ensures SumPnl(bets) == 0.0
    decreases |bets|
  {
    if bets != [] {
      SumPnlOfUnsettled(bets[..|bets| - 1]);
    }
  }

  /**
   * One pass of the settlement transaction over the table: the rows after the
   * UPDATE and the rows the INSERT adds, or a failure (`ok` false) on the
   * first matching row without an order id.
   */
  method RunSettlement(bets: seq<Bet>, id: nat, outcome: string, pnl: real, now: int)
    returns (ok: bool, updated: seq<Bet>, inserted: seq<ResultRow>)
    ensures ok <==> !SettleViolatesNotNull(bets, id)
    ensures ok ==> updated == SettledRows(bets, id, outcome, pnl, now)
    ensures ok ==> inserted == NewResults(bets, id, outcome, pnl, now)
  {
    updated, inserted := [], [];
    var f := ResultOf(id, outcome, pnl, now);
    var i := 0;
    while i < |bets|
      invariant i <= |bets|
      invariant updated == SettledRows(bets[..i], id, outcome, pnl, now)
      invariant inserted == FilterMap(bets[..i], f)
      invariant forall k :: 0 <= k < i ==> !(bets[k].id == id && bets[k].entry.orderId.None?)
    {
      var b := bets[i];
      FilterMapStep(bets, i, f);
      assert bets[..i + 1] == bets[..i] + [b];
      if b.id == id {
        if b.entry.orderId.None? {
          return false, [], [];
        }
        inserted := inserted + [ResultRow(b.id, b.entry.orderId.value, outcome, pnl, now)];
      }
      assert SettledRows(bets[..i + 1], id, outcome, pnl, now) == updated + [SettleRow(b, id, outcome, pnl, now)];
      updated := updated + [SettleRow(b, id, outcome, pnl, now)];
      i := i + 1;
    }
    assert bets[..i] == bets;
    ok := true;
  }

  // ---------------------------------------------------------------- the DB class

  /** The ledger: the two tables and the id counter. */
  class DB {
    var bets: seq<Bet>
    var results: seq<ResultRow>
    var nextId: nat

    ghost predicate Valid()
      reads this
    {
      IdsOrdered(bets, nextId)
    }

    /** A new ledger: both tables empty. */
    constructor ()
      ensures Valid() && bets == [] && results == [] && nextId == 1
    {
      bets := [];
      results := [];
      nextId := 1;
    }

    /** `insert_bet`: appends a pending row with no P&L and no settlement time under a fresh id. */
    method InsertBet(e: BetEntry, now: int) returns (id: nat)
      requires Valid()
      modifies this
      ensures Valid()
      ensures id == old(nextId) && nextId == id + 1
      ensures bets == old(bets) + [Bet(id, e, now, Pending, None, None)]
      ensures results == old(results)
      ensures forall k :: 0 <= k < |old(bets)| ==> old(bets)[k].id < id
    {
      id := nextId;
      bets := bets + [Bet(id, e, now, Pending, None, None)];
      nextId := nextId + 1;
    }

    /**
     * `settle_bet`: the UPDATE and the INSERT ... SELECT run in one
     * transaction; `committed` is false when the INSERT raised on a NULL
     * order id and both were rolled back.
     */
    method SettleBet(id: nat, outcome: string, pnl: real, now: int) returns (committed: bool)
      requires Valid()
      modifies this
      ensures Valid()
      ensures committed <==> !SettleViolatesNotNull(old(bets), id)
      ensures committed ==> bets == SettledRows(old(bets), id, outcome, pnl, now)
      ensures committed ==> results == old(results) + NewResults(old(bets), id, outcome, pnl, now)
      ensures !committed ==> bets == old(bets) && results == old(results)
      ensures nextId == old(nextId)
    {
      var updated, inserted;
      committed, updated, inserted := RunSettlement(bets, id, outcome, pnl, now);
      if committed {
        bets := updated;
        results := results + inserted;
      }
    }

    /**
     * `count_consecutive_losses`: queries the last ten settled rows newest
     * first and counts the losses before the first row that is not one.
     */
    method CountConsecutiveLosses() returns (count: nat)
      ensures count == LeadingLosses(RecentSettled(bets))
      ensures count <= 10
    {
      var rows := RecentSettled(bets);
      count := CountLeadingLosses(rows);
    }
  }
}

=== FILE: matcher.dfy ===
/**
 * Cross-source matching (core/matcher.py): team-name normalisation, the
 * lexical filter and team split of prediction-market questions, token-id
 * extraction, and the pairing of each sportsbook game with at most one
 * market.
 */
module Matcher {
  import opened Wrappers
  import opened Seqs
  import opened Text
  import opened Odds

  /** A binary win/loss market: YES pays if the first-named team wins, NO if the second does. */
  datatype PolyMarket = PolyMarket(
    conditionId: string,
    question: string,
    gameStartTime: int,
    homeShort: string,
    awayShort: string,
    yesTokenId: string,
    noTokenId: string)

  datatype MatchedGame = MatchedGame(pinnacle: Game, poly: PolyMarket)

  // ---------------------------------------------------------------- buy side

  /** `buy_token_id`: the YES token when the favourite is the home side, otherwise the NO token. */
  function BuyTokenId(m: MatchedGame): (r: string)
    ensures FavoriteIsHome(m.pinnacle) ==> r == m.poly.yesTokenId
    ensures !FavoriteIsHome(m.pinnacle) ==> r == m.poly.noTokenId
  {
    if FavoriteIsHome(m.pinnacle) then m.poly.yesTokenId else m.poly.noTokenId
  }

  /** `buy_token_label`: names the token that `buy_token_id` picks. */
  function BuyTokenLabel(m: MatchedGame): (r: string)
    ensures r == "YES" <==> FavoriteIsHome(m.pinnacle)
    ensures r == "YES" || r == "NO"
    ensures r == "YES" ==> BuyTokenId(m) == m.poly.yesTokenId
    ensures r == "NO" ==> BuyTokenId(m) == m.poly.noTokenId
  {
    if FavoriteIsHome(m.pinnacle) then "YES" else "NO"
  }

  // ---------------------------------------------------------------- names

  /** `normalize`: the mapped short name when the table has the full name, else the name itself. */
  function Normalize(fullName: string, mapping: map<string, string>): (r: string)
    ensures fullName in mapping ==> r == mapping[fullName]
    ensures fullName !in mapping ==> r == fullName
    ensures r == fullName || r in mapping.Values
  {
    if fullName in mapping then mapping[fullName] else fullName
  }

  // ---------------------------------------------------------------- questions

  const Keywords: seq<string> := ["o/u", "spread", "over", "under", "total", "points"]

  /** `_is_matchup`: a plain "A vs. B" win/loss question. */
  function IsMatchup(question: string): (r: bool)
    ensures StartsWith(Lower(question), "will ") ==> !r
    ensures (exists k :: 0 <= k < |Keywords| && Contains(Lower(question), Keywords[k])) ==> !r
    ensures !Contains(Lower(question), " vs") ==> !r
    ensures ':' in question ==> !r
    ensures r <==> !StartsWith(Lower(question), "will ") &&
                   (forall k :: 0 <= k < |Keywords| ==> !Contains(Lower(question), Keywords[k])) &&
                   Contains(Lower(question), " vs") && ':' !in question
  {
    var q := Lower(question);
    if StartsWith(q, "will ") then false
    else if exists k :: 0 <= k < |Keywords| && Contains(q, Keywords[k]) then false
    else if !Contains(q, " vs") then false
    else if ':' in question then false
    else true
  }

  /** The plain matchup question of the doc-comment of `_is_matchup` passes the filter. */
  lemma MatchupExamplePasses()
    ensures IsMatchup("Heat vs. 76ers")
  {
    var q := "heat vs. 76ers";
    assert Lower("Heat vs. 76ers") == q;
    ExampleHasNoKeyword();
    assert !StartsWith(q, "will ") by {
      assert q[0] == 'h';
    }
    assert Contains(q, " vs") by {
      assert OccursAt(q, " vs", 4);
    }
  }

  /** None of the market-type keywords occurs in the example question. */
  lemma ExampleHasNoKeyword()
    ensures forall k :: 0 <= k < |Keywords| ==> !Contains("heat vs. 76ers", Keywords[k])
  {
    var q := "heat vs. 76ers";
    NotContainsAbsentChar(q, "o/u", 1);
    NotContainsAbsentChar(q, "spread", 1);
    NotContainsAbsentChar(q, "over", 0);
    NotContainsAbsentChar(q, "under", 0);
    NotContainsAbsentChar(q, "total", 1);
    NotContainsAbsentChar(q, "points", 0);
  }


  /** The detail and proposition questions of that doc-comment are filtered out. */
  lemma MatchupExamplesRejected()
    ensures !IsMatchup("Will the Heat win?")
    ensures !IsMatchup("Heat vs. 76ers: 1H Moneyline")
    ensures !IsMatchup("Heat vs. 76ers O/U 220.5")
  {
    assert Lower("Will the Heat win?")[..5] == "will ";
    assert "Heat vs. 76ers: 1H Moneyline"[14] == ':';
    var o := Lower("Heat vs. 76ers O/U 220.5");
    assert o[15..18] == "o/u";
    assert OccursAt(o, Keywords[0], 15);
  }

  /** `vs` in any letter case at position `j`. */
  predicate IsVsAt(s: string, j: nat) {
    j + 2 <= |s| && (s[j] == 'v' || s[j] == 'V') && (s[j + 1] == 's' || s[j + 1] == 'S')
  }

  /** The end of the run of whitespace starting at `i`. */
  function SpaceRunEnd(s: string, i: nat): (r: nat)
    requires i <= |s|
    ensures i <= r <= |s|
    ensures forall k :: i <= k < r ==> IsSpace(s[k])
    ensures r == |s| || !IsSpace(s[r])
    decreases |s| - i
  {
    if i < |s| && IsSpace(s[i]) then SpaceRunEnd(s, i + 1) else i
  }

  /**
   * Where a match of the separator `\s+vs\.?\s+` (case-insensitive) that
   * starts at `i` ends, if one starts there. The whitespace runs are greedy;
   * the optional dot is taken only when whitespace follows it.
   */
  function SeparatorEnd(s: string, i: nat): (r: Option<nat>)
    requires i <= |s|
    ensures r.Some? ==> i + 4 <= r.value <= |s|
    ensures r.Some? ==> IsSpace(s[i]) && (r.value == |s| || !IsSpace(s[r.value]))
  {
    if i == |s| || !IsSpace(s[i]) then None
    else
      var j := SpaceRunEnd(s, i);
      if !IsVsAt(s, j) then None
      else
        var k := j + 2;
        if k + 1 < |s| && s[k] == '.' && IsSpace(s[k + 1]) then Some(SpaceRunEnd(s, k + 1))
        else if k < |s| && IsSpace(s[k]) then Some(SpaceRunEnd(s, k))
        else None
  }

  /**
   * `re.split` on the separator from scan position `from`, with the current
   * piece starting at `seg`: the leftmost match found from `from` closes the
   * piece and scanning resumes where the match ends.
   */
  function SplitFrom(s: string, from: nat, seg: nat): (r: seq<string>)
    requires seg <= from <= |s|
    ensures |r| >= 1
    decreases |s| - from
  {
    if from == |s| then [s[seg..]]
    else match SeparatorEnd(s, from)
      case Some(e) => [s[seg..from]] + SplitFrom(s, e, e)
      case None => SplitFrom(s, from + 1, seg)
  }

  /** `re.split` of the whole question: at least one piece, and the question itself when it holds no whitespace. */
  function SplitOnVs(s: string): (r: seq<string>)
    ensures |r| >= 1
    ensures NoSpace(s) ==> r == [s]
  {
    SplitWithoutSpace(s);
    SplitFrom(s, 0, 0)
  }

  /** Without whitespace there is no separator, so the split is the whole string. */
  lemma SplitWithoutSpace(s: string)
    ensures NoSpace(s) ==> SplitFrom(s, 0, 0) == [s]
  {
    if NoSpace(s) {
      SplitSkipsWord(s, 0, |s|, 0);
      assert s[0..] == s;
    }
  }

  /** `_split_teams`: the two stripped pieces when the question splits into exactly two, else two empty names. */
  function SplitTeams(question: string): (r: (string, string))
    ensures |SplitOnVs(question)| != 2 ==> r == ("", "")
    ensures |SplitOnVs(question)| == 2 ==> r == (Strip(SplitOnVs(question)[0]), Strip(SplitOnVs(question)[1]))
  {
    var parts := SplitOnVs(question);
    if |parts| == 2 then (Strip(parts[0]), Strip(parts[1])) else ("", "")
  }

  predicate NoSpace(s: string) {
    forall k :: 0 <= k < |s| ==> !IsSpace(s[k])
  }

  /** Scanning over characters that are not whitespace finds no separator and keeps the current piece open. */
  lemma {:induction false} SplitSkipsWord(s: string, lo: nat, hi: nat, seg: nat)
    requires seg <= lo <= hi <= |s|
    requires forall k :: lo <= k < hi ==> !IsSpace(s[k])
    ensures SplitFrom(s, lo, seg) == SplitFrom(s, hi, seg)
    decreases hi - lo
  {
    if lo < hi {
      assert SeparatorEnd(s, lo).None?;
      SplitSkipsWord(s, lo + 1, hi, seg);
    }
  }

  /** The written-out separator " vs. " followed by a non-space matches and ends right after it. */
  lemma VsSeparatorEnd(s: string, i: nat)
    requires i + 5 <= |s| && s[i..i + 5] == " vs. "
    requires i + 5 == |s| || !IsSpace(s[i + 5])
    ensures SeparatorEnd(s, i) == Some(i + 5)
  {
    assert s[i] == ' ' && s[i + 1] == 'v' && s[i + 2] == 's' && s[i + 3] == '.' && s[i + 4] == ' ' by {
      assert s[i..i + 5][0] == s[i] && s[i..i + 5][4] == s[i + 4];
    }
    assert SpaceRunEnd(s, i + 1) == i + 1;
    assert SpaceRunEnd(s, i + 4) == i + 5;
  }

  /** A question written as two one-word names around " vs. " splits into exactly those two names. */
  lemma SplitOnVsJoin(home: string, away: string)
    requires home != [] && NoSpace(home) && NoSpace(away)
    ensures SplitOnVs(home + " vs. " + away) == [home, away]
  {
    var q := home + " vs. " + away;
    var h := |home|;
    assert q[..h] == home && q[h..h + 5] == " vs. " && q[h + 5..] == away;
    assert NoSpace(q[..h]) && NoSpace(q[h + 5..]);
    calc {
      SplitOnVs(q);
      SplitFrom(q, 0, 0);
      { SplitSkipsWord(q, 0, h, 0); }
      SplitFrom(q, h, 0);
      { VsSeparatorEnd(q, h); }
      [q[..h]] + SplitFrom(q, h + 5, h + 5);
      { SplitSkipsWord(q, h + 5, |q|, h + 5); }
      [q[..h]] + SplitFrom(q, |q|, h + 5);
    }
  }

  /**
   * Joining two one-word team names with " vs. " and splitting gives the
   * names back: the split is the inverse of the market's question format.
   */
  lemma SplitTeamsJoin(home: string, away: string)
    requires home != [] && away != [] && NoSpace(home) && NoSpace(away)
    ensures SplitTeams(home + " vs. " + away) == (home, away)
  {
    SplitOnVsJoin(home, away);
    StripUnchanged(home);
    StripUnchanged(away);
  }

  /**
   * A list-valued field of a raw market as it arrives: missing (or null),
   * JSON text (with the list it decodes to; the decoding itself is not
   * modelled), or an already decoded list.
   */
  datatype RawList = Missing | JsonText(text: string, decoded: seq<string>) | Items(items: seq<string>)

  /** Python truthiness of the raw field: text is tested for being non-empty as text, before any decoding. */
  predicate Truthy(v: RawList) {
    match v
    case Missing => false
    case JsonText(text, _) => text != []
    case Items(items) => items != []
  }

  /** The list a truthy field stands for. */
  function ListOf(v: RawList): seq<string> {
    match v
    case Missing => []
    case JsonText(_, decoded) => decoded
    case Items(items) => items
  }

  /**
   * `_extract_token_ids`: two empty ids unless both raw fields are truthy
   * and the ids hold at least two entries, else the first two ids. Only the
   * truthiness of the outcomes is looked at, never their contents.
   */
  function ExtractTokenIds(ids: RawList, outcomes: RawList): (r: (string, string))
    ensures !Truthy(ids) || !Truthy(outcomes) ==> r == ("", "")
    ensures Truthy(ids) && Truthy(outcomes) && |ListOf(ids)| < 2 ==> r == ("", "")
    ensures Truthy(ids) && Truthy(outcomes) && |ListOf(ids)| >= 2 ==> r == (ListOf(ids)[0], ListOf(ids)[1])
  {
    if !Truthy(ids) || !Truthy(outcomes) then ("", "")
    else
      var list := ListOf(ids);
      if |list| < 2 then ("", "") else (list[0], list[1])
  }

  /** Two outcome fields that are both truthy, or both not, give the same ids, whatever they hold. */
  lemma OutcomesOnlyGate(ids: RawList, o1: RawList, o2: RawList)
    requires Truthy(o1) == Truthy(o2)
    ensures ExtractTokenIds(ids, o1) == ExtractTokenIds(ids, o2)
  {
  }

  /** Outcomes given as the text "[]" are truthy text, so the ids are still taken though the list they decode to is empty. */
  lemma EmptyOutcomeTextStillPasses()
    ensures ExtractTokenIds(Items(["y", "n"]), JsonText("[]", [])) == ("y", "n")
    ensures ExtractTokenIds(Items(["y", "n"]), Items([])) == ("", "")
  {
  }

  // ---------------------------------------------------------------- market search

  /** The time tolerance of `_find_market`: three hours, in seconds. */
  const ToleranceSeconds: int := 3 * 3600

  /**
   * Both normalised names, lower-cased, occur in "home_short away_short",
   * lower-cased: a name is never longer than that text, and a market whose
   * short names are the two names up to case always matches.
   */
  predicate NameMatches(m: PolyMarket, homeS: string, awayS: string): (r: bool)
    ensures r ==> |homeS| <= |m.homeShort| + 1 + |m.awayShort| && |awayS| <= |m.homeShort| + 1 + |m.awayShort|
    ensures Lower(homeS) == Lower(m.homeShort) && Lower(awayS) == Lower(m.awayShort) ==> r
  {
    var text := Lower(m.homeShort + " " + m.awayShort);
    assert text == Lower(m.homeShort) + " " + Lower(m.awayShort);
    assert OccursAt(text, Lower(m.homeShort), 0);
    assert OccursAt(text, Lower(m.awayShort), |m.homeShort| + 1);
    Contains(text, Lower(homeS)) && Contains(text, Lower(awayS))
  }

  /** The market starts within the tolerance of the game, either way: `abs(start - commence) <= tol`. */
  predicate TimeMatches(m: PolyMarket, commence: int): (r: bool)
    ensures r <==> (if m.gameStartTime >= commence then m.gameStartTime - commence else commence - m.gameStartTime) <= 3 * 3600
  {
    -ToleranceSeconds <= m.gameStartTime - commence <= ToleranceSeconds
  }

  predicate IsCandidate(m: PolyMarket, homeS: string, awayS: string, commence: int) {
    NameMatches(m, homeS, awayS) && TimeMatches(m, commence)
  }

  function CandidateOf(homeS: string, awayS: string, commence: int): PolyMarket -> Option<PolyMarket> {
    (m: PolyMarket) => if IsCandidate(m, homeS, awayS, commence) then Some(m) else None
  }

  /** The `hits` list of `_find_market`: the markets passing both tests, in order. */
  function Hits(markets: seq<PolyMarket>, homeS: string, awayS: string, commence: int): seq<PolyMarket> {
    FilterMap(markets, CandidateOf(homeS, awayS, commence))
  }

  /** What `_find_market` returns: the single hit, or nothing when there are none or several. */
  function UniqueMarket(markets: seq<PolyMarket>, homeS: string, awayS: string, commence: int): (r: Option<PolyMarket>)
    ensures r.Some? ==> r.value in markets && IsCandidate(r.value, homeS, awayS, commence)
  {
    var hits := Hits(markets, homeS, awayS, commence);
    if |hits| == 1 then
      FilterMapMembership(markets, CandidateOf(homeS, awayS, commence), hits[0]);
      Some(hits[0])
    else None
  }

  /** `_find_market`: collects the hits in a loop and returns one only when it is the only one. */
  method FindMarket(markets: seq<PolyMarket>, homeS: string, awayS: string, commence: int)
    returns (r: Option<PolyMarket>)
    ensures r == UniqueMarket(markets, homeS, awayS, commence)
  {
    var hits: seq<PolyMarket> := [];
    var i := 0;
    while i < |markets|
      invariant i <= |markets|
      invariant hits == FilterMap(markets[..i], CandidateOf(homeS, awayS, commence))
    {
      var m := markets[i];
      FilterMapStep(markets, i, CandidateOf(homeS, awayS, commence));
      var text := Lower(m.homeShort + " " + m.awayShort);
      if Contains(text, Lower(homeS)) && Contains(text, Lower(awayS)) &&
         !(m.gameStartTime - commence > ToleranceSeconds || commence - m.gameStartTime > ToleranceSeconds) {
        hits := hits + [m];
      }
      i := i + 1;
    }
    assert markets[..i] == markets;
    if |hits| == 1 {
      return Some(hits[0]);
    }
    return None;
  }

  /**
   * A market is returned exactly when one position of the list passes both
   * tests; it is then the market at that position, so it matches the names
   * and the time. Two passing positions, or none, give nothing.
   */
  lemma UniqueMarketIff(markets: seq<PolyMarket>, homeS: string, awayS: string, commence: int)
    ensures var r := UniqueMarket(markets, homeS, awayS, commence);
      && (r.Some? ==> exists i :: 0 <= i < |markets| && markets[i] == r.value &&
                        IsCandidate(r.value, homeS, awayS, commence) &&
                        forall j :: 0 <= j < |markets| && j != i ==> !IsCandidate(markets[j], homeS, awayS, commence))
      && ((exists i, j :: 0 <= i < j < |markets| && IsCandidate(markets[i], homeS, awayS, commence) &&
                         IsCandidate(markets[j], homeS, awayS, commence)) ==> r.None?)
      && ((forall i :: 0 <= i < |markets| ==> !IsCandidate(markets[i], homeS, awayS, commence)) ==> r.None?)
      && (forall i :: 0 <= i < |markets| && OnlyCandidateAt(markets, i, homeS, awayS, commence) ==> r == Some(markets[i]))
  {
    forall i | 0 <= i < |markets| && OnlyCandidateAt(markets, i, homeS, awayS, commence)
      ensures UniqueMarket(markets, homeS, awayS, commence) == Some(markets[i])
    {
      OnlyCandidateReturned(markets, i, homeS, awayS, commence);
    }
    var hits := Hits(markets, homeS, awayS, commence);
    if |hits| == 1 {
      OneHitOnlyCandidate(markets, homeS, awayS, commence);
    }
    if exists i, j :: 0 <= i < j < |markets| && IsCandidate(markets[i], homeS, awayS, commence) &&
                      IsCandidate(markets[j], homeS, awayS, commence) {
      TwoCandidatesTwoHits(markets, homeS, awayS, commence);
    }
    if |hits| > 0 {
      FilterMapMembership(markets, CandidateOf(homeS, awayS, commence), hits[0]);
    }
  }

  /** Position i is the one position of the list whose market passes both tests. */
  predicate OnlyCandidateAt(markets: seq<PolyMarket>, i: nat, homeS: string, awayS: string, commence: int) {
    && i < |markets| && IsCandidate(markets[i], homeS, awayS, commence)
    && forall j :: 0 <= j < |markets| && j != i ==> !IsCandidate(markets[j], homeS, awayS, commence)
  }

  /** When exactly one position passes both tests, its market is the one returned. */
  lemma OnlyCandidateReturned(markets: seq<PolyMarket>, i: nat, homeS: string, awayS: string, commence: int)
    requires OnlyCandidateAt(markets, i, homeS, awayS, commence)
    ensures UniqueMarket(markets, homeS, awayS, commence) == Some(markets[i])
  {
    var f := CandidateOf(homeS, awayS, commence);
    FilterMapIndices(markets, f);
    var hits, idx := Hits(markets, homeS, awayS, commence), KeptIndices(markets, f);
    assert f(markets[i]).Some?;
    assert i in idx;
    forall k | 0 <= k < |idx|
      ensures idx[k] == i
    {
      assert f(markets[idx[k]]).Some?;
    }
    AtMostOnePosition(idx, i);
    assert |hits| == 1 && f(markets[idx[0]]) == Some(hits[0]);
  }

  /** Strictly increasing positions that are all the same position number at most one. */
  lemma AtMostOnePosition(idx: seq<nat>, i: nat)
    requires forall k :: 0 <= k < |idx| ==> idx[k] == i
    requires forall j, k :: 0 <= j < k < |idx| ==> idx[j] < idx[k]
    ensures |idx| <= 1
  {
    if idx != [] {
      IncreasingSpread(idx);
    }
  }

  /** Strictly increasing whole numbers spread at least one apart each. */
  lemma {:induction false} IncreasingSpread(idx: seq<nat>)
    requires idx != []
    requires forall j, k :: 0 <= j < k < |idx| ==> idx[j] < idx[k]
    ensures idx[|idx| - 1] - idx[0] >= |idx| - 1
    decreases |idx|
  {
    if |idx| > 1 {
      var init := idx[..|idx| - 1];
      IncreasingSpread(init);
      assert init[|init| - 1] == idx[|idx| - 2] && init[0] == idx[0];
    }
  }

  /** A single hit is a market of the list that passes both tests, and no other market does. */
  lemma OneHitOnlyCandidate(markets: seq<PolyMarket>, homeS: string, awayS: string, commence: int)
    requires |Hits(markets, homeS, awayS, commence)| == 1
    ensures exists i ::
      && 0 <= i < |markets| && markets[i] == Hits(markets, homeS, awayS, commence)[0]
      && IsCandidate(markets[i], homeS, awayS, commence)
      && forall j :: 0 <= j < |markets| && j != i ==> !IsCandidate(markets[j], homeS, awayS, commence)
  {
    var f := CandidateOf(homeS, awayS, commence);
    FilterMapIndices(markets, f);
    var hits, idx := Hits(markets, homeS, awayS, commence), KeptIndices(markets, f);
    var i := idx[0];
    assert f(markets[i]) == Some(hits[0]);
    forall j | 0 <= j < |markets| && j != i
      ensures !IsCandidate(markets[j], homeS, awayS, commence)
    {
      assert j !in idx;
    }
  }

  /** Two markets passing both tests give at least two hits. */
  lemma TwoCandidatesTwoHits(markets: seq<PolyMarket>, homeS: string, awayS: string, commence: int)
    requires exists i, j :: 0 <= i < j < |markets| && IsCandidate(markets[i], homeS, awayS, commence) &&
                            IsCandidate(markets[j], homeS, awayS, commence)
    ensures |Hits(markets, homeS, awayS, commence)| >= 2
  {
    var f := CandidateOf(homeS, awayS, commence);
    FilterMapIndices(markets, f);
    var idx := KeptIndices(markets, f);
    var i, j :| 0 <= i < j < |markets| && IsCandidate(markets[i], homeS, awayS, commence) &&
                IsCandidate(markets[j], homeS, awayS, commence);
    assert f(markets[i]).Some? && f(markets[j]).Some?;
    assert i in idx && j in idx;
    var a :| 0 <= a < |idx| && idx[a] == i;
    var b :| 0 <= b < |idx| && idx[b] == j;
    assert a != b;
  }

  // ---------------------------------------------------------------- matching

  /** One iteration of `match_games`: normalise the names, search, pair on success. */
  function MatchOne(markets: seq<PolyMarket>, mapping: map<string, string>): Game -> Option<MatchedGame> {
    (g: Game) =>
      match UniqueMarket(markets, Normalize(g.homeTeam, mapping), Normalize(g.awayTeam, mapping), g.commenceTime)
      case Some(m) => Some(MatchedGame(g, m))
      case None => None
  }

  function MatchedGames(games: seq<Game>, markets: seq<PolyMarket>, mapping: map<string, string>): (r: seq<MatchedGame>)
    ensures |r| <= |games|
    ensures forall x :: x in r ==> x.pinnacle in games && x.poly in markets
  {
    var f := MatchOne(markets, mapping);
    FilterMapLength(games, f);
    var r := FilterMap(games, f);
    forall x | x in r
      ensures x.pinnacle in games && x.poly in markets
    {
      FilterMapMembership(games, f, x);
    }
    r
  }

  /** `match_games`: the loop that pairs each game with its unique market and skips the rest. */
  method MatchGames(games: seq<Game>, markets: seq<PolyMarket>, mapping: map<string, string>)
    returns (results: seq<MatchedGame>)
    ensures results == MatchedGames(games, markets, mapping)
  {
    results := [];
    var i := 0;
    while i < |games|
      invariant i <= |games|
      invariant results == FilterMap(games[..i], MatchOne(markets, mapping))
    {
      var game := games[i];
      FilterMapStep(games, i, MatchOne(markets, mapping));
      var homeS := Normalize(game.homeTeam, mapping);
      var awayS := Normalize(game.awayTeam, mapping);
      var market := FindMarket(markets, homeS, awayS, game.commenceTime);
      if market.Some? {
        results := results + [MatchedGame(game, market.value)];
      }
      i := i + 1;
    }
    assert games[..i] == games;
  }

  /**
   * The matches keep the games' order, are no more than the games, pair each
   * game with a market of the list that passes both tests for its normalised
   * names, and a game appears exactly when its search finds a unique market.
   */
  lemma {:induction false} MatchedGamesProperties(games: seq<Game>, markets: seq<PolyMarket>, mapping: map<string, string>)
    ensures var r, idx := MatchedGames(games, markets, mapping), KeptIndices(games, MatchOne(markets, mapping));
      && |r| <= |games|
      && |idx| == |r|
      && (forall j, k :: 0 <= j < k < |idx| ==> idx[j] < idx[k])
      && (forall j :: 0 <= j < |r| ==>
            && idx[j] < |games|
            && r[j].pinnacle == games[idx[j]]
            && r[j].poly in markets
            && IsCandidate(r[j].poly, Normalize(r[j].pinnacle.homeTeam, mapping),
                           Normalize(r[j].pinnacle.awayTeam, mapping), r[j].pinnacle.commenceTime))
      && (forall i :: 0 <= i < |games| ==>
            (i in idx <==> UniqueMarket(markets, Normalize(games[i].homeTeam, mapping),
                                        Normalize(games[i].awayTeam, mapping), games[i].commenceTime).Some?))
  {
    var f := MatchOne(markets, mapping);
    FilterMapIndices(games, f);
    FilterMapLength(games, f);
    MatchedGamesPairs(games, markets, mapping);
    MatchedGamesKept(games, markets, mapping);
  }

  /** Each matched entry pairs the game at its kept position with a market of the list that passes both tests. */
  lemma MatchedGamesPairs(games: seq<Game>, markets: seq<PolyMarket>, mapping: map<string, string>)
    ensures var r, idx := MatchedGames(games, markets, mapping), KeptIndices(games, MatchOne(markets, mapping));
      forall j :: 0 <= j < |r| && j < |idx| ==>
        && idx[j] < |games|
        && r[j].pinnacle == games[idx[j]]
        && r[j].poly in markets
        && IsCandidate(r[j].poly, Normalize(r[j].pinnacle.homeTeam, mapping),
                       Normalize(r[j].pinnacle.awayTeam, mapping), r[j].pinnacle.commenceTime)
  {
    var f := MatchOne(markets, mapping);
    FilterMapIndices(games, f);
    var r, idx := MatchedGames(games, markets, mapping), KeptIndices(games, f);
    forall j | 0 <= j < |r| && j < |idx|
      ensures r[j].pinnacle == games[idx[j]]
    {
      assert f(games[idx[j]]) == Some(r[j]);
    }
  }

  /** A game is kept exactly when its market search succeeds. */
  lemma MatchedGamesKept(games: seq<Game>, markets: seq<PolyMarket>, mapping: map<string, string>)
    ensures var idx := KeptIndices(games, MatchOne(markets, mapping));
      forall i :: 0 <= i < |games| ==>
        (i in idx <==> UniqueMarket(markets, Normalize(games[i].homeTeam, mapping),
                                    Normalize(games[i].awayTeam, mapping), games[i].commenceTime).Some?)
  {
    var f := MatchOne(markets, mapping);
    FilterMapIndices(games, f);
    var idx := KeptIndices(games, f);
    forall i | 0 <= i < |games|
      ensures i in idx <==> f(games[i]).Some?
    {
      if i in idx {
        var j :| 0 <= j < |idx| && idx[j] == i;
      }
    }
  }
}

=== FILE: monitor.dfy ===
/**
 * Settlement (core/monitor.py): the `Monitor` reads the best bid of each
 * pending position's token, settles the bet as won or lost once the bid has
 * converged to one end, and trips a stop flag once the losses in a row reach
 * the limit.
 *
 * The order books a pass fetches are a parameter (a map from token id to bid
 * levels; a token missing from the map is a fetch that failed), and so is the
 * clock. The endless polling loop is modelled over a finite list of passes.
 */
module Monitoring {
  import opened Wrappers
  import opened Seqs
  import opened Scanner
  import opened Ledger

  const WinThreshold: real := 0.95
  const LossThreshold: real := 0.05

  /** `MAX_CONSECUTIVE_LOSSES` of config.py. */
  const MaxConsecutiveLosses: nat := 3

  /**
   * The best bid `_fetch_best_bid` reports for a fetched book: nothing when
   * the fetch failed or there are no bids, else the first bid's price, a
   * missing price reading as zero.
   */
  function BestBid(bids: Option<seq<Level>>): (r: Option<real>)
    ensures bids.None? || bids.value == [] ==> r.None?
    ensures bids.Some? && bids.value != [] ==> r == Some(bids.value[0].price.GetOr(0.0))
  {
    if bids.None? || bids.value == [] then None else Some(bids.value[0].price.GetOr(0.0))
  }

  /**
   * The win P&L: the shares the stake bought, paid out at one dollar each,
   * less the stake. A token bought below one dollar wins more than nothing;
   * one bought at a dollar or more cannot win anything.
   */
  function WinPnl(stake: real, price: real): (r: real)
    requires price != 0.0
    ensures stake > 0.0 && 0.0 < price < 1.0 ==> r > 0.0
    ensures stake >= 0.0 && price >= 1.0 ==> r <= 0.0
  {
    PayoutAgainstStake(stake, price);
    stake * (1.0 / price) - stake
  }

  /** One dollar per share bought at `price` returns more than the stake below one dollar, and no more from one dollar up. */
  lemma PayoutAgainstStake(stake: real, price: real)
    requires price != 0.0
    ensures stake > 0.0 && 0.0 < price < 1.0 ==> stake * (1.0 / price) > stake
    ensures stake >= 0.0 && price >= 1.0 ==> stake * (1.0 / price) <= stake
  {
    if price > 0.0 {
      var q := 1.0 / price;
      assert q * price == 1.0;
      if price < 1.0 {
        assert q > 1.0;
        if stake > 0.0 {
          assert stake * q > stake * 1.0;
        }
      } else {
        assert 0.0 < q <= 1.0;
        if stake >= 0.0 {
          assert stake * q <= stake * 1.0;
        }
      }
    }
  }

  /** The loss P&L: the whole stake, a loss exactly when something was staked. */
  function LossPnl(stake: real): (r: real)
    ensures r < 0.0 <==> stake > 0.0
  {
    -stake
  }

  /** What `_check_one` does with one bid. */
  datatype Decision = Hold | Settle(outcome: string, pnl: real) | DivideByZero

  /**
   * `_check_one`'s classification: no bid, or a bid strictly between the
   * thresholds, holds; a bid at or above 0.95 wins (dividing by the entry
   * price, which raises when it is zero); a bid at or below 0.05 loses the
   * stake.
   */
  function Decide(bet: Bet, bid: Option<real>): (d: Decision)
    ensures bid.None? ==> d == Hold
    ensures bid.Some? && LossThreshold < bid.value < WinThreshold ==> d == Hold
    ensures bid.Some? && bid.value >= WinThreshold && bet.entry.polyPrice != 0.0 ==>
      d == Settle(Win, WinPnl(bet.entry.betUsdc, bet.entry.polyPrice))
    ensures bid.Some? && bid.value >= WinThreshold && bet.entry.polyPrice == 0.0 ==> d == DivideByZero
    ensures bid.Some? && bid.value <= LossThreshold ==> d == Settle(Loss, LossPnl(bet.entry.betUsdc))
  {
    if bid.None? then Hold
    else if bid.value >= WinThreshold then
      if bet.entry.polyPrice == 0.0 then DivideByZero
      else Settle(Win, WinPnl(bet.entry.betUsdc, bet.entry.polyPrice))
    else if bid.value <= LossThreshold then Settle(Loss, LossPnl(bet.entry.betUsdc))
    else Hold
  }

  /** The two tables, as a value. */
  datatype Tables = Tables(bets: seq<Bet>, results: seq<ResultRow>)

  /** The tables after one bet's decision, and whether an exception escaped (the division or the settlement's NOT NULL check). */
  function ApplyDecision(t: Tables, id: nat, d: Decision, now: int): (r: (Tables, bool))
    ensures r.1 <==> d.DivideByZero? || (d.Settle? && SettleViolatesNotNull(t.bets, id))
    ensures r.1 || d.Hold? ==> r.0 == t
    ensures |r.0.bets| == |t.bets|
    ensures |r.0.results| >= |t.results| && r.0.results[..|t.results|] == t.results
  {
    match d
    case Hold => (t, false)
    case DivideByZero => (t, true)
    case Settle(outcome, pnl) =>
      if SettleViolatesNotNull(t.bets, id) then (t, true)
      else (Tables(SettledRows(t.bets, id, outcome, pnl, now), t.results + NewResults(t.bets, id, outcome, pnl, now)), false)
  }

  /** The bid `_check_one` sees for a bet. */
  function BidFor(books: map<string, seq<Level>>, bet: Bet): Option<real> {
    BestBid(BookFor(books, bet.entry.tokenId))
  }

  /**
   * The loop of `_check_all` over the pending bets, stopping at the first
   * exception. Each settlement reads the clock afresh: the clock has moved
   * on by one tick for each bet the pass has already reached, so the bet
   * at position i of the pass is stamped `now + i`.
   */
  function ApplyAll(t: Tables, pending: seq<Bet>, books: map<string, seq<Level>>, now: int): (r: (Tables, bool))
    ensures |r.0.bets| == |t.bets|
    ensures r.1 ==> exists k :: 0 <= k < |pending| && !Decide(pending[k], BidFor(books, pending[k])).Hold?
    decreases |pending|
  {
    if pending == [] then (t, false)
    else CheckStep(ApplyAll(t, pending[..|pending| - 1], books, now), pending[|pending| - 1], books, now + |pending| - 1)
  }

  /** `_check_one` on one more bet at time `at`, unless an exception has already escaped. */
  function CheckStep(before: (Tables, bool), bet: Bet, books: map<string, seq<Level>>, at: int): (r: (Tables, bool))
    ensures |r.0.bets| == |before.0.bets|
    ensures r.1 ==> before.1 || !Decide(bet, BidFor(books, bet)).Hold?
  {
    if before.1 then before else ApplyDecision(before.0, bet.id, Decide(bet, BidFor(books, bet)), at)
  }

  /** Once an exception has escaped, the later bets are not looked at. */
  lemma {:induction false} ApplyAllStops(t: Tables, pending: seq<Bet>, k: nat, books: map<string, seq<Level>>, now: int)
    requires k <= |pending| && ApplyAll(t, pending[..k], books, now).1
    ensures ApplyAll(t, pending, books, now) == ApplyAll(t, pending[..k], books, now)
    decreases |pending| - k
  {
    if k < |pending| {
      assert pending[..|pending| - 1][..k] == pending[..k];
      ApplyAllStops(t, pending[..|pending| - 1], k, books, now);
    } else {
      assert pending[..k] == pending;
    }
  }

  /** A pass in which no bid reached either threshold leaves both tables as they were. */
  lemma {:induction false} QuietPassChangesNothing(t: Tables, pending: seq<Bet>, books: map<string, seq<Level>>, now: int)
    requires forall i :: 0 <= i < |pending| ==> Decide(pending[i], BidFor(books, pending[i])) == Hold
    ensures ApplyAll(t, pending, books, now) == (t, false)
    decreases |pending|
  {
    if pending != [] {
      QuietPassChangesNothing(t, pending[..|pending| - 1], books, now);
    }
  }

  /**
   * Settling only ever moves rows out of pending: a row pending after a
   * pass was pending before it, and the settled rows keep their ids.
   */
  lemma {:induction false} ApplyAllOnlySettles(t: Tables, pending: seq<Bet>, books: map<string, seq<Level>>, now: int)
    ensures var t2 := ApplyAll(t, pending, books, now).0;
      && |t2.bets| == |t.bets|
      && (forall k :: 0 <= k < |t.bets| ==> t2.bets[k].id == t.bets[k].id && t2.bets[k].entry == t.bets[k].entry)
      && (forall k :: 0 <= k < |t.bets| && t2.bets[k].outcome == Pending ==> t.bets[k].outcome == Pending)
      && |t2.results| >= |t.results| && t2.results[..|t.results|] == t.results
    decreases |pending|
  {
    if pending != [] {
      ApplyAllOnlySettles(t, pending[..|pending| - 1], books, now);
    }
  }

  /** The row a bet becomes once a settling decision is applied to it at time `at`; any other decision leaves it. */
  function SettledBy(bet: Bet, d: Decision, at: int): (r: Bet)
    ensures d.Settle? ==> r.id == bet.id && r.entry == bet.entry && r.outcome == d.outcome && r.settledAt == Some(at)
    ensures !d.Settle? ==> r == bet
  {
    if d.Settle? then bet.(outcome := d.outcome, pnl := Some(d.pnl), settledAt := Some(at)) else bet
  }

  /** The table once its first n rows have been settled in turn, row k at `now + k`, each by its own bid. */
  function SettledUpTo(bets: seq<Bet>, books: map<string, seq<Level>>, now: int, n: nat): (r: seq<Bet>)
    ensures |r| == |bets|
    ensures forall k :: 0 <= k < |bets| ==> r[k] == if k < n then SettledBy(bets[k], Decide(bets[k], BidFor(books, bets[k])), now + k) else bets[k]
  {
    seq(|bets|, k requires 0 <= k < |bets| =>
      if k < n then SettledBy(bets[k], Decide(bets[k], BidFor(books, bets[k])), now + k) else bets[k])
  }

  /**
   * Settling a row whose id no other row shares and which has an order id
   * raises nothing and changes that row alone.
   */
  lemma SettleOneRow(t: Tables, i: nat, d: Decision, at: int)
    requires i < |t.bets| && d.Settle? && t.bets[i].entry.orderId.Some?
    requires forall k :: 0 <= k < |t.bets| && k != i ==> t.bets[k].id != t.bets[i].id
    ensures var (t2, raised) := ApplyDecision(t, t.bets[i].id, d, at);
      && !raised && |t2.bets| == |t.bets| && t2.bets[i] == SettledBy(t.bets[i], d, at)
      && forall k :: 0 <= k < |t.bets| && k != i ==> t2.bets[k] == t.bets[k]
  {
    assert !SettleViolatesNotNull(t.bets, t.bets[i].id) by {
      forall k | 0 <= k < |t.bets| && t.bets[k].id == t.bets[i].id
        ensures t.bets[k].entry.orderId.Some?
      {
        assert k == i;
      }
    }
  }

  /** Settling row i of a table whose first i rows are settled in turn settles the first i + 1. */
  lemma SettleNextInTurn(bets: seq<Bet>, results: seq<ResultRow>, i: nat, books: map<string, seq<Level>>, now: int)
    requires i < |bets|
    requires forall i, j :: 0 <= i < j < |bets| ==> bets[i].id < bets[j].id
    requires bets[i].entry.orderId.Some? && Decide(bets[i], BidFor(books, bets[i])).Settle?
    ensures var (t2, raised) := ApplyDecision(Tables(SettledUpTo(bets, books, now, i), results),
                                              bets[i].id, Decide(bets[i], BidFor(books, bets[i])), now + i);
      !raised && t2.bets == SettledUpTo(bets, books, now, i + 1)
  {
    var t1 := Tables(SettledUpTo(bets, books, now, i), results);
    var d := Decide(bets[i], BidFor(books, bets[i]));
    assert forall k :: 0 <= k < |bets| ==> t1.bets[k].id == bets[k].id;
    SettleOneRow(t1, i, d, now + i);
    var t2 := ApplyDecision(t1, bets[i].id, d, now + i).0;
    var want := SettledUpTo(bets, books, now, i + 1);
    forall k | 0 <= k < |bets|
      ensures t2.bets[k] == want[k]
    {
    }
  }

  /** The pass over the first i + 1 bets is the pass over the first i followed by bet i, checked at `now + i`. */
  lemma ApplyAllStep(t: Tables, pending: seq<Bet>, i: nat, books: map<string, seq<Level>>, now: int)
    requires i < |pending|
    ensures ApplyAll(t, pending[..i + 1], books, now) ==
            CheckStep(ApplyAll(t, pending[..i], books, now), pending[i], books, now + i)
  {
    var p := pending[..i + 1];
    assert p[..|p| - 1] == pending[..i] && p[|p| - 1] == pending[i] && now + |p| - 1 == now + i;
  }

  /** A pass that got through the first i bets, followed by the decision on bet i at `now + i`, is the pass over the first i + 1. */
  lemma ApplyAllOneMore(t: Tables, pending: seq<Bet>, i: nat, books: map<string, seq<Level>>, now: int,
                        before: Tables, after: (Tables, bool))
    requires i < |pending| && ApplyAll(t, pending[..i], books, now) == (before, false)
    requires after == ApplyDecision(before, pending[i].id, Decide(pending[i], BidFor(books, pending[i])), now + i)
    ensures ApplyAll(t, pending[..i + 1], books, now) == after
  {
    ApplyAllStep(t, pending, i, books, now);
  }

  /**
   * When every bet of a table has an order id and settles in this pass,
   * walking the table in order settles its rows one after another: after
   * the first n, those n rows carry their outcome stamped with the pass
   * clock plus their position, and the rest are untouched.
   */
  lemma {:induction false} SettlesInTurn(bets: seq<Bet>, results: seq<ResultRow>, n: nat, books: map<string, seq<Level>>, now: int)
    requires n <= |bets|
    requires forall i, j :: 0 <= i < j < |bets| ==> bets[i].id < bets[j].id
    requires forall k :: 0 <= k < |bets| ==>
      bets[k].entry.orderId.Some? && Decide(bets[k], BidFor(books, bets[k])).Settle?
    ensures !ApplyAll(Tables(bets, results), bets[..n], books, now).1
    ensures ApplyAll(Tables(bets, results), bets[..n], books, now).0.bets == SettledUpTo(bets, books, now, n)
    decreases n
  {
    if n == 0 {
      assert bets[..n] == [] && SettledUpTo(bets, books, now, n) == bets;
    } else {
      SettlesInTurn(bets, results, n - 1, books, now);
      PassStepInTurn(bets, results, n - 1, books, now);
    }
  }

  /** One more bet of the pass settles the next row in turn. */
  lemma PassStepInTurn(bets: seq<Bet>, results: seq<ResultRow>, i: nat, books: map<string, seq<Level>>, now: int)
    requires i < |bets|
    requires forall i, j :: 0 <= i < j < |bets| ==> bets[i].id < bets[j].id
    requires bets[i].entry.orderId.Some? && Decide(bets[i], BidFor(books, bets[i])).Settle?
    requires !ApplyAll(Tables(bets, results), bets[..i], books, now).1
    requires ApplyAll(Tables(bets, results), bets[..i], books, now).0.bets == SettledUpTo(bets, books, now, i)
    ensures !ApplyAll(Tables(bets, results), bets[..i + 1], books, now).1
    ensures ApplyAll(Tables(bets, results), bets[..i + 1], books, now).0.bets == SettledUpTo(bets, books, now, i + 1)
  {
    var t0 := Tables(bets, results);
    ApplyAllStep(t0, bets, i, books, now);
    var t1 := ApplyAll(t0, bets[..i], books, now).0;
    assert t1 == Tables(SettledUpTo(bets, books, now, i), t1.results);
    SettleNextInTurn(bets, t1.results, i, books, now);
  }

  /** A table whose rows are all won or lost, stamped one tick apart in table order, is read back newest first. */
  lemma StampedInTurnRecent(rows: seq<Bet>, now: int)
    requires forall k :: 0 <= k < |rows| ==> (rows[k].outcome == Win || rows[k].outcome == Loss) && rows[k].settledAt == Some(now + k)
    ensures RecentSettled(rows) == Take(Reverse(rows), 10)
  {
    AllSettledRecent(rows);
  }

  /**
   * A pass over a table whose rows are all pending, placed in time order,
   * with order ids, and which all settle: no exception escapes, every row
   * is settled at its own, later, time, and the newest-first query behind
   * the loss counter reads the table backwards, so the last bet settled is
   * the first one counted.
   */
  lemma PassSettlesNewestLast(bets: seq<Bet>, results: seq<ResultRow>, books: map<string, seq<Level>>, now: int)
    requires SortedBy(bets, BetAtKey())
    requires forall i, j :: 0 <= i < j < |bets| ==> bets[i].id < bets[j].id
    requires forall k :: 0 <= k < |bets| ==>
      && bets[k].outcome == Pending && bets[k].entry.orderId.Some?
      && Decide(bets[k], BidFor(books, bets[k])).Settle?
    ensures var (t, raised) := ApplyAll(Tables(bets, results), PendingBets(bets), books, now);
      && !raised && t.bets == SettledUpTo(bets, books, now, |bets|)
      && RecentSettled(t.bets) == Take(Reverse(t.bets), 10)
  {
    PendingBetsInTableOrder(bets);
    AllKept(bets, PendingFilter());
    SettlesInTurn(bets, results, |bets|, books, now);
    assert bets[..|bets|] == bets;
    var t := ApplyAll(Tables(bets, results), bets, books, now).0;
    forall k | 0 <= k < |t.bets|
      ensures (t.bets[k].outcome == Win || t.bets[k].outcome == Loss) && t.bets[k].settledAt == Some(now + k)
    {
      SettleOutcome(bets[k], BidFor(books, bets[k]));
    }
    StampedInTurnRecent(t.bets, now);
  }

  /** A settling decision settles to a win or a loss. */
  lemma SettleOutcome(bet: Bet, bid: Option<real>)
    ensures Decide(bet, bid).Settle? ==> Decide(bet, bid).outcome == Win || Decide(bet, bid).outcome == Loss
  {
  }

  /** Four rows read back newest first, a win under three losses, count three losses in a row. */
  lemma WinThenThreeLosses(r: seq<Bet>, recent: seq<Bet>)
    requires |r| == 4 && recent == Take(Reverse(r), 10)
    requires r[0].outcome == Win && r[1].outcome == Loss && r[2].outcome == Loss && r[3].outcome == Loss
    ensures LeadingLosses(recent) == 3
  {
    assert r == [r[0], r[1], r[2], r[3]];
    ReverseOfFour(r[0], r[1], r[2], r[3]);
    LeadingLossesOfFour(r[3], r[2], r[1], r[0]);
  }

  /**
   * The breaker trips on a win followed by three losses settled in the same
   * pass: the three losses are the newest rows, so the count is three,
   * which reaches the limit.
   */
  lemma BreakerTripsWithinOnePass(bets: seq<Bet>, results: seq<ResultRow>, books: map<string, seq<Level>>, now: int)
    requires |bets| == 4 && SortedBy(bets, BetAtKey())
    requires forall i, j :: 0 <= i < j < |bets| ==> bets[i].id < bets[j].id
    requires forall k :: 0 <= k < |bets| ==>
      && bets[k].outcome == Pending && bets[k].entry.orderId.Some?
      && Decide(bets[k], BidFor(books, bets[k])).Settle?
      && Decide(bets[k], BidFor(books, bets[k])).outcome == (if k == 0 then Win else Loss)
    ensures var (t, raised) := ApplyAll(Tables(bets, results), PendingBets(bets), books, now);
      !raised && LeadingLosses(RecentSettled(t.bets)) == 3 >= MaxConsecutiveLosses
  {
    PassSettlesNewestLast(bets, results, books, now);
    var t := ApplyAll(Tables(bets, results), PendingBets(bets), books, now).0;
    WinThenThreeLosses(t.bets, RecentSettled(t.bets));
  }

  // ---------------------------------------------------------------- run

  /**
   * One `_check_all` on the tables and the stop flag: the new tables, the new
   * flag and whether an exception escaped. Nothing happens without pending
   * bets; after a pass that raised the flag is left as it was; otherwise it
   * goes up once the losses in a row reach the limit, and it is never cleared.
   */
  function PassOnce(t: Tables, stopped: bool, books: map<string, seq<Level>>, now: int): (r: (Tables, bool, bool))
    ensures stopped ==> r.1
    ensures PendingBets(t.bets) == [] ==> r.0 == t && r.1 == stopped && !r.2
    ensures r.2 ==> r.1 == stopped
    ensures |r.0.bets| == |t.bets|
    ensures r.1 && !stopped ==> LeadingLosses(RecentSettled(r.0.bets)) >= MaxConsecutiveLosses
  {
    var pending := PendingBets(t.bets);
    if pending == [] then (t, stopped, false)
    else
      var after := ApplyAll(t, pending, books, now);
      if after.1 then (after.0, stopped, true)
      else (after.0, stopped || LeadingLosses(RecentSettled(after.0.bets)) >= MaxConsecutiveLosses, false)
  }

  /** Where `run` stands: the tables, the stop flag, how many passes ran, and whether one raised. */
  datatype RunState = RunState(tables: Tables, stopped: bool, done: nat, raised: bool)

  /** One more turn of `run`'s loop: a pass at the clock and with the books given, unless the flag is up or a pass raised. */
  function RunStep(before: RunState, pass: (int, map<string, seq<Level>>)): (r: RunState)
    ensures before.stopped || before.raised ==> r == before
    ensures !before.stopped && !before.raised ==> r.done == before.done + 1
  {
    if before.stopped || before.raised then before
    else
      var p := PassOnce(before.tables, before.stopped, pass.1, pass.0);
      RunState(p.0, p.1, before.done + 1, p.2)
  }

  /**
   * `run` over a finite list of (clock, fetched books) passes: the passes are
   * taken in order while the flag is down and nothing has raised.
   */
  function RunPasses(t: Tables, stopped: bool, passes: seq<(int, map<string, seq<Level>>)>): (r: RunState)
    ensures r.done <= |passes|
    ensures stopped ==> r == RunState(t, stopped, 0, false)
    ensures !r.stopped && !r.raised ==> r.done == |passes|
    ensures r.raised ==> r.done >= 1
    decreases |passes|
  {
    if passes == [] then RunState(t, stopped, 0, false)
    else RunStep(RunPasses(t, stopped, passes[..|passes| - 1]), passes[|passes| - 1])
  }

  /** Running the first k + 1 passes is running the first k and then one more turn with pass k. */
  lemma RunPassesStep(t: Tables, stopped: bool, passes: seq<(int, map<string, seq<Level>>)>, k: nat)
    requires k < |passes|
    ensures RunPasses(t, stopped, passes[..k + 1]) == RunStep(RunPasses(t, stopped, passes[..k]), passes[k])
  {
    var p := passes[..k + 1];
    assert p[..|p| - 1] == passes[..k] && p[|p| - 1] == passes[k];
  }

  /** Once the flag is up or a pass raised, the remaining passes change nothing. */
  lemma {:induction false} RunPassesStops(t: Tables, stopped: bool, passes: seq<(int, map<string, seq<Level>>)>, k: nat)
    requires k <= |passes|
    requires RunPasses(t, stopped, passes[..k]).stopped || RunPasses(t, stopped, passes[..k]).raised
    ensures RunPasses(t, stopped, passes) == RunPasses(t, stopped, passes[..k])
    decreases |passes| - k
  {
    if k < |passes| {
      RunPassesStep(t, stopped, passes, k);
      RunPassesStops(t, stopped, passes, k + 1);
    } else {
      assert passes[..k] == passes;
    }
  }

  /**
   * `run` checks again only while the flag is down: every pass that ran found
   * the flag down and no exception before it, was the k-th of the list, and
   * did exactly what one `_check_all` does.
   */
  lemma OnlyWhileFlagDown(t: Tables, stopped: bool, passes: seq<(int, map<string, seq<Level>>)>, k: nat)
    requires k < RunPasses(t, stopped, passes).done
    ensures var before := RunPasses(t, stopped, passes[..k]);
      && !before.stopped && !before.raised && before.done == k
      && var p := PassOnce(before.tables, false, passes[k].1, passes[k].0);
         RunPasses(t, stopped, passes[..k + 1]) == RunState(p.0, p.1, k + 1, p.2)
  {
    var before := RunPasses(t, stopped, passes[..k]);
    if before.stopped || before.raised {
      RunPassesStops(t, stopped, passes, k);
    }
    RunPassesStep(t, stopped, passes, k);
  }

  /**
   * With the flag down, the first pass of a run over the four-bet history of
   * `BreakerTripsWithinOnePass` raises the flag, so that pass is the only one.
   */
  lemma BreakerEndsRun(bets: seq<Bet>, results: seq<ResultRow>, passes: seq<(int, map<string, seq<Level>>)>)
    requires passes != [] && |bets| == 4
    requires SortedBy(bets, BetAtKey())
    requires forall i, j :: 0 <= i < j < |bets| ==> bets[i].id < bets[j].id
    requires forall k :: 0 <= k < |bets| ==>
      && bets[k].outcome == Pending && bets[k].entry.orderId.Some?
      && Decide(bets[k], BidFor(passes[0].1, bets[k])).Settle?
      && Decide(bets[k], BidFor(passes[0].1, bets[k])).outcome == (if k == 0 then Win else Loss)
    ensures var r := RunPasses(Tables(bets, results), false, passes);
      r.done == 1 && r.stopped && !r.raised
  {
    var t := Tables(bets, results);
    BreakerTripsWithinOnePass(bets, results, passes[0].1, passes[0].0);
    assert PendingBets(bets) != [] by {
      PendingBetsInTableOrder(bets);
      AllKept(bets, PendingFilter());
    }
    RunPassesStep(t, false, passes, 0);
    assert passes[..0] == [];
    RunPassesStops(t, false, passes, 1);
  }

  /** The position monitor: the ledger it settles and the sticky stop flag. */
  class Monitor {
    var db: DB
    var stopped: bool

    constructor (db: DB)
      ensures this.db == db && !stopped
    {
      this.db := db;
      stopped := false;
    }

    /** `_check_one`: settles one bet according to its bid; `raised` reports an exception escaping. */
    method CheckOne(bet: Bet, bid: Option<real>, now: int) returns (raised: bool)
      requires db.Valid()
      modifies db
      ensures db.Valid() && db.nextId == old(db.nextId)
      ensures (Tables(db.bets, db.results), raised) ==
              ApplyDecision(Tables(old(db.bets), old(db.results)), bet.id, Decide(bet, bid), now)
    {
      if bid.None? {
        return false;
      }
      if bid.value >= WinThreshold {
        if bet.entry.polyPrice == 0.0 {
          return true;
        }
        var pnl := bet.entry.betUsdc * (1.0 / bet.entry.polyPrice) - bet.entry.betUsdc;
        assert Decide(bet, bid) == Settle(Win, pnl);
        var committed := db.SettleBet(bet.id, Win, pnl, now);
        return !committed;
      } else if bid.value <= LossThreshold {
        var pnl := -bet.entry.betUsdc;
        assert Decide(bet, bid) == Settle(Loss, pnl);
        var committed := db.SettleBet(bet.id, Loss, pnl, now);
        return !committed;
      }
      return false;
    }

    /**
     * `_check_all`: nothing at all when no bet is pending; otherwise each
     * pending bet is checked in `bet_at` order and, if no exception escaped,
     * the stop flag is set once the losses in a row reach the limit. The
     * flag is never cleared.
     */
    method CheckAll(books: map<string, seq<Level>>, now: int) returns (raised: bool)
      requires db.Valid()
      modifies this, db
      ensures db == old(db) && db.Valid() && db.nextId == old(db.nextId)
      ensures (Tables(db.bets, db.results), raised) ==
              ApplyAll(Tables(old(db.bets), old(db.results)), PendingBets(old(db.bets)), books, now)
      ensures PendingBets(old(db.bets)) == [] || raised ==> stopped == old(stopped)
      ensures PendingBets(old(db.bets)) != [] && !raised ==>
              stopped == (old(stopped) || LeadingLosses(RecentSettled(db.bets)) >= MaxConsecutiveLosses)
      ensures (Tables(db.bets, db.results), stopped, raised) ==
              PassOnce(Tables(old(db.bets), old(db.results)), old(stopped), books, now)
    {
      var pending := PendingBets(db.bets);
      if pending == [] {
        return false;
      }
      raised := CheckEach(pending, books, now);
      if raised {
        return;
      }
      var consecutive := db.CountConsecutiveLosses();
      if consecutive >= MaxConsecutiveLosses {
        stopped := true;
      }
    }

    /** The loop of `_check_all`: `_check_one` on each bet in turn, leaving at the first exception. */
    method CheckEach(pending: seq<Bet>, books: map<string, seq<Level>>, now: int) returns (raised: bool)
      requires db.Valid()
      modifies db
      ensures db.Valid() && db.nextId == old(db.nextId)
      ensures (Tables(db.bets, db.results), raised) ==
              ApplyAll(Tables(old(db.bets), old(db.results)), pending, books, now)
    {
      ghost var t0 := Tables(db.bets, db.results);
      raised := false;
      var i := 0;
      while i < |pending| && !raised
        invariant i <= |pending| && db.Valid() && db.nextId == old(db.nextId)
        invariant (Tables(db.bets, db.results), raised) == ApplyAll(t0, pending[..i], books, now)
        invariant raised ==> ApplyAll(t0, pending, books, now) == ApplyAll(t0, pending[..i], books, now)
      {
        ghost var before := Tables(db.bets, db.results);
        raised := CheckOne(pending[i], BidFor(books, pending[i]), now + i);
        ApplyAllOneMore(t0, pending, i, books, now, before, (Tables(db.bets, db.results), raised));
        if raised {
          ApplyAllStops(t0, pending, i + 1, books, now);
        }
        i := i + 1;
      }
      assert !raised ==> pending[..i] == pending;
    }

    /**
     * `run`: another pass only while the stop flag is down. `passes` is the
     * sequence of (clock, fetched books) the loop would see; the loop ends
     * when they run out, when the flag goes up, or when an exception
     * escapes a pass.
     */
    method Run(passes: seq<(int, map<string, seq<Level>>)>) returns (done: nat, raised: bool)
      requires db.Valid()
      modifies this, db
      ensures db == old(db) && db.Valid()
      ensures RunState(Tables(db.bets, db.results), stopped, done, raised) ==
              RunPasses(Tables(old(db.bets), old(db.results)), old(stopped), passes)
    {
      ghost var t0, s0 := Tables(db.bets, db.results), stopped;
      done, raised := 0, false;
      while !stopped && !raised && done < |passes|
        invariant done <= |passes| && db == old(db) && db.Valid()
        invariant RunState(Tables(db.bets, db.results), stopped, done, raised) == RunPasses(t0, s0, passes[..done])
        decreases |passes| - done
      {
        var (now, books) := passes[done];
        ghost var before := RunState(Tables(db.bets, db.results), stopped, done, raised);
        raised := CheckAll(books, now);
        RunPassesStep(t0, s0, passes, done);
        assert RunState(Tables(db.bets, db.results), stopped, done + 1, raised) == RunStep(before, passes[done]);
        done := done + 1;
      }
      if done < |passes| {
        RunPassesStops(t0, s0, passes, done);
      } else {
        assert passes[..done] == passes;
      }
    }
  }
}

=== FILE: odds.dfy ===
/**
 * The sportsbook side (core/odds_fetcher.py): the per-game quote records, the
 * favourite rule, the clean-handicap filter and the parsing of the quote
 * feed's game list into games that have a favourite.
 *
 * The feed's JSON arrives here already decoded: a missing key is the default
 * the source reads (`""` for names, `[]` for lists, `None` for prices and
 * points), and `commence_time` is an `int` of seconds, or `None` when the
 * ISO text did not parse.
 */
module Odds {
  import opened Wrappers
  import opened Seqs

  // ---------------------------------------------------------------- records

  /** One team's quote: decimal odds, `1/odds`, and the handicap point on a spread market. */
  datatype TeamOdds = TeamOdds(name: string, odds: real, impliedProb: real, handicapPoint: Option<real>)

  datatype Side = Home | Away

  /** A game with the Pinnacle quote for both sides and the sport's odds ceiling. */
  datatype Game = Game(
    sportId: string,
    gameId: string,
    commenceTime: int,
    homeTeam: string,
    awayTeam: string,
    homeOdds: TeamOdds,
    awayOdds: TeamOdds,
    maxOdds: real)

  function SideOdds(g: Game, s: Side): TeamOdds {
    if s == Home then g.homeOdds else g.awayOdds
  }

  function Opposite(s: Side): (r: Side)
    ensures r != s
  {
    if s == Home then Away else Home
  }

  // ---------------------------------------------------------------- favourite

  /**
   * Which side is the favourite: home whenever home is at or below the
   * ceiling (even if away is too), else away if away is, else none.
   */
  function FavoriteSide(g: Game): (r: Option<Side>)
    ensures g.homeOdds.odds <= g.maxOdds ==> r == Some(Home)
    ensures g.homeOdds.odds > g.maxOdds && g.awayOdds.odds <= g.maxOdds ==> r == Some(Away)
    ensures r.None? <==> g.homeOdds.odds > g.maxOdds && g.awayOdds.odds > g.maxOdds
  {
    if g.homeOdds.odds <= g.maxOdds then Some(Home)
    else if g.awayOdds.odds <= g.maxOdds then Some(Away)
    else None
  }

  /** The `favorite` property: the favourite side's quote, which is always within the ceiling. */
  function Favorite(g: Game): (r: Option<TeamOdds>)
    ensures r.None? <==> g.homeOdds.odds > g.maxOdds && g.awayOdds.odds > g.maxOdds
    ensures r.Some? ==> r.value.odds <= g.maxOdds
    ensures g.homeOdds.odds <= g.maxOdds ==> r == Some(g.homeOdds)
    ensures g.homeOdds.odds > g.maxOdds && g.awayOdds.odds <= g.maxOdds ==> r == Some(g.awayOdds)
  {
    match FavoriteSide(g)
    case Some(s) => Some(SideOdds(g, s))
    case None => None
  }

  /** The `underdog` property: absent exactly when there is no favourite, else the other side. */
  function Underdog(g: Game): (r: Option<TeamOdds>)
    ensures r.None? <==> Favorite(g).None?
    ensures FavoriteSide(g) == Some(Home) ==> r == Some(g.awayOdds)
    ensures FavoriteSide(g) == Some(Away) ==> r == Some(g.homeOdds)
  {
    match FavoriteSide(g)
    case Some(s) => Some(SideOdds(g, Opposite(s)))
    case None => None
  }

  /** The game has a favourite: at least one side is within the ceiling. */
  predicate HasFavorite(g: Game): (r: bool)
    ensures r <==> g.homeOdds.odds <= g.maxOdds || g.awayOdds.odds <= g.maxOdds
  {
    FavoriteSide(g).Some?
  }

  /**
   * `favorite_is_home`, which the source reads but does not define: the
   * favourite is the home side, which is so exactly when home is within the
   * ceiling.
   */
  predicate FavoriteIsHome(g: Game): (r: bool)
    ensures r <==> g.homeOdds.odds <= g.maxOdds
    ensures r ==> HasFavorite(g)
  {
    FavoriteSide(g) == Some(Home)
  }

  /** `favorite_team`, `favorite_odds`, `favorite_prob`: the favourite's name, odds and implied probability. */
  function FavoriteTeam(g: Game): (r: string)
    requires HasFavorite(g)
    ensures FavoriteIsHome(g) ==> r == g.homeOdds.name
    ensures !FavoriteIsHome(g) ==> r == g.awayOdds.name
  {
    Favorite(g).value.name
  }

  function FavoriteOdds(g: Game): (r: real)
    requires HasFavorite(g)
    ensures r <= g.maxOdds
    ensures FavoriteIsHome(g) ==> r == g.homeOdds.odds
    ensures !FavoriteIsHome(g) ==> r == g.awayOdds.odds
  {
    Favorite(g).value.odds
  }

  function FavoriteProb(g: Game): (r: real)
    requires HasFavorite(g)
    ensures FavoriteIsHome(g) ==> r == g.homeOdds.impliedProb
    ensures !FavoriteIsHome(g) ==> r == g.awayOdds.impliedProb
  {
    Favorite(g).value.impliedProb
  }

  // ---------------------------------------------------------------- clean handicap

  function Abs(x: real): (r: real)
    ensures r >= 0.0 && (r == x || r == -x)
  {
    if x < 0.0 then -x else x
  }

  /** Python's `a % 0.5` for `a >= 0`: what is left above the largest half-point not above `a`. */
  function HalfPointRemainder(a: real): (r: real)
    requires a >= 0.0
    ensures 0.0 <= r < 0.5
    ensures r == a - (2.0 * a).Floor as real / 2.0
  {
    a - (2.0 * a).Floor as real / 2.0
  }

  /**
   * `_is_clean_handicap`: the point is non-zero and its magnitude is a
   * half-point multiple up to the source's tolerance of 0.01.
   */
  function IsCleanHandicap(point: real): (r: bool)
    ensures r ==> point != 0.0
    ensures r ==> exists k: nat :: NearHalfPoint(Abs(point), k)
  {
    var a := Abs(point);
    if a == 0.0 then false
    else
      var f := (2.0 * a).Floor;
      assert f >= 0 && (HalfPointRemainder(a) < 0.01 ==> NearHalfPoint(a, f));
      HalfPointRemainder(a) < 0.01
  }

  /** `a` lies in [k/2, k/2 + 0.01). */
  predicate NearHalfPoint(a: real, k: nat) {
    k as real / 2.0 <= a < k as real / 2.0 + 0.01
  }

  /**
   * The clean lines are exactly the non-zero points whose magnitude lies in
   * some [k/2, k/2 + 0.01): an exact half-point multiple, or one within the
   * tolerance above it.
   */
  lemma CleanHandicapIff(point: real)
    ensures IsCleanHandicap(point) <==>
      point != 0.0 && exists k: nat :: NearHalfPoint(Abs(point), k)
  {
    var a := Abs(point);
    var f := (2.0 * a).Floor;
    if IsCleanHandicap(point) {
      assert f >= 0;
      var k: nat := f;
      assert NearHalfPoint(a, k);
    }
    if point != 0.0 && exists k: nat :: NearHalfPoint(a, k) {
      var k: nat :| NearHalfPoint(a, k);
      assert k as real <= 2.0 * a < k as real + 1.0;
      assert f == k;
    }
  }

  /** Exact non-zero half-point multiples are clean, and the rule ignores the sign. */
  lemma CleanHalfPoints(k: nat)
    requires k >= 1
    ensures IsCleanHandicap(k as real / 2.0) && IsCleanHandicap(-(k as real) / 2.0)
  {
    CleanHandicapIff(k as real / 2.0);
    CleanHandicapIff(-(k as real) / 2.0);
  }

  lemma CleanHandicapSymmetric(point: real)
    ensures IsCleanHandicap(-point) == IsCleanHandicap(point)
  {
  }

  /** The lines the doc-comment names: ±0.5, ±1.0, ±1.5, ±2.0 pass; 0, 0.25, 0.75, 0.8, 1.2 do not. */
  lemma CleanHandicapExamples()
    ensures IsCleanHandicap(0.5) && IsCleanHandicap(-0.5) && IsCleanHandicap(1.0) && IsCleanHandicap(-1.0)
    ensures IsCleanHandicap(1.5) && IsCleanHandicap(-1.5) && IsCleanHandicap(2.0) && IsCleanHandicap(-2.0)
    ensures !IsCleanHandicap(0.0) && !IsCleanHandicap(0.25) && !IsCleanHandicap(-0.25)
    ensures !IsCleanHandicap(0.75) && !IsCleanHandicap(-0.75) && !IsCleanHandicap(0.8) && !IsCleanHandicap(1.2)
  {
    assert (2.0 * 0.5).Floor == 1;
    assert (2.0 * 1.0).Floor == 2;
    assert (2.0 * 1.5).Floor == 3;
    assert (2.0 * 2.0).Floor == 4;
    assert (2.0 * 0.25).Floor == 0;
    assert (2.0 * 0.75).Floor == 1;
    assert (2.0 * 0.8).Floor == 1;
    assert (2.0 * 1.2).Floor == 2;
  }

  /** The tolerance also admits points just above a half-point multiple, including 0 < |p| < 0.01. */
  lemma CleanHandicapTolerance()
    ensures IsCleanHandicap(0.505) && IsCleanHandicap(0.005)
  {
    assert (2.0 * 0.505).Floor == 1;
    assert (2.0 * 0.005).Floor == 0;
  }

  // ---------------------------------------------------------------- raw feed

  datatype RawOutcome = RawOutcome(name: string, price: Option<real>, point: Option<real>)
  datatype RawMarket = RawMarket(key: string, outcomes: seq<RawOutcome>)
  datatype Bookmaker = Bookmaker(key: string, markets: seq<RawMarket>)
  datatype RawGame = RawGame(
    id: string,
    homeTeam: string,
    awayTeam: string,
    commenceTime: Option<int>,
    bookmakers: seq<Bookmaker>)

  predicate IsPinnacle(b: Bookmaker) {
    b.key == "pinnacle"
  }

  /** `_find_pinnacle`: the first bookmaker keyed "pinnacle", or none. */
  function FindPinnacle(bms: seq<Bookmaker>): (r: Option<Bookmaker>)
    ensures r.None? <==> forall j :: 0 <= j < |bms| ==> bms[j].key != "pinnacle"
    ensures r.Some? ==> exists i :: 0 <= i < |bms| && bms[i] == r.value && r.value.key == "pinnacle" &&
                          forall j :: 0 <= j < i ==> bms[j].key != "pinnacle"
  {
    match FirstIndex(bms, IsPinnacle)
    case Some(i) => Some(bms[i])
    case None => None
  }

  function MarketKeyed(key: string): RawMarket -> bool {
    (m: RawMarket) => m.key == key
  }

  /** An outcome that the h2h loop records as the home price: it has a price and the home name. */
  function HomeH2h(home: string): RawOutcome -> bool {
    (o: RawOutcome) => o.price.Some? && o.name == home
  }

  /** An outcome that the h2h loop records as the away price (the `elif`: not also the home name). */
  function AwayH2h(home: string, away: string): RawOutcome -> bool {
    (o: RawOutcome) => o.price.Some? && o.name != home && o.name == away
  }

  /** On a spread market an outcome counts only when both its price and its point are present. */
  function HomeSpread(home: string): RawOutcome -> bool {
    (o: RawOutcome) => o.price.Some? && o.point.Some? && o.name == home
  }

  function AwaySpread(home: string, away: string): RawOutcome -> bool {
    (o: RawOutcome) => o.price.Some? && o.point.Some? && o.name != home && o.name == away
  }

  function PriceAt(os: seq<RawOutcome>, i: Option<nat>): Option<real> {
    if i.Some? && i.value < |os| then os[i.value].price else None
  }

  function PointAt(os: seq<RawOutcome>, i: Option<nat>): Option<real> {
    if i.Some? && i.value < |os| then os[i.value].point else None
  }

  /**
   * What `_extract_h2h_odds` returns: on the first market keyed "h2h", the
   * price of the last priced outcome named after each team; (None, None)
   * when the bookmaker has no such market.
   */
  function H2hPrices(bm: Bookmaker, home: string, away: string): (r: (Option<real>, Option<real>))
    ensures (forall j :: 0 <= j < |bm.markets| ==> bm.markets[j].key != "h2h") ==> r == (None, None)
    ensures r.1.Some? ==>
      exists i, k :: 0 <= i < |bm.markets| && bm.markets[i].key == "h2h" && 0 <= k < |bm.markets[i].outcomes| &&
        bm.markets[i].outcomes[k].name == away && bm.markets[i].outcomes[k].name != home &&
        bm.markets[i].outcomes[k].price == r.1
  {
    match FirstIndex(bm.markets, MarketKeyed("h2h"))
    case None => (None, None)
    case Some(i) =>
      var os := bm.markets[i].outcomes;
      (PriceAt(os, LastIndex(os, HomeH2h(home))), PriceAt(os, LastIndex(os, AwayH2h(home, away))))
  }

  /** A spread line: both prices and both points. */
  datatype SpreadLine = SpreadLine(homePrice: real, awayPrice: real, homePoint: real, awayPoint: real)

  /**
   * What `_extract_spreads_odds` returns: on the first market keyed
   * "spreads", the last complete outcome of each team; nothing when a side
   * is missing, when the home point is not clean, or when there is no such
   * market. The away point is not checked.
   */
  function SpreadPrices(bm: Bookmaker, home: string, away: string): (r: Option<SpreadLine>)
    ensures (forall j :: 0 <= j < |bm.markets| ==> bm.markets[j].key != "spreads") ==> r.None?
    ensures r.Some? ==>
      exists i, k :: 0 <= i < |bm.markets| && bm.markets[i].key == "spreads" && 0 <= k < |bm.markets[i].outcomes| &&
        bm.markets[i].outcomes[k] == RawOutcome(home, Some(r.value.homePrice), Some(r.value.homePoint))
  {
    match FirstIndex(bm.markets, MarketKeyed("spreads"))
    case None => None
    case Some(i) =>
      var os := bm.markets[i].outcomes;
      var hi, ai := LastIndex(os, HomeSpread(home)), LastIndex(os, AwaySpread(home, away));
      if hi.None? || ai.None? then None
      else if !IsCleanHandicap(os[hi.value].point.value) then None
      else Some(SpreadLine(os[hi.value].price.value, os[ai.value].price.value,
                           os[hi.value].point.value, os[ai.value].point.value))
  }

  /** An accepted spread line always has a clean home point. */
  lemma SpreadHomePointClean(bm: Bookmaker, home: string, away: string)
    ensures SpreadPrices(bm, home, away).Some? ==> IsCleanHandicap(SpreadPrices(bm, home, away).value.homePoint)
  {
  }

  /** Only the home point is filtered: a line whose away point is a quarter handicap is still accepted. */
  lemma SpreadAwayPointUnchecked()
    ensures var bm := Bookmaker("pinnacle", [RawMarket("spreads", [RawOutcome("A", Some(1.9), Some(-0.5)),
                                                                    RawOutcome("B", Some(1.9), Some(0.25))])]);
      && SpreadPrices(bm, "A", "B") == Some(SpreadLine(1.9, 1.9, -0.5, 0.25))
      && !IsCleanHandicap(0.25)
  {
    var os := [RawOutcome("A", Some(1.9), Some(-0.5)), RawOutcome("B", Some(1.9), Some(0.25))];
    var bm := Bookmaker("pinnacle", [RawMarket("spreads", os)]);
    assert FirstIndex(bm.markets, MarketKeyed("spreads")) == Some(0);
    assert LastIndex(os, HomeSpread("A")) == Some(0);
    assert LastIndex(os, AwaySpread("A", "B")) == Some(1);
    assert (2.0 * 0.5).Floor == 1;
    assert (2.0 * 0.25).Floor == 0;
  }

  /** The loop over one h2h market's outcomes: later priced outcomes of a team overwrite earlier ones. */
  method ScanH2hOutcomes(os: seq<RawOutcome>, home: string, away: string)
    returns (homePrice: Option<real>, awayPrice: Option<real>)
    ensures homePrice == PriceAt(os, LastIndex(os, HomeH2h(home)))
    ensures awayPrice == PriceAt(os, LastIndex(os, AwayH2h(home, away)))
  {
    homePrice, awayPrice := None, None;
    ghost var hi: Option<nat>, ai: Option<nat> := None, None;
    var k := 0;
    while k < |os|
      invariant k <= |os|
      invariant hi == LastIndex(os[..k], HomeH2h(home)) && homePrice == PriceAt(os, hi)
      invariant ai == LastIndex(os[..k], AwayH2h(home, away)) && awayPrice == PriceAt(os, ai)
    {
      var o := os[k];
      LastIndexStep(os, k, HomeH2h(home));
      LastIndexStep(os, k, AwayH2h(home, away));
      if o.price.Some? {
        if o.name == home {
          homePrice, hi := o.price, Some(k);
        } else if o.name == away {
          awayPrice, ai := o.price, Some(k);
        }
      }
      k := k + 1;
    }
    assert os[..k] == os;
  }

  /**
   * `_extract_h2h_odds`: the first market keyed "h2h" decides; its outcome
   * scan gives the two prices.
   */
  method ExtractH2hOdds(bm: Bookmaker, home: string, away: string)
    returns (homePrice: Option<real>, awayPrice: Option<real>)
    ensures (homePrice, awayPrice) == H2hPrices(bm, home, away)
  {
    var i := 0;
    while i < |bm.markets|
      invariant i <= |bm.markets|
      invariant forall j :: 0 <= j < i ==> !MarketKeyed("h2h")(bm.markets[j])
    {
      if bm.markets[i].key == "h2h" {
        assert FirstIndex(bm.markets, MarketKeyed("h2h")) == Some(i);
        homePrice, awayPrice := ScanH2hOutcomes(bm.markets[i].outcomes, home, away);
        return;
      }
      i := i + 1;
    }
    return None, None;
  }

  /** A price the h2h extraction reports for the home team is the price of a home-named outcome of an "h2h" market. */
  lemma H2hHomePriceFromMarket(bm: Bookmaker, home: string, away: string)
    ensures H2hPrices(bm, home, away).0.Some? ==>
      exists i, k :: 0 <= i < |bm.markets| && bm.markets[i].key == "h2h" && 0 <= k < |bm.markets[i].outcomes| &&
        bm.markets[i].outcomes[k].name == home && bm.markets[i].outcomes[k].price == H2hPrices(bm, home, away).0
  {
  }

  /** The loop over one spread market's outcomes: price and point are recorded together. */
  method ScanSpreadOutcomes(os: seq<RawOutcome>, home: string, away: string)
    returns (hi: Option<nat>, ai: Option<nat>)
    ensures hi == LastIndex(os, HomeSpread(home)) && ai == LastIndex(os, AwaySpread(home, away))
  {
    hi, ai := None, None;
    var k := 0;
    while k < |os|
      invariant k <= |os|
      invariant hi == LastIndex(os[..k], HomeSpread(home))
      invariant ai == LastIndex(os[..k], AwaySpread(home, away))
    {
      var o := os[k];
      LastIndexStep(os, k, HomeSpread(home));
      LastIndexStep(os, k, AwaySpread(home, away));
      if o.price.Some? && o.point.Some? {
        if o.name == home {
          hi := Some(k);
        } else if o.name == away {
          ai := Some(k);
        }
      }
      k := k + 1;
    }
    assert os[..k] == os;
  }

  /**
   * `_extract_spreads_odds`: the first "spreads" market decides; a missing
   * side or an unclean home point rejects the line.
   */
  method ExtractSpreadsOdds(bm: Bookmaker, home: string, away: string)
    returns (line: Option<SpreadLine>)
    ensures line == SpreadPrices(bm, home, away)
    ensures line.Some? ==> IsCleanHandicap(line.value.homePoint)
  {
    var i := 0;
    while i < |bm.markets|
      invariant i <= |bm.markets|
      invariant forall j :: 0 <= j < i ==> !MarketKeyed("spreads")(bm.markets[j])
    {
      if bm.markets[i].key == "spreads" {
        assert FirstIndex(bm.markets, MarketKeyed("spreads")) == Some(i);
        var os := bm.markets[i].outcomes;
        var hi, ai := ScanSpreadOutcomes(os, home, away);
        if hi.None? || ai.None? {
          return None;
        }
        var homePoint := os[hi.value].point.value;
        if !IsCleanHandicap(homePoint) {
          return None;
        }
        return Some(SpreadLine(os[hi.value].price.value, os[ai.value].price.value,
                               homePoint, os[ai.value].point.value));
      }
      i := i + 1;
    }
    return None;
  }

  // ---------------------------------------------------------------- parsing

  /** What one pass of the `_parse_games` loop does with one raw game. */
  datatype ParseStep =
    | Skip                      // `continue`: bad time, no Pinnacle, a missing price, or no favourite
    | Keep(game: Game)          // appended to the result
    | DivideByZero              // `1 / odds` with zero odds: ZeroDivisionError escapes the parser

  /** The side quotes for a game, before the division by the odds. */
  datatype Quotes = Quotes(homePrice: real, awayPrice: real, homePoint: Option<real>, awayPoint: Option<real>)

  function QuotesOf(bm: Bookmaker, raw: RawGame, isHandicap: bool): (r: Option<Quotes>)
    ensures r.Some? && isHandicap ==> r.value.homePoint.Some? && IsCleanHandicap(r.value.homePoint.value)
    ensures r.Some? && !isHandicap ==> r.value.homePoint.None? && r.value.awayPoint.None?
  {
    if isHandicap then
      match SpreadPrices(bm, raw.homeTeam, raw.awayTeam)
      case None => None
      case Some(l) => Some(Quotes(l.homePrice, l.awayPrice, Some(l.homePoint), Some(l.awayPoint)))
    else
      var (hp, ap) := H2hPrices(bm, raw.homeTeam, raw.awayTeam);
      if hp.None? || ap.None? then None else Some(Quotes(hp.value, ap.value, None, None))
  }

  /** The game `_parse_games` builds from the quotes: each side's implied probability is the inverse of its odds. */
  function BuildGame(raw: RawGame, q: Quotes, sportId: string, maxOdds: real, commence: int): (g: Game)
    requires q.homePrice != 0.0 && q.awayPrice != 0.0
    ensures g.gameId == raw.id && g.homeTeam == raw.homeTeam && g.awayTeam == raw.awayTeam
    ensures g.sportId == sportId && g.maxOdds == maxOdds && g.commenceTime == commence
    ensures g.homeOdds.name == raw.homeTeam && g.awayOdds.name == raw.awayTeam
    ensures g.homeOdds.odds == q.homePrice && g.awayOdds.odds == q.awayPrice
    ensures g.homeOdds.impliedProb == 1.0 / g.homeOdds.odds && g.awayOdds.impliedProb == 1.0 / g.awayOdds.odds
    ensures g.homeOdds.handicapPoint == q.homePoint && g.awayOdds.handicapPoint == q.awayPoint
  {
    Game(sportId, raw.id, commence, raw.homeTeam, raw.awayTeam,
         TeamOdds(raw.homeTeam, q.homePrice, 1.0 / q.homePrice, q.homePoint),
         TeamOdds(raw.awayTeam, q.awayPrice, 1.0 / q.awayPrice, q.awayPoint),
         maxOdds)
  }

  /** The body of the `_parse_games` loop for one raw game. */
  function ParseOne(raw: RawGame, sportId: string, maxOdds: real, isHandicap: bool): (r: ParseStep)
    ensures raw.commenceTime.None? ==> r == Skip
    ensures FindPinnacle(raw.bookmakers).None? ==> r == Skip
    ensures r.Keep? ==> HasFavorite(r.game)
    ensures r.Keep? ==> r.game.gameId == raw.id && r.game.homeTeam == raw.homeTeam &&
                        r.game.awayTeam == raw.awayTeam && r.game.sportId == sportId &&
                        r.game.maxOdds == maxOdds && Some(r.game.commenceTime) == raw.commenceTime
    ensures r.Keep? ==> r.game.homeOdds.odds != 0.0 && r.game.homeOdds.impliedProb == 1.0 / r.game.homeOdds.odds &&
                        r.game.awayOdds.odds != 0.0 && r.game.awayOdds.impliedProb == 1.0 / r.game.awayOdds.odds
    ensures r.Keep? ==> r.game.homeOdds.name == raw.homeTeam && r.game.awayOdds.name == raw.awayTeam
    ensures r.Keep? && isHandicap ==> r.game.homeOdds.handicapPoint.Some? &&
                                      IsCleanHandicap(r.game.homeOdds.handicapPoint.value)
    ensures r.Keep? && !isHandicap ==> r.game.homeOdds.handicapPoint.None? && r.game.awayOdds.handicapPoint.None?
  {
    if raw.commenceTime.None? then Skip
    else
      match FindPinnacle(raw.bookmakers)
      case None => Skip
      case Some(bm) =>
        match QuotesOf(bm, raw, isHandicap)
        case None => Skip
        case Some(q) =>
          if q.homePrice == 0.0 || q.awayPrice == 0.0 then DivideByZero
          else
            var g := BuildGame(raw, q, sportId, maxOdds, raw.commenceTime.value);
            if HasFavorite(g) then Keep(g) else Skip
  }

  /** What each raw game of the list yields, in order. */
  function StepsOf(raws: seq<RawGame>, sportId: string, maxOdds: real, isHandicap: bool): seq<ParseStep> {
    seq(|raws|, k requires 0 <= k < |raws| => ParseOne(raws[k], sportId, maxOdds, isHandicap))
  }

  /** The game a step appends, if any. */
  function StepGame(step: ParseStep): Option<Game> {
    if step.Keep? then Some(step.game) else None
  }

  /** The step raises out of the parser. */
  predicate StepRaises(step: ParseStep) {
    step.DivideByZero?
  }

  /**
   * What `_parse_games` returns: the kept games in input order, or `None`
   * when some raw game reaches the division with zero odds (the exception
   * leaves the function).
   */
  function ParsedGames(raws: seq<RawGame>, sportId: string, maxOdds: real, isHandicap: bool): (r: Option<seq<Game>>)
    ensures r.Some? ==> |r.value| <= |raws|
    ensures raws == [] ==> r == Some([])
  {
    var steps := StepsOf(raws, sportId, maxOdds, isHandicap);
    FilterMapLength(steps, StepGame);
    if FirstIndex(steps, StepRaises).Some? then None
    else Some(FilterMap(steps, StepGame))
  }

  /** The body of the `_parse_games` loop for one raw game, calling the extraction loops. */
  method ParseRawGame(raw: RawGame, sportId: string, maxOdds: real, isHandicap: bool)
    returns (step: ParseStep)
    ensures step == ParseOne(raw, sportId, maxOdds, isHandicap)
  {
    if raw.commenceTime.None? {
      return Skip;
    }
    var pinnacle := FindPinnacle(raw.bookmakers);
    if pinnacle.None? {
      return Skip;
    }
    var quotes: Option<Quotes>;
    if isHandicap {
      var line := ExtractSpreadsOdds(pinnacle.value, raw.homeTeam, raw.awayTeam);
      quotes := if line.None? then None
                else Some(Quotes(line.value.homePrice, line.value.awayPrice,
                                 Some(line.value.homePoint), Some(line.value.awayPoint)));
    } else {
      var hp, ap := ExtractH2hOdds(pinnacle.value, raw.homeTeam, raw.awayTeam);
      quotes := if hp.None? || ap.None? then None else Some(Quotes(hp.value, ap.value, None, None));
    }
    assert quotes == QuotesOf(pinnacle.value, raw, isHandicap);
    if quotes.None? {
      return Skip;
    }
    var q := quotes.value;
    if q.homePrice == 0.0 || q.awayPrice == 0.0 {
      return DivideByZero;
    }
    var game := BuildGame(raw, q, sportId, maxOdds, raw.commenceTime.value);
    if Favorite(game).None? {
      return Skip;
    }
    return Keep(game);
  }

  /** `_parse_games`: the loop over raw games appending each one that yields a game with a favourite. */
  method ParseGames(raws: seq<RawGame>, sportId: string, maxOdds: real, isHandicap: bool)
    returns (result: Option<seq<Game>>)
    ensures result == ParsedGames(raws, sportId, maxOdds, isHandicap)
  {
    ghost var steps := StepsOf(raws, sportId, maxOdds, isHandicap);
    var games: seq<Game> := [];
    var i := 0;
    while i < |raws|
      invariant i <= |raws|
      invariant FirstIndex(steps[..i], StepRaises).None?
      invariant games == FilterMap(steps[..i], StepGame)
    {
      FilterMapStep(steps, i, StepGame);
      FirstIndexStep(steps, i, StepRaises);
      var step := ParseRawGame(raws[i], sportId, maxOdds, isHandicap);
      assert step == steps[i];
      if step.DivideByZero? {
        assert FirstIndex(steps, StepRaises).Some?;
        return None;
      }
      if step.Keep? {
        games := games + [step.game];
      }
      i := i + 1;
    }
    assert steps[..i] == steps;
    return Some(games);
  }

  /**
   * The parser's output is an order-preserving subsequence of the input: the
   * j-th game comes from the raw game at the j-th of a strictly increasing
   * list of positions, carries that raw game's id and teams, has a
   * favourite, and no raw game that yields a game is left out.
   */
  lemma ParsedGamesSubsequence(raws: seq<RawGame>, sportId: string, maxOdds: real, isHandicap: bool)
    ensures var r := ParsedGames(raws, sportId, maxOdds, isHandicap);
      r.Some? ==>
        && |r.value| <= |raws|
        && (forall g :: g in r.value ==> HasFavorite(g) && g.sportId == sportId)
        && var idx := KeptIndices(StepsOf(raws, sportId, maxOdds, isHandicap), StepGame);
           && |idx| == |r.value|
           && (forall j :: 0 <= j < |idx| ==>
                 && idx[j] < |raws|
                 && ParseOne(raws[idx[j]], sportId, maxOdds, isHandicap) == Keep(r.value[j])
                 && r.value[j].gameId == raws[idx[j]].id)
           && (forall j, k :: 0 <= j < k < |idx| ==> idx[j] < idx[k])
           && (forall i :: 0 <= i < |raws| && ParseOne(raws[i], sportId, maxOdds, isHandicap).Keep? ==> i in idx)
  {
    var steps := StepsOf(raws, sportId, maxOdds, isHandicap);
    FilterMapIndices(steps, StepGame);
    FilterMapLength(steps, StepGame);
    var r := ParsedGames(raws, sportId, maxOdds, isHandicap);
    if r.Some? {
      forall g | g in r.value ensures HasFavorite(g) && g.sportId == sportId {
        FilterMapMembership(steps, StepGame, g);
      }
    }
  }

  /** Zero odds on a game that reaches the division abort the whole parse. */
  lemma ZeroOddsAbortsParse(raws: seq<RawGame>, i: nat, sportId: string, maxOdds: real, isHandicap: bool)
    requires i < |raws| && ParseOne(raws[i], sportId, maxOdds, isHandicap).DivideByZero?
    ensures ParsedGames(raws, sportId, maxOdds, isHandicap).None?
  {
    assert StepRaises(StepsOf(raws, sportId, maxOdds, isHandicap)[i]);
  }
}

=== FILE: polling.dfy ===
/**
 * The polling period (`get_poll_interval` of main.py): how long to wait
 * before the next pass, chosen from a tier table by how soon the earliest
 * matched game starts.
 *
 * The tier table and the default period are parameters; `DocumentedTiers`
 * holds the periods the module's doc-comment gives.
 */
module Polling {
  import opened Wrappers
  import opened Seqs
  import opened Odds
  import opened Matcher
  import opened Scanner

  /** A row of the table: while the soonest game is `[hrsMin, hrsMax)` hours away, wait `interval` seconds. */
  datatype PollTier = PollTier(hrsMin: real, hrsMax: real, interval: int)

  /** 24 to 6 hours before the start: four hours; 6 to 2: two hours; 2 to 1: thirty minutes. */
  const DocumentedTiers: seq<PollTier> := [PollTier(6.0, 24.0, 14400), PollTier(2.0, 6.0, 7200), PollTier(1.0, 2.0, 1800)]

  /** The smallest of a non-empty list. */
  function MinOf(xs: seq<real>): (m: real)
    requires xs != []
    ensures m in xs
    ensures forall i :: 0 <= i < |xs| ==> m <= xs[i]
    decreases |xs|
  {
    if |xs| == 1 then xs[0]
    else
      var rest := MinOf(xs[1..]);
      assert forall i :: 1 <= i < |xs| ==> xs[1..][i - 1] == xs[i];
      if xs[0] <= rest then xs[0] else rest
  }

  /** The hours until each game starts, at time `now`. */
  function HoursList(matched: seq<MatchedGame>, now: int): (r: seq<real>)
    ensures |r| == |matched|
    ensures forall i :: 0 <= i < |matched| ==> r[i] == HoursUntilStart(matched[i].pinnacle, now)
  {
    seq(|matched|, i requires 0 <= i < |matched| => HoursUntilStart(matched[i].pinnacle, now))
  }

  function Contains(h: real): PollTier -> bool {
    (t: PollTier) => t.hrsMin <= h < t.hrsMax
  }

  /** The interval of the first tier whose range holds `h`; the default when none does. */
  function TierInterval(tiers: seq<PollTier>, h: real, defaultInterval: int): (r: int)
    ensures (forall i :: 0 <= i < |tiers| ==> !Contains(h)(tiers[i])) ==> r == defaultInterval
    ensures forall i :: (0 <= i < |tiers| && Contains(h)(tiers[i]) &&
                         (forall j :: 0 <= j < i ==> !Contains(h)(tiers[j]))) ==> r == tiers[i].interval
    ensures r == defaultInterval || exists i :: 0 <= i < |tiers| && r == tiers[i].interval
  {
    match FirstIndex(tiers, Contains(h))
    case Some(i) => tiers[i].interval
    case None => defaultInterval
  }

  /**
   * `get_poll_interval`: the default when nothing is matched; otherwise the
   * interval of the first tier holding the hours until the soonest game,
   * or the default when no tier holds them.
   */
  function GetPollInterval(matched: seq<MatchedGame>, now: int, tiers: seq<PollTier>, defaultInterval: int): (r: int)
    ensures matched == [] ==> r == defaultInterval
    ensures matched != [] ==> r == TierInterval(tiers, MinOf(HoursList(matched, now)), defaultInterval)
    ensures r == defaultInterval || exists i :: 0 <= i < |tiers| && r == tiers[i].interval
  {
    if matched == [] then defaultInterval
    else TierInterval(tiers, MinOf(HoursList(matched, now)), defaultInterval)
  }

  /**
   * Only the soonest game decides: adding a game that starts no earlier
   * than one already matched leaves the interval as it was.
   */
  lemma LaterGameIrrelevant(matched: seq<MatchedGame>, g: MatchedGame, now: int, tiers: seq<PollTier>, defaultInterval: int)
    requires matched != []
    requires exists i :: 0 <= i < |matched| && HoursUntilStart(matched[i].pinnacle, now) <= HoursUntilStart(g.pinnacle, now)
    ensures GetPollInterval(matched + [g], now, tiers, defaultInterval) == GetPollInterval(matched, now, tiers, defaultInterval)
  {
    var xs, ys := HoursList(matched, now), HoursList(matched + [g], now);
    assert ys == xs + [HoursUntilStart(g.pinnacle, now)];
    MinOfNoSmallerAppended(xs, HoursUntilStart(g.pinnacle, now));
  }

  /** Appending a value no smaller than some element keeps the minimum. */
  lemma MinOfNoSmallerAppended(xs: seq<real>, x: real)
    requires exists i :: 0 <= i < |xs| && xs[i] <= x
    ensures MinOf(xs + [x]) == MinOf(xs)
  {
    var ys := xs + [x];
    var m, n := MinOf(xs), MinOf(ys);
    assert forall i :: 0 <= i < |xs| ==> ys[i] == xs[i];
    assert m <= x;
    assert n <= m by {
      var k :| 0 <= k < |xs| && xs[k] == m;
      assert ys[k] == m;
    }
    assert m <= n by {
      var k :| 0 <= k < |ys| && ys[k] == n;
      if k < |xs| {
        assert xs[k] == n;
      }
    }
  }

  /** The documented periods: four hours from 24 to 6 hours out, two hours from 6 to 2, thirty minutes from 2 to 1, else the default. */
  lemma DocumentedIntervals(h: real, defaultInterval: int)
    ensures var r := TierInterval(DocumentedTiers, h, defaultInterval);
      && (6.0 <= h < 24.0 ==> r == 14400)
      && (2.0 <= h < 6.0 ==> r == 7200)
      && (1.0 <= h < 2.0 ==> r == 1800)
      && (h < 1.0 || h >= 24.0 ==> r == defaultInterval)
  {
    var t := DocumentedTiers;
    assert Contains(h)(t[0]) <==> 6.0 <= h < 24.0;
    assert Contains(h)(t[1]) <==> 2.0 <= h < 6.0;
    assert Contains(h)(t[2]) <==> 1.0 <= h < 2.0;
  }

  /** Within the documented window, the closer the soonest game, the shorter the wait. */
  lemma DocumentedIntervalsShrink(h1: real, h2: real, defaultInterval: int)
    requires 1.0 <= h1 <= h2 < 24.0
    ensures TierInterval(DocumentedTiers, h1, defaultInterval) <= TierInterval(DocumentedTiers, h2, defaultInterval)
  {
    DocumentedIntervals(h1, defaultInterval);
    DocumentedIntervals(h2, defaultInterval);
  }
}

=== FILE: scanner.dfy ===
/**
 * The gap scanner (core/scanner.py): for each matched game, an ordered chain
 * of gates (entry time window, order book, best ask, price ceiling, gap
 * floor, liquidity floor) and, when every gate passes, an opportunity whose
 * stake comes from the gap tier table.
 *
 * The clock is the parameter `now` (seconds), and the order books the venue
 * returned are a map from token id to ask levels: a token missing from the
 * map is a fetch that failed.
 */
module Scanner {
  import opened Wrappers
  import opened Seqs
  import opened Odds
  import opened Matcher

  // ---------------------------------------------------------------- parameters

  /** One row of the stake table: gaps in `[gMin, gMax)` bet `amount` USDC. */
  datatype Tier = Tier(gMin: real, gMax: real, amount: real)

  /** The constants the scanner reads from the configuration. */
  datatype ScanConfig = ScanConfig(
    maxPolyPrice: real,
    gapThreshold: real,
    minLiquidity: real,
    windowHrs: real,
    deadlineHrs: real,
    tiers: seq<Tier>,
    maxBet: real)

  /** The values of config.py. */
  const Configured: ScanConfig := ScanConfig(
    0.50, 0.15, 30.0, 24.0, 1.0,
    [Tier(0.15, 0.20, 10.0), Tier(0.20, 0.30, 20.0), Tier(0.30, 1.00, 30.0)],
    30.0)

  // ---------------------------------------------------------------- order book

  /** One ask level of the book; `price` or `size` may be missing. */
  datatype Level = Level(price: Option<real>, size: Option<real>)

  /** A level's size, a missing size counting as zero. */
  function SizeOf(l: Level): real {
    l.size.GetOr(0.0)
  }

  /** The sum of the sizes of the levels, missing sizes counting as zero. */
  function SumSizes(levels: seq<Level>): (r: real)
    ensures (forall k :: 0 <= k < |levels| ==> SizeOf(levels[k]) >= 0.0) ==> r >= 0.0
    decreases |levels|
  {
    if levels == [] then 0.0 else SumSizes(levels[..|levels| - 1]) + SizeOf(levels[|levels| - 1])
  }

  /** The last (at most) `n` levels, Python's `asks[-n:]`. */
  function LastLevels(asks: seq<Level>, n: nat): (r: seq<Level>)
    ensures |r| == if |asks| < n then |asks| else n
    ensures r == asks[|asks| - |r|..]
  {
    if |asks| < n then asks else asks[|asks| - n..]
  }

  /**
   * `_best_ask_and_shares`: the asks are listed from dearest to cheapest, so
   * the best ask is the last level; the liquidity is the size of the last
   * three levels.
   */
  function BestAskAndShares(asks: seq<Level>): (r: (Option<real>, real))
    ensures asks == [] ==> r == (None, 0.0)
    ensures asks != [] ==> r.0 == asks[|asks| - 1].price
    ensures r.0.None? ==> r.1 == 0.0
    ensures r.0.Some? ==> r.1 == SumSizes(LastLevels(asks, 3))
  {
    if asks == [] then (None, 0.0)
    else
      var best := asks[|asks| - 1];
      if best.price.None? then (None, 0.0)
      else (best.price, SumSizes(LastLevels(asks, 3)))
  }

  lemma SumSizesUpToThree(l: seq<Level>)
    requires 1 <= |l| <= 3
    ensures |l| == 1 ==> SumSizes(l) == SizeOf(l[0])
    ensures |l| == 2 ==> SumSizes(l) == SizeOf(l[0]) + SizeOf(l[1])
    ensures |l| == 3 ==> SumSizes(l) == SizeOf(l[0]) + SizeOf(l[1]) + SizeOf(l[2])
  {
    var p1 := l[..1];
    assert SumSizes(p1) == SizeOf(l[0]) by {
      assert p1[..0] == [];
    }
    if |l| >= 2 {
      var p2 := l[..2];
      assert p2[..1] == p1;
      assert SumSizes(p2) == SizeOf(l[0]) + SizeOf(l[1]);
      if |l| == 3 {
        assert l[..2] == p2;
      } else {
        assert l == p2;
      }
    } else {
      assert l == p1;
    }
  }

  /** The liquidity written out: the sizes of the last one, two or three levels, missing ones as zero. */
  lemma SharesOfLastThree(asks: seq<Level>)
    requires asks != [] && asks[|asks| - 1].price.Some?
    ensures var n, sh := |asks|, BestAskAndShares(asks).1;
      && (n == 1 ==> sh == SizeOf(asks[0]))
      && (n == 2 ==> sh == SizeOf(asks[0]) + SizeOf(asks[1]))
      && (n >= 3 ==> sh == SizeOf(asks[n - 3]) + SizeOf(asks[n - 2]) + SizeOf(asks[n - 1]))
  {
    var n := |asks|;
    var last := LastLevels(asks, 3);
    SumSizesUpToThree(last);
    if n >= 3 {
      assert last[0] == asks[n - 3] && last[1] == asks[n - 2] && last[2] == asks[n - 1];
    } else {
      assert last == asks;
    }
  }

  /** Levels further from the best ask than the third do not count. */
  lemma SharesIgnoreDeepLevels(deep: seq<Level>, asks: seq<Level>)
    requires |asks| >= 3
    ensures BestAskAndShares(deep + asks) == BestAskAndShares(asks)
  {
    var s := deep + asks;
    assert s[|s| - 1] == asks[|asks| - 1];
    assert LastLevels(s, 3) == LastLevels(asks, 3);
  }

  // ---------------------------------------------------------------- stake

  predicate InTier(t: Tier, gap: real) {
    t.gMin <= gap < t.gMax
  }

  /**
   * `_calc_bet`: the amount of the first tier whose range holds the gap;
   * the maximum stake when no tier does.
   */
  function CalcBet(gap: real, tiers: seq<Tier>, maxBet: real): (r: real)
    ensures r == maxBet || exists i :: 0 <= i < |tiers| && r == tiers[i].amount
    decreases |tiers|
  {
    if tiers == [] then maxBet
    else if InTier(tiers[0], gap) then tiers[0].amount
    else
      var r := CalcBet(gap, tiers[1..], maxBet);
      assert forall i :: 1 <= i < |tiers| ==> tiers[1..][i - 1] == tiers[i];
      r
  }

  /** The stake is that of the first tier holding the gap, and the maximum stake when none does. */
  lemma {:induction false} CalcBetFirstTier(gap: real, tiers: seq<Tier>, maxBet: real)
    ensures forall i :: (0 <= i < |tiers| && InTier(tiers[i], gap) &&
                         (forall j :: 0 <= j < i ==> !InTier(tiers[j], gap))) ==> CalcBet(gap, tiers, maxBet) == tiers[i].amount
    ensures (forall i :: 0 <= i < |tiers| ==> !InTier(tiers[i], gap)) ==> CalcBet(gap, tiers, maxBet) == maxBet
    decreases |tiers|
  {
    if tiers != [] && !InTier(tiers[0], gap) {
      CalcBetFirstTier(gap, tiers[1..], maxBet);
      assert forall i :: 1 <= i < |tiers| ==> tiers[1..][i - 1] == tiers[i];
    }
  }

  /**
   * The stakes of the configured table: 10 for gaps in [0.15, 0.20), 20 in
   * [0.20, 0.30), 30 from 0.30 on (the last tier up to 1.0, the maximum
   * stake above it) and the maximum stake of 30 below 0.15 as well.
   */
  lemma ConfiguredStakes(gap: real)
    ensures var bet := CalcBet(gap, Configured.tiers, Configured.maxBet);
      && (0.15 <= gap < 0.20 ==> bet == 10.0)
      && (0.20 <= gap < 0.30 ==> bet == 20.0)
      && (0.30 <= gap ==> bet == 30.0)
      && (gap < 0.15 ==> bet == 30.0)
  {
    var t := Configured.tiers;
    CalcBetFirstTier(gap, t, Configured.maxBet);
    assert InTier(t[0], gap) <==> 0.15 <= gap < 0.20;
    assert InTier(t[1], gap) <==> 0.20 <= gap < 0.30;
    assert InTier(t[2], gap) <==> 0.30 <= gap < 1.00;
  }

  /** A gap of 0.269 falls in the second tier and bets 20. */
  lemma GapExampleStake()
    ensures CalcBet(0.269, Configured.tiers, Configured.maxBet) == 20.0
  {
    ConfiguredStakes(0.269);
  }

  /** From the gap floor on, a larger gap never bets less. */
  lemma ConfiguredStakeMonotone(g1: real, g2: real)
    requires Configured.gapThreshold <= g1 <= g2
    ensures CalcBet(g1, Configured.tiers, Configured.maxBet) <= CalcBet(g2, Configured.tiers, Configured.maxBet)
  {
    ConfiguredStakes(g1);
    ConfiguredStakes(g2);
  }

  // ---------------------------------------------------------------- the gates

  /** `ArbitrageOpportunity` without its detection timestamp. */
  datatype Opportunity = Opportunity(
    matched: MatchedGame,
    polyPrice: real,
    pinnacleProb: real,
    gapSize: real,
    liquidityShares: real,
    betUsdc: real)

  /** The token the opportunity buys. */
  function OppTokenId(o: Opportunity): string {
    BuyTokenId(o.matched)
  }

  /** The gates of `_check`, in the order they are tried. */
  datatype Gate = BeforeWindow | PastDeadline | NoBook | NoAsk | PriceTooHigh | GapTooSmall | ThinLiquidity

  function Rank(w: Gate): nat {
    match w
    case BeforeWindow => 0
    case PastDeadline => 1
    case NoBook => 2
    case NoAsk => 3
    case PriceTooHigh => 4
    case GapTooSmall => 5
    case ThinLiquidity => 6
  }

  /**
   * `hours_until_start` at the time `now`: the seconds to the start over 3600,
   * so at least one hour and at most a day ahead read as the seconds do.
   */
  function HoursUntilStart(g: Game, now: int): (r: real)
    ensures r * 3600.0 == (g.commenceTime - now) as real
    ensures r > 0.0 <==> now < g.commenceTime
    ensures r >= 1.0 <==> g.commenceTime - now >= 3600
    ensures r <= 24.0 <==> g.commenceTime - now <= 86400
  {
    (g.commenceTime - now) as real / 3600.0
  }

  datatype Verdict = Rejected(gate: Gate) | Accepted(opp: Opportunity)

  /** The best ask of the fetched book; nothing when the fetch failed. */
  function AskOf(book: Option<seq<Level>>): Option<real> {
    if book.Some? then BestAskAndShares(book.value).0 else None
  }

  /** The liquidity next to the best ask of the fetched book. */
  function SharesOf(book: Option<seq<Level>>): real {
    if book.Some? then BestAskAndShares(book.value).1 else 0.0
  }

  /**
   * `_check`: tries the gates in order and stops at the first that fails;
   * `book` is the ask side of the order book of the token to buy, `None`
   * when fetching it failed.
   */
  function Evaluate(m: MatchedGame, now: int, book: Option<seq<Level>>, cfg: ScanConfig): (r: Verdict)
    requires HasFavorite(m.pinnacle)
    ensures r.Accepted? ==> r.opp.matched == m
  {
    var hrs := HoursUntilStart(m.pinnacle, now);
    if hrs > cfg.windowHrs then Rejected(BeforeWindow)
    else if hrs < cfg.deadlineHrs then Rejected(PastDeadline)
    else if book.None? then Rejected(NoBook)
    else if AskOf(book).None? then Rejected(NoAsk)
    else
      var bestAsk, prob := AskOf(book).value, FavoriteProb(m.pinnacle);
      if bestAsk >= cfg.maxPolyPrice then Rejected(PriceTooHigh)
      else
        var gap := prob - bestAsk;
        if gap < cfg.gapThreshold then Rejected(GapTooSmall)
        else if SharesOf(book) < cfg.minLiquidity then Rejected(ThinLiquidity)
        else Accepted(Opportunity(m, bestAsk, prob, gap, SharesOf(book), CalcBet(gap, cfg.tiers, cfg.maxBet)))
  }

  /**
   * Whether one gate lets the game through, stated on its own: a gate that
   * needs the book or the ask holds vacuously when they are missing (an
   * earlier gate has then already failed).
   */
  predicate GatePasses(w: Gate, m: MatchedGame, now: int, book: Option<seq<Level>>, cfg: ScanConfig)
    requires HasFavorite(m.pinnacle)
  {
    var hrs, ask := HoursUntilStart(m.pinnacle, now), AskOf(book);
    match w
    case BeforeWindow => hrs <= cfg.windowHrs
    case PastDeadline => hrs >= cfg.deadlineHrs
    case NoBook => book.Some?
    case NoAsk => book.None? || ask.Some?
    case PriceTooHigh => ask.None? || ask.value < cfg.maxPolyPrice
    case GapTooSmall => ask.None? || FavoriteProb(m.pinnacle) - ask.value >= cfg.gapThreshold
    case ThinLiquidity => ask.None? || SharesOf(book) >= cfg.minLiquidity
  }

  /** A rejection names a gate that fails after all earlier ones passed; an acceptance passed them all. */
  lemma EvaluateSound(m: MatchedGame, now: int, book: Option<seq<Level>>, cfg: ScanConfig)
    requires HasFavorite(m.pinnacle)
    ensures var r := Evaluate(m, now, book, cfg);
      && (r.Rejected? ==> !GatePasses(r.gate, m, now, book, cfg))
      && (forall v :: (r.Accepted? || Rank(v) < Rank(r.gate)) ==> GatePasses(v, m, now, book, cfg))
  {
    RejectedGateFails(m, now, book, cfg);
    forall v | Evaluate(m, now, book, cfg).Accepted? || Rank(v) < Rank(Evaluate(m, now, book, cfg).gate)
      ensures GatePasses(v, m, now, book, cfg)
    {
      EarlierGatePasses(m, now, book, cfg, v);
    }
  }

  /** The game has a favourite and no gate stops it. */
  predicate PassesEveryGate(m: MatchedGame, now: int, book: Option<seq<Level>>, cfg: ScanConfig) {
    HasFavorite(m.pinnacle) && forall v :: GatePasses(v, m, now, book, cfg)
  }

  /**
   * The rejection names exactly the first failing gate in the order they
   * are tried, and a game is accepted exactly when every gate passes.
   */
  lemma EvaluateFirstFailingGate(m: MatchedGame, now: int, book: Option<seq<Level>>, cfg: ScanConfig)
    requires HasFavorite(m.pinnacle)
    ensures var r := Evaluate(m, now, book, cfg);
      r.Rejected? ==>
        && !GatePasses(r.gate, m, now, book, cfg)
        && forall v :: Rank(v) < Rank(r.gate) ==> GatePasses(v, m, now, book, cfg)
    ensures Evaluate(m, now, book, cfg).Accepted? <==> forall v :: GatePasses(v, m, now, book, cfg)
  {
    EvaluateSound(m, now, book, cfg);
  }

  /** The gate a rejection names fails. */
  lemma RejectedGateFails(m: MatchedGame, now: int, book: Option<seq<Level>>, cfg: ScanConfig)
    requires HasFavorite(m.pinnacle)
    ensures var r := Evaluate(m, now, book, cfg);
      r.Rejected? ==> !GatePasses(r.gate, m, now, book, cfg)
  {
    var hrs := HoursUntilStart(m.pinnacle, now);
    if hrs > cfg.windowHrs || hrs < cfg.deadlineHrs || book.None? || AskOf(book).None? {
    } else {
      var ask, prob := AskOf(book).value, FavoriteProb(m.pinnacle);
      if ask >= cfg.maxPolyPrice {
        assert Evaluate(m, now, book, cfg) == Rejected(PriceTooHigh);
      } else if prob - ask < cfg.gapThreshold {
        assert Evaluate(m, now, book, cfg) == Rejected(GapTooSmall);
      } else if SharesOf(book) < cfg.minLiquidity {
        assert Evaluate(m, now, book, cfg) == Rejected(ThinLiquidity);
      }
    }
  }

  /** Every gate before the one a rejection names, and every gate of an acceptance, passes. */
  lemma EarlierGatePasses(m: MatchedGame, now: int, book: Option<seq<Level>>, cfg: ScanConfig, v: Gate)
    requires HasFavorite(m.pinnacle)
    ensures var r := Evaluate(m, now, book, cfg);
      r.Accepted? || Rank(v) < Rank(r.gate) ==> GatePasses(v, m, now, book, cfg)
  {
    var hrs := HoursUntilStart(m.pinnacle, now);
    if hrs > cfg.windowHrs {
      assert Evaluate(m, now, book, cfg) == Rejected(BeforeWindow);
    } else if hrs < cfg.deadlineHrs {
      assert Evaluate(m, now, book, cfg) == Rejected(PastDeadline);
    } else if book.None? {
      assert Evaluate(m, now, book, cfg) == Rejected(NoBook);
    } else if AskOf(book).None? {
      assert Evaluate(m, now, book, cfg) == Rejected(NoAsk);
    } else {
      var ask, prob := AskOf(book).value, FavoriteProb(m.pinnacle);
      if ask >= cfg.maxPolyPrice {
        assert Evaluate(m, now, book, cfg) == Rejected(PriceTooHigh);
      } else if prob - ask < cfg.gapThreshold {
        assert Evaluate(m, now, book, cfg) == Rejected(GapTooSmall);
      } else if SharesOf(book) < cfg.minLiquidity {
        assert Evaluate(m, now, book, cfg) == Rejected(ThinLiquidity);
      } else {
        assert Evaluate(m, now, book, cfg).Accepted?;
      }
    }
  }

  /**
   * What an accepted opportunity satisfies, stated without the gate order:
   * the game is inside the window, the book was fetched and its best ask is
   * the price, below the ceiling and at least the gap floor under the
   * favourite's probability, with enough liquidity, and the stake is that of
   * the gap's tier.
   */
  predicate Qualifies(o: Opportunity, now: int, book: Option<seq<Level>>, cfg: ScanConfig) {
    var g := o.matched.pinnacle;
    var hrs := HoursUntilStart(g, now);
    && HasFavorite(g)
    && cfg.deadlineHrs <= hrs <= cfg.windowHrs
    && book.Some?
    && AskOf(book) == Some(o.polyPrice)
    && o.liquidityShares == SharesOf(book)
    && o.polyPrice < cfg.maxPolyPrice
    && o.pinnacleProb == FavoriteProb(g)
    && o.gapSize == o.pinnacleProb - o.polyPrice
    && o.gapSize >= cfg.gapThreshold
    && o.liquidityShares >= cfg.minLiquidity
    && o.betUsdc == CalcBet(o.gapSize, cfg.tiers, cfg.maxBet)
  }

  lemma AcceptedQualifies(m: MatchedGame, now: int, book: Option<seq<Level>>, cfg: ScanConfig)
    requires HasFavorite(m.pinnacle)
    ensures var r := Evaluate(m, now, book, cfg);
      r.Accepted? ==> r.opp.matched == m && Qualifies(r.opp, now, book, cfg)
  {
    var r := Evaluate(m, now, book, cfg);
    if r.Accepted? {
      var hrs := HoursUntilStart(m.pinnacle, now);
      assert cfg.deadlineHrs <= hrs <= cfg.windowHrs && book.Some? && AskOf(book).Some?;
      var ask, prob := AskOf(book).value, FavoriteProb(m.pinnacle);
      assert ask < cfg.maxPolyPrice && prob - ask >= cfg.gapThreshold && SharesOf(book) >= cfg.minLiquidity;
      assert r.opp == Opportunity(m, ask, prob, prob - ask, SharesOf(book), CalcBet(prob - ask, cfg.tiers, cfg.maxBet));
    }
  }

  /** Outside the entry window the game is rejected whatever the book holds: the book is never consulted. */
  lemma TimeGateIgnoresBook(m: MatchedGame, now: int, b1: Option<seq<Level>>, b2: Option<seq<Level>>, cfg: ScanConfig)
    requires HasFavorite(m.pinnacle)
    requires !(cfg.deadlineHrs <= HoursUntilStart(m.pinnacle, now) <= cfg.windowHrs)
    ensures Evaluate(m, now, b1, cfg) == Evaluate(m, now, b2, cfg)
    ensures Evaluate(m, now, b1, cfg).Rejected?
  {
  }

  // ---------------------------------------------------------------- scan

  /** The ask levels fetched for a token; `None` when the fetch failed. */
  function BookFor(books: map<string, seq<Level>>, token: string): Option<seq<Level>> {
    if token in books then Some(books[token]) else None
  }

  /** `_check` on one matched game, with the book of the token it would buy. */
  function CheckOf(now: int, books: map<string, seq<Level>>, cfg: ScanConfig): (r: MatchedGame -> Option<Opportunity>)
    ensures forall m :: r(m).Some? ==> HasFavorite(m.pinnacle) && r(m).value.matched == m
  {
    (m: MatchedGame) =>
      if !HasFavorite(m.pinnacle) then None
      else match Evaluate(m, now, BookFor(books, BuyTokenId(m)), cfg)
        case Accepted(o) => Some(o)
        case Rejected(_) => None
  }

  /** The opportunities `scan` collects: at most one per game, each for one of the games. */
  function Scanned(matched: seq<MatchedGame>, now: int, books: map<string, seq<Level>>, cfg: ScanConfig): (r: seq<Opportunity>)
    ensures |r| <= |matched|
    ensures forall o :: o in r ==> o.matched in matched
  {
    var f := CheckOf(now, books, cfg);
    FilterMapLength(matched, f);
    var r := FilterMap(matched, f);
    forall o | o in r
      ensures o.matched in matched
    {
      FilterMapMembership(matched, f, o);
    }
    r
  }

  /** `scan`: checks the matched games in order and collects the opportunities. */
  method Scan(matched: seq<MatchedGame>, now: int, books: map<string, seq<Level>>, cfg: ScanConfig)
    returns (opportunities: seq<Opportunity>)
    requires forall i :: 0 <= i < |matched| ==> HasFavorite(matched[i].pinnacle)
    ensures opportunities == Scanned(matched, now, books, cfg)
  {
    opportunities := [];
    var i := 0;
    while i < |matched|
      invariant i <= |matched|
      invariant opportunities == FilterMap(matched[..i], CheckOf(now, books, cfg))
    {
      var m := matched[i];
      FilterMapStep(matched, i, CheckOf(now, books, cfg));
      var verdict := Evaluate(m, now, BookFor(books, BuyTokenId(m)), cfg);
      if verdict.Accepted? {
        opportunities := opportunities + [verdict.opp];
      }
      i := i + 1;
    }
    assert matched[..i] == matched;
  }

  /**
   * The opportunities keep the games' order, at most one per game; each is
   * for the game at its kept position and passes every gate against the
   * book of the token that game buys; and every game with a favourite that
   * passes every gate against that book is kept.
   */
  lemma {:induction false} ScannedProperties(matched: seq<MatchedGame>, now: int, books: map<string, seq<Level>>, cfg: ScanConfig)
    ensures var r, idx := Scanned(matched, now, books, cfg), KeptIndices(matched, CheckOf(now, books, cfg));
      && |r| <= |matched|
      && |idx| == |r|
      && (forall j, k :: 0 <= j < k < |idx| ==> idx[j] < idx[k])
      && (forall j :: 0 <= j < |r| ==>
            && idx[j] < |matched|
            && r[j].matched == matched[idx[j]]
            && Qualifies(r[j], now, BookFor(books, BuyTokenId(matched[idx[j]])), cfg))
      && (forall i :: 0 <= i < |matched| && PassesEveryGate(matched[i], now, BookFor(books, BuyTokenId(matched[i])), cfg) ==> i in idx)
  {
    var f := CheckOf(now, books, cfg);
    FilterMapIndices(matched, f);
    FilterMapLength(matched, f);
    var r, idx := Scanned(matched, now, books, cfg), KeptIndices(matched, f);
    forall i | 0 <= i < |matched| && PassesEveryGate(matched[i], now, BookFor(books, BuyTokenId(matched[i])), cfg)
      ensures i in idx
    {
      EvaluateFirstFailingGate(matched[i], now, BookFor(books, BuyTokenId(matched[i])), cfg);
      assert f(matched[i]).Some?;
    }
    forall j | 0 <= j < |r|
      ensures r[j].matched == matched[idx[j]]
      ensures Qualifies(r[j], now, BookFor(books, BuyTokenId(matched[idx[j]])), cfg)
    {
      var m := matched[idx[j]];
      assert f(m) == Some(r[j]);
      AcceptedQualifies(m, now, BookFor(books, BuyTokenId(m)), cfg);
    }
  }
}

=== FILE: seqs.dfy ===
/**
 * The "loop that appends to a result list" shape shared by `_parse_games`,
 * `match_games`, `_find_market` and `scan`: keep, in order, what a per-item
 * step produces for each item, dropping the items for which it produces nothing.
 */
module Seqs {
  import opened Wrappers

  /** The list holding the value of `o`, or no value. */
  function Emit<B>(o: Option<B>): (r: seq<B>)
    ensures |r| <= 1 && (r == [] <==> o.None?)
    ensures o.Some? ==> r == [o.value]
  {
    if o.Some? then [o.value] else []
  }

  /** What a left-to-right loop `for x in s: y = f(x); if y is not None: out.append(y)` builds. */
  function FilterMap<A, B>(s: seq<A>, f: A -> Option<B>): seq<B>
    decreases |s|
  {
    if s == [] then [] else FilterMap(s[..|s| - 1], f) + Emit(f(s[|s| - 1]))
  }

  /** The positions of `s` whose item produced something, in increasing order. */
  function KeptIndices<A, B>(s: seq<A>, f: A -> Option<B>): seq<nat>
    decreases |s|
  {
    if s == [] then []
    else KeptIndices(s[..|s| - 1], f) + (if f(s[|s| - 1]).Some? then [|s| - 1] else [])
  }

  /** One more loop iteration appends exactly what the step produces for the next item. */
  lemma FilterMapStep<A, B>(s: seq<A>, k: nat, f: A -> Option<B>)
    requires k < |s|
    ensures FilterMap(s[..k + 1], f) == FilterMap(s[..k], f) + Emit(f(s[k]))
  {
    assert s[..k + 1][..k] == s[..k];
  }

  /** The output is never longer than the input. */
  lemma {:induction false} FilterMapLength<A, B>(s: seq<A>, f: A -> Option<B>)
    ensures |FilterMap(s, f)| <= |s|
    decreases |s|
  {
    if s != [] {
      FilterMapLength(s[..|s| - 1], f);
    }
  }

  /**
   * The output is an order-preserving subsequence of the per-item results:
   * its j-th entry is what the item at the j-th kept position produced, the
   * kept positions strictly increase, and every item that produced something
   * is kept.
   */
  lemma {:induction false} FilterMapIndices<A, B>(s: seq<A>, f: A -> Option<B>)
    ensures var r, idx := FilterMap(s, f), KeptIndices(s, f);
      && |idx| == |r|
      && (forall j :: 0 <= j < |idx| ==> idx[j] < |s| && f(s[idx[j]]) == Some(r[j]))
      && (forall j, k :: 0 <= j < k < |idx| ==> idx[j] < idx[k])
      && (forall i :: 0 <= i < |s| && f(s[i]).Some? ==> i in idx)
    decreases |s|
  {
    if s != [] {
      var init := s[..|s| - 1];
      FilterMapIndices(init, f);
      assert forall i :: 0 <= i < |init| ==> init[i] == s[i];
    }
  }

  /** An item is represented in the output exactly when the step produces something for it. */
  lemma FilterMapMembership<A, B>(s: seq<A>, f: A -> Option<B>, y: B)
    ensures y in FilterMap(s, f) <==> exists i :: 0 <= i < |s| && f(s[i]) == Some(y)
  {
    FilterMapIndices(s, f);
    var r, idx := FilterMap(s, f), KeptIndices(s, f);
    if y in r {
      var j :| 0 <= j < |r| && r[j] == y;
      assert f(s[idx[j]]) == Some(y);
    }
    if i :| 0 <= i < |s| && f(s[i]) == Some(y) {
      var j :| 0 <= j < |idx| && idx[j] == i;
      assert r[j] == y;
    }
  }

  /** When the step hands every item back unchanged, the output is the input. */
  lemma {:induction false} AllKept<A>(s: seq<A>, f: A -> Option<A>)
    requires forall k :: 0 <= k < |s| ==> f(s[k]) == Some(s[k])
    ensures FilterMap(s, f) == s
    decreases |s|
  {
    if s != [] {
      AllKept(s[..|s| - 1], f);
      assert s == s[..|s| - 1] + [s[|s| - 1]];
    }
  }

  /** The first position whose item satisfies `p` (a `for` loop that returns on the first hit). */
  function FirstIndex<A>(s: seq<A>, p: A -> bool): (r: Option<nat>)
    ensures r.Some? ==> r.value < |s| && p(s[r.value])
    ensures r.Some? ==> forall j :: 0 <= j < r.value ==> !p(s[j])
    ensures r.None? <==> forall j :: 0 <= j < |s| ==> !p(s[j])
    decreases |s|
  {
    if s == [] then None
    else if p(s[0]) then Some(0)
    else match FirstIndex(s[1..], p)
      case None => None
      case Some(k) => Some(k + 1)
  }

  /** One more step of a forward scan that stops at the first hit: `s[..k+1]` has no hit when `s[..k]` has none and `s[k]` is not one. */
  lemma FirstIndexStep<A>(s: seq<A>, k: nat, p: A -> bool)
    requires k < |s|
    ensures FirstIndex(s[..k + 1], p).None? <==> FirstIndex(s[..k], p).None? && !p(s[k])
  {
    assert s[..k + 1][..k] == s[..k];
    assert s[..k + 1][k] == s[k];
  }

  /** The last position whose item satisfies `p` (a loop whose later hits overwrite earlier ones). */
  function LastIndex<A>(s: seq<A>, p: A -> bool): (r: Option<nat>)
    ensures r.Some? ==> r.value < |s| && p(s[r.value])
    ensures r.Some? ==> forall j :: r.value < j < |s| ==> !p(s[j])
    ensures r.None? <==> forall j :: 0 <= j < |s| ==> !p(s[j])
    decreases |s|
  {
    if s == [] then None
    else if p(s[|s| - 1]) then Some(|s| - 1)
    else LastIndex(s[..|s| - 1], p)
  }

  /** One more step of a forward scan: the last hit in `s[..k+1]` is `k` when `s[k]` satisfies `p`, else the last hit in `s[..k]`. */
  lemma LastIndexStep<A>(s: seq<A>, k: nat, p: A -> bool)
    requires k < |s|
    ensures LastIndex(s[..k + 1], p) == if p(s[k]) then Some(k) else LastIndex(s[..k], p)
  {
    assert s[..k + 1][..k] == s[..k];
  }

  // ---------------------------------------------------------------- ordering

  /** `s` is in non-decreasing order of `key`. */
  predicate SortedBy<A>(s: seq<A>, key: A -> int) {
    forall i, j :: 0 <= i < j < |s| ==> key(s[i]) <= key(s[j])
  }

  /** Inserts `x` into `s` after every item whose key is at most `x`'s, so equal keys keep their order. */
  function InsertByKey<A>(s: seq<A>, x: A, key: A -> int): seq<A>
    decreases |s|
  {
    if s == [] || key(s[|s| - 1]) <= key(x) then s + [x]
    else InsertByKey(s[..|s| - 1], x, key) + [s[|s| - 1]]
  }

  /** A stable sort by `key` (an `ORDER BY` over rows kept in insertion order). */
  function SortBy<A>(s: seq<A>, key: A -> int): seq<A>
    decreases |s|
  {
    if s == [] then [] else InsertByKey(SortBy(s[..|s| - 1], key), s[|s| - 1], key)
  }

  lemma {:induction false} InsertByKeyMultiset<A>(s: seq<A>, x: A, key: A -> int)
    ensures multiset(InsertByKey(s, x, key)) == multiset(s) + multiset{x}
    decreases |s|
  {
    if !(s == [] || key(s[|s| - 1]) <= key(x)) {
      var init := s[..|s| - 1];
      assert s == init + [s[|s| - 1]];
      InsertByKeyMultiset(init, x, key);
    }
  }

  /** Every item of `s` has a key at most `bound`. */
  predicate KeysAtMost<A>(s: seq<A>, key: A -> int, bound: int) {
    forall i :: 0 <= i < |s| ==> key(s[i]) <= bound
  }

  lemma {:induction false} InsertByKeyBound<A>(s: seq<A>, x: A, key: A -> int, bound: int)
    requires KeysAtMost(s, key, bound) && key(x) <= bound
    ensures KeysAtMost(InsertByKey(s, x, key), key, bound)
  {
    InsertByKeyMultiset(s, x, key);
    var t := InsertByKey(s, x, key);
    forall i | 0 <= i < |t|
      ensures key(t[i]) <= bound
    {
      assert t[i] in multiset(t);
      if t[i] != x {
        assert t[i] in multiset(s);
        var k :| 0 <= k < |s| && s[k] == t[i];
      }
    }
  }

  lemma {:induction false} InsertByKeySorted<A>(s: seq<A>, x: A, key: A -> int)
    requires SortedBy(s, key)
    ensures SortedBy(InsertByKey(s, x, key), key)
    decreases |s|
  {
    if !(s == [] || key(s[|s| - 1]) <= key(x)) {
      var init, last := s[..|s| - 1], s[|s| - 1];
      InsertByKeySorted(init, x, key);
      assert KeysAtMost(init, key, key(last));
      InsertByKeyBound(init, x, key, key(last));
      var t := InsertByKey(init, x, key);
      assert forall i :: 0 <= i < |t| ==> (t + [last])[i] == t[i];
    }
  }

  /** The sort returns a permutation of its input in non-decreasing key order. */
  lemma {:induction false} SortByProperties<A>(s: seq<A>, key: A -> int)
    ensures multiset(SortBy(s, key)) == multiset(s)
    ensures SortedBy(SortBy(s, key), key)
    decreases |s|
  {
    if s != [] {
      var init := s[..|s| - 1];
      assert s == init + [s[|s| - 1]];
      SortByProperties(init, key);
      InsertByKeyMultiset(SortBy(init, key), s[|s| - 1], key);
      InsertByKeySorted(SortBy(init, key), s[|s| - 1], key);
    }
  }

  lemma SortedPrefix<A>(s: seq<A>, k: nat, key: A -> int)
    requires k <= |s| && SortedBy(s, key)
    ensures SortedBy(s[..k], key)
  {
    var p := s[..k];
    forall i, j | 0 <= i < j < |p| ensures key(p[i]) <= key(p[j]) {
      assert p[i] == s[i] && p[j] == s[j];
    }
  }

  /** Input that is already in key order comes back unchanged. */
  lemma {:induction false} SortByIdentity<A>(s: seq<A>, key: A -> int)
    requires SortedBy(s, key)
    ensures SortBy(s, key) == s
    decreases |s|
  {
    if s != [] {
      var init, last := s[..|s| - 1], s[|s| - 1];
      SortedPrefix(s, |s| - 1, key);
      SortByIdentity(init, key);
      assert init == [] || key(init[|init| - 1]) <= key(last) by {
        if init != [] { assert init[|init| - 1] == s[|s| - 2]; }
      }
      calc {
        SortBy(s, key);
        InsertByKey(SortBy(init, key), last, key);
        InsertByKey(init, last, key);
        init + [last];
        s;
      }
    }
  }

  /** The first `n` items, or all of them when there are fewer (`LIMIT n`). */
  function Take<A>(s: seq<A>, n: nat): (r: seq<A>)
    ensures |r| <= n && |r| <= |s| && r == s[..|r|]
    ensures |s| <= n ==> r == s
    ensures n < |s| ==> |r| == n
  {
    if |s| <= n then s else s[..n]
  }

  /**
   * Cutting a list sorted by `key` after `n` items keeps a sub-multiset, and
   * every item cut off has a key at least that of the last item kept.
   */
  lemma TakeSorted<A>(s: seq<A>, n: nat, key: A -> int)
    requires 0 < n && SortedBy(s, key)
    ensures multiset(Take(s, n)) <= multiset(s)
    ensures forall x :: x in multiset(s) - multiset(Take(s, n)) ==>
      Take(s, n) != [] && key(Take(s, n)[|Take(s, n)| - 1]) <= key(x)
  {
    var r := Take(s, n);
    var rest := s[|r|..];
    assert s == r + rest;
    assert multiset(s) == multiset(r) + multiset(rest);
    forall x | x in multiset(s) - multiset(r)
      ensures r != [] && key(r[|r| - 1]) <= key(x)
    {
      assert x in multiset(rest);
      assert x in rest;
      var k :| 0 <= k < |rest| && rest[k] == x;
      assert |r| == n;
      assert s[|r| + k] == x && s[|r| - 1] == r[|r| - 1];
    }
  }

  /**
   * The first n rows of s in key order: as many as s has up to n, drawn from s,
   * in key order, and every row of s left out sorts no earlier than the last kept.
   */
  lemma TopBy<A>(s: seq<A>, n: nat, key: A -> int)
    requires 0 < n
    ensures var r := Take(SortBy(s, key), n);
      && |r| == (if |s| < n then |s| else n)
      && multiset(r) <= multiset(s)
      && SortedBy(r, key)
      && forall x :: x in multiset(s) - multiset(r) ==> r != [] && key(r[|r| - 1]) <= key(x)
  {
    var sorted := SortBy(s, key);
    SortByProperties(s, key);
    assert |sorted| == |s| by {
      assert |multiset(sorted)| == |multiset(s)|;
    }
    TakeSorted(sorted, n, key);
    SortedPrefix(sorted, |Take(sorted, n)|, key);
  }

  /** `s` reversed. */
  function Reverse<A>(s: seq<A>): (r: seq<A>)
    ensures |r| == |s|
    ensures forall i :: 0 <= i < |s| ==> r[i] == s[|s| - 1 - i]
  {
    seq(|s|, i requires 0 <= i < |s| => s[|s| - 1 - i])
  }

  lemma ReverseOfFour<A>(a: A, b: A, c: A, d: A)
    ensures Reverse([a, b, c, d]) == [d, c, b, a]
  {
    var r := Reverse([a, b, c, d]);
    assert r[0] == d && r[1] == c && r[2] == b && r[3] == a;
  }

  /** Reversing a non-empty list puts its last item first. */
  lemma ReverseSnoc<A>(s: seq<A>)
    requires s != []
    ensures Reverse(s) == [s[|s| - 1]] + Reverse(s[..|s| - 1])
  {
    var init := s[..|s| - 1];
    assert forall i :: 0 <= i < |init| ==> Reverse(init)[i] == s[|s| - 2 - i];
  }
}

=== FILE: text.dfy ===
/**
 * The string operations the matcher uses (`str.lower`, `in`, `startswith`,
 * `str.strip`, the `\s` class), over the ASCII letters and whitespace.
 */
module Text {

  /**
   * Python's `str.isspace` / regex `\s` restricted to ASCII: space, tab, line
   * feed, carriage return, vertical tab, form feed and the four separators
   * 0x1C to 0x1F.
   */
  predicate IsSpace(c: char) {
    c == ' ' || c == '\t' || c == '\n' || c == '\r' || c as int == 11 || c as int == 12 || 28 <= c as int <= 31
  }

  function LowerChar(c: char): (r: char)
    ensures 'A' <= c <= 'Z' ==> r as int == c as int + 32
    ensures !('A' <= c <= 'Z') ==> r == c
  {
    if 'A' <= c <= 'Z' then (c as int + 32) as char else c
  }

  /** `s.lower()`: every upper-case ASCII letter is replaced by its lower-case form. */
  function Lower(s: string): (r: string)
    ensures |r| == |s| && forall i :: 0 <= i < |s| ==> r[i] == LowerChar(s[i])
  {
    seq(|s|, i requires 0 <= i < |s| => LowerChar(s[i]))
  }

  predicate StartsWith(s: string, prefix: string) {
    |prefix| <= |s| && s[..|prefix|] == prefix
  }

  predicate OccursAt(s: string, sub: string, i: nat) {
    i + |sub| <= |s| && s[i..i + |sub|] == sub
  }

  /** `sub in s`. */
  predicate Contains(s: string, sub: string) {
    exists i: nat :: i <= |s| && OccursAt(s, sub, i)
  }

  function StripLeft(s: string): (r: string)
    ensures |r| <= |s| && r == s[|s| - |r|..]
    ensures r == [] || !IsSpace(r[0])
    ensures forall i :: 0 <= i < |s| - |r| ==> IsSpace(s[i])
  {
    if s != [] && IsSpace(s[0]) then StripLeft(s[1..]) else s
  }

  function StripRight(s: string): (r: string)
    ensures |r| <= |s| && r == s[..|r|]
    ensures r == [] || !IsSpace(r[|r| - 1])
    ensures forall i :: |r| <= i < |s| ==> IsSpace(s[i])
  {
    if s != [] && IsSpace(s[|s| - 1]) then StripRight(s[..|s| - 1]) else s
  }

  /** `s.strip()`: leading and trailing whitespace removed, nothing else. */
  function Strip(s: string): (r: string)
    ensures r == [] || (!IsSpace(r[0]) && !IsSpace(r[|r| - 1]))
  {
    StripRight(StripLeft(s))
  }

  /** A string with no whitespace at either end is its own strip. */
  lemma StripUnchanged(s: string)
    requires s == [] || (!IsSpace(s[0]) && !IsSpace(s[|s| - 1]))
    ensures Strip(s) == s
  {
  }

  /** Every character of a contained string occurs in the containing one. */
  lemma ContainsChar(s: string, sub: string, m: nat)
    requires m < |sub|
    ensures Contains(s, sub) ==> sub[m] in s
  {
    if Contains(s, sub) {
      var i: nat :| i <= |s| && OccursAt(s, sub, i);
      assert s[i..i + |sub|][m] == sub[m];
      assert s[i + m] == sub[m];
    }
  }

  /** A string that lacks one of the characters of `sub` does not contain `sub`. */
  lemma NotContainsAbsentChar(s: string, sub: string, m: nat)
    requires m < |sub| && sub[m] !in s
    ensures !Contains(s, sub)
  {
    ContainsChar(s, sub, m);
  }
}

=== FILE: wrappers.dfy ===
/** Optional values: the model's rendering of Python's `None`. */
module Wrappers {

  datatype Option<+T> = None | Some(value: T) {

    /** The wrapped value, or `default` when there is none (Python's `x if x is not None else default`). */
    function GetOr(default: T): T {
      match this
      case Some(v) => v
      case None => default
    }
  }
}
